=== FILE: README.md ===
# Spendly, modelled in Dafny

Spendly is a personal budgeting app. A user sets a monthly salary and
splits it into spending categories. Each category gets either a
percentage of the salary or a fixed amount. The user then pays merchants
through UPI intent links, and each payment is debited from a category
once it settles. This project models the app's core bookkeeping and the
validators, folds and URL codecs around it, and proves properties of
that model. The core has two halves:

- the Express routes that own the data: categories, transactions,
  registration and one-time passwords (OTPs), and the user's salary and
  name;
- the React client's pure logic: the balance context, the quick payment
  dialog, the QR scanner's parser, and the form checks, filters and
  aggregations of the Categories, Budget Planning, Transactions,
  Dashboard, Analytics, Register and Forgot Password pages.

Each file holds one module:

| file | module | what it holds |
|---|---|---|
| `wrappers.dfy` | `Wrappers` | `Option`, `Result` and `Outcome` (a new store together with an answer) |
| `text.dfy` | `JsText` | JavaScript string and number primitives: truthiness, `trim`, `toLowerCase`, `includes`, `.length` in UTF-16 units, `parseFloat`, decimal rendering |
| `patterns.dfy` | `Patterns` | the e-mail, UPI-handle and phone regular expressions as matchers, with their equivalence to the expressions |
| `url_codec.dfy` | `UrlCodec` | `encodeURIComponent`, the `URLSearchParams` serializer, and the `application/x-www-form-urlencoded` parser with UTF-8 decoding (section 5 of the WHATWG URL Standard) |
| `store.dfy` | `Store` | the database: users, categories and transactions, with autoincrement counters |
| `category_routes.dfy` | `CategoryRoutes` | `/api/categories`: create, bulk create, update, delete, recalculate |
| `transaction_routes.dfy` | `TransactionRoutes` | `/api/transactions`: payment creation with its intent URL, and settlement |
| `user_routes.dfy` | `UserRoutes` | `/api/user`: the salary and the display name |
| `auth_routes.dfy` | `AuthRoutes` | `/api/auth`: registration, OTP generation, the OTP store, verification and password reset |
| `client_data.dfy` | `ClientData` | the rows as the client holds them, with JavaScript `===` on ids |
| `balance_context.dfy` | `BalanceContext` | the shared client state: totals, optimistic updates, `validatePayment` |
| `quick_payment.dfy` | `QuickPayment` | the quick payment dialog |
| `qr_scanner.dfy` | `QrScanner` | `parseUPIUrl` |
| `categories_page.dfy` … `forgot_password.dfy` | one module per page | the pages named above |

The server's state is a value of type `Store.Db`. Each route is a function
from the store, the signed-in user and the request body to an `Outcome`,
meaning a new store and either a result or an error. The client's state
is a list of categories and a list of transactions. Its handlers are
functions on those lists and on form records. Money is `real`.

Partner properties tie the two halves together. The client's checks are
compared with the server's answers (`BalanceContext.ValidatePaymentAgrees`,
`RegisterPage.AcceptedFormRegisters`, `ForgotPasswordPage.RecoveryFlow`).
The URL builders are paired with the scanner's parser
(`QrScanner.ServerUrlRoundTrip`, `QrScanner.ClientUrlRoundTrip`). Each
route is paired with an invariant it keeps (`TransactionRoutes.SettleConserves`,
`CategoryRoutes.BulkAllOrNothing`).

Two behaviours of the code are easy to miss:
- Deleting a category does not delete its transactions. The database
  connection never enables foreign keys, so the declared `ON DELETE
  CASCADE` has no effect.
- The Forgot Password page's flow is not protected by the server. The
  reset route never looks at the OTP store (Findings, row 2).

## Model

| member | source | states |
|---|---|---|
| TransactionRoutes.Initiate | server/routes/transactions.js:34-125 | Checks run in order: a falsy `category_id` or a missing or non-positive amount, then a missing merchant handle, then a category id that selects none of the user's categories, then a balance strictly below the amount, so paying the exact balance is allowed. Every error leaves the store unchanged. The handle's format is never checked. Success appends one `pending` row under the category the id selects, with 'Unknown Merchant' and '' as defaults, changes no balance, and returns the intent URL. |
| TransactionRoutes.RowKey | server/routes/transactions.js:53-55 | How SQLite matches the posted `category_id` against the integer `id` column: a number selects the row with that id, a text selects a row exactly when it is an integer literal, and then the row of the number it spells; any other text, such as a `default-` id, selects no row. |
| TransactionRoutes.RowKeyOfText | server/routes/transactions.js:53-55 | The text of a number, as a `<select>` holds it, selects the row with that number as its id. |
| TransactionRoutes.ParseStatus | server/routes/transactions.js:132-137 | Exactly the texts `success`, `failed` and `cancelled` are accepted, each mapped to its own status. Every other text, `pending` included, is refused. |
| TransactionRoutes.Settle | server/routes/transactions.js:128-215 | A bad status, a missing or foreign transaction, and a non-pending transaction are all errors that change nothing, each reported exactly in its own case. A pending row of the user's own is settled exactly when the target is not `success` or the debit does not fail; a failed debit is reported and leaves the row `pending`. Only that row's status changes, and `success` debits exactly the amount from that row's category and no other. |
| TransactionRoutes.SettledIsFinal | server/routes/transactions.js:161-166 | Once a transaction is settled, every later request for it is refused and the store stays as it was. |
| TransactionRoutes.InitiateConserves | server/routes/transactions.js:84-95 | Creating a payment keeps every category's balance plus settled spending unchanged. |
| TransactionRoutes.SettleConserves | server/routes/transactions.js:181-210 | Settling moves a successful amount from the balance into settled spending, so balance plus spending is conserved for every category. |
| TransactionRoutes.DebitedAtMostOnce | server/routes/transactions.js:161-210 | Over any sequence of settlement requests for one transaction, its category is debited once if the transaction ends successful and never otherwise. |
| TransactionRoutes.ServerUpiUrl | server/routes/transactions.js:106 | The intent URL, with no contract of its own: the scheme and `pay?`, then the parameters joined by `&`. QrScanner.ServerUrlRoundTrip states that the scanner reads every field back. |
| TransactionRoutes.UpiParams | server/routes/transactions.js:106 | The five parameters in the order the template writes them, with no contract of its own: `pa`, `pn` and `tn` percent-encoded, `am` as rendered and `cu=INR`. QrScanner.ServerUrlRoundTrip states what they decode to. |
| TransactionRoutes.Funds | server/routes/transactions.js:181-210 | A reference definition, not code of the route: a category's balance plus its settled spending. TransactionRoutes.InitiateConserves and TransactionRoutes.SettleConserves state that payments and settlement keep it, and Analytics.BudgetIsFunds that the Analytics page's budget bar shows it. |
| UrlCodec.Encode | server/routes/transactions.js:106 | `encodeURIComponent` and the form serializer keep their unreserved characters and write every other character as the `%XY` bytes of its UTF-8 encoding. The form serializer writes a space as `+`. The output holds only query-literal characters. |
| UrlCodec.DecodeEncode | client/src/components/QRScanner.jsx:178-185 | The `searchParams` decoder returns exactly the string that either encoder encoded. |
| UrlCodec.Utf8RoundTrip | client/src/components/QRScanner.jsx:178-179 | UTF-8 decoding with replacement inverts UTF-8 encoding. |
| UrlCodec.ParseSerialize | client/src/components/QuickPayment.jsx:196-205 | The form parser reads back any list of names and values that `URLSearchParams` serialized, in order, including duplicates and empty strings. |
| UrlCodec.ParseJoinRaw | server/routes/transactions.js:106 | The server's `name=value&…` text, with values already encoded, parses back into the same names with the values decoded. |
| UrlCodec.SerializeChars | client/src/components/QuickPayment.jsx:196-205 | Serialized form data holds only encoder output, `=` and `&`, so the URL parser's preprocessing leaves it untouched. |
| UrlCodec.Get | client/src/components/QRScanner.jsx:182-185 | `get(name)` returns the value of the first pair with that name, or nothing when no pair has it. |
| UrlCodec.SearchParams | client/src/components/QRScanner.jsx:178-179 | `new URL(url).searchParams`, with no contract of its own: the query of the pre-processed URL, parsed. QrScanner.ClientUrlRoundTrip and QrScanner.ServerUrlRoundTrip state what it reads back. |
| UrlCodec.ParseQuery | client/src/components/QRScanner.jsx:178-179 | The `application/x-www-form-urlencoded` parser of section 5.1 of the WHATWG URL Standard, with no contract of its own. UrlCodec.ParseSerialize and UrlCodec.ParseJoinRaw state that it reads back what the serializers write. |
| UrlCodec.Utf8Decode | client/src/components/QRScanner.jsx:178-179 | UTF-8 decoding with replacement, as the URL Standard's percent-decoding uses it, with no contract of its own. UrlCodec.Utf8RoundTrip states that it inverts UTF-8 encoding. |
| QrScanner.ParseUpiUrl | client/src/components/QRScanner.jsx:174-202 | A `upi://pay?` URL gives `pa` as the handle, `pn` when non-empty and else 'Unknown Merchant', and `am` and `tn` when non-empty and else ''. Other text containing `@` gives its trimmed self with 'Scanned Merchant'. Anything else gives null. |
| QrScanner.ClientUrlRoundTrip | client/src/components/QuickPayment.jsx:192-206 | The dialog's own intent URL scans back to the form's handle, its merchant name (or 'Merchant'), its amount and the 'Payment from …' note. |
| QrScanner.ServerUrlRoundTrip | server/routes/transactions.js:106 | The server's intent URL scans back to the merchant handle, the name (or 'Merchant'), the amount text and the note (or 'Payment via Spendly - ' with the reference). |
| QrScanner.ParsedUpiParams | client/src/components/QRScanner.jsx:177-186 | Any `upi://pay?` URL whose parameters are the five in the builders' order scans to their values. |
| QrScanner.UpiQuery | client/src/components/QRScanner.jsx:177-180 | For a `upi://pay?` URL of query characters, `new URL(…).searchParams` is the form parse of the text after the prefix. |
| ClientData.IdText | client/src/pages/Dashboard.jsx:643-652 | The text a `<select>` holds for an id: a non-negative number renders as its decimal digits. |
| ClientData.IdTextInjective | client/src/components/QuickPayment.jsx:669-677 | Distinct numeric ids render as distinct option values. |
| ClientData.StatusText | server/routes/transactions.js:132 | The status text the client sees is `success` exactly for a successful row and `pending` exactly for a pending one. |
| ClientData.FindByText | client/src/components/QuickPayment.jsx:151-152 | The look-up by text finds nothing exactly when no id renders as the wanted text. Otherwise it finds the first listed category whose id renders as that text, as `Array.find` does. |
| BalanceContext.TotalBudget | client/src/contexts/BalanceContext.jsx:27 | The budget is non-zero exactly when the salary is truthy, and is then the salary. |
| BalanceContext.TotalBalance | client/src/contexts/BalanceContext.jsx:23 | A plain reference fold: the sum of the categories' balances, a missing balance counting 0. It has no contract of its own; CategoriesPage.TotalMatchesStored and Dashboard.OptimisticLowersTotal state what it is. |
| BalanceContext.TotalSpent | client/src/contexts/BalanceContext.jsx:24-26 | A plain reference fold: the sum of the settled transactions' amounts. It has no contract of its own; BalanceContext.SpendingWithinTotal and TransactionsPage.StatsPartition state what it is. |
| BalanceContext.GetSpendingByCategory | client/src/contexts/BalanceContext.jsx:85-89 | A plain reference fold: the sum of the amounts of the settled transactions with that category id. It has no contract of its own; BalanceContext.SpendingMatchesServer states that it equals the server's settled spending for the category, and BalanceContext.SpendingWithinTotal that it is at most the total spent. |
| BalanceContext.UpdateCategoryBalance | client/src/contexts/BalanceContext.jsx:53-61 | The list keeps its length and order. The entries whose id is `===` the given one get the new `current_balance` and nothing else changes. |
| BalanceContext.UpdateUnknownCategory | client/src/contexts/BalanceContext.jsx:55-58 | An id that matches no category leaves the list as it was. |
| BalanceContext.UpdateCategoryTotal | client/src/contexts/BalanceContext.jsx:23 | With unique ids, updating one category moves `totalBalance` by exactly the new balance minus the old. |
| BalanceContext.AddTransaction | client/src/contexts/BalanceContext.jsx:64-66 | The new transaction is prepended and the old list follows in order. `totalSpent` grows by its amount exactly when it is `success`. |
| BalanceContext.UpdateTransactionStatus | client/src/contexts/BalanceContext.jsx:69-77 | Only the status of the matching entries changes. Length, order and every other entry stay as they were. |
| BalanceContext.UpdateStatusTotal | client/src/contexts/BalanceContext.jsx:24-26 | With unique ids, settling one pending transaction as `success` raises `totalSpent` by its amount. Any other status leaves the total alone. |
| BalanceContext.GetCategoryById | client/src/contexts/BalanceContext.jsx:80-82 | The look-up returns the first category whose id is `===` the given id, or nothing when none matches. |
| BalanceContext.SpendingMatchesServer | client/src/contexts/BalanceContext.jsx:85-89 | On a list that mirrors the server's rows, a category's spending equals the server's total of its `success` amounts. |
| BalanceContext.SpendingWithinTotal | client/src/contexts/BalanceContext.jsx:24-26 | With non-negative amounts, a category's spending lies between 0 and `totalSpent`. See also BalanceContext.jsx lines 85-89. |
| BalanceContext.FindByTextAgrees | client/src/contexts/BalanceContext.jsx:80-82 | Among numeric ids, looking up an id's text finds what `===` on the number finds. |
| BalanceContext.ValidatePayment | client/src/contexts/BalanceContext.jsx:92-110 | Checks run in order: category not found, then amount ≤ 0, then `current_balance < amount`. An amount equal to the balance is valid, and a NaN amount passes the last two checks. |
| BalanceContext.ValidKeepsBalance | client/src/contexts/BalanceContext.jsx:98-107 | A payment that passes the check is positive and at most the known balance. |
| BalanceContext.ValidatePaymentAgrees | client/src/contexts/BalanceContext.jsx:92-110 | For a category held as the server stores it, the client accepts a payment exactly when the server creates it, and reports an insufficient balance exactly when the server does. |
| BalanceContext.OnUserChange | client/src/contexts/BalanceContext.jsx:113-120 | Without a user both lists are cleared, so both totals are 0. A failed load keeps the lists. |
| QuickPayment.AvailableCategories | client/src/components/QuickPayment.jsx:78-86 | The user's categories when there are any, otherwise the four local defaults. The result is never empty. |
| QuickPayment.InitialForm | client/src/components/QuickPayment.jsx:89-98 | The form opens with an empty amount and merchant name. The category is the pre-selected one's id, else the first available one's, which is `default-food` when the user has none; a falsy id becomes ''. The handle is the pre-selected category's saved handle when it has one, else ''. |
| QuickPayment.ShownBalance | client/src/components/QuickPayment.jsx:155 | The balance is `current_balance` when truthy, else `balance` when truthy, else 0, and 0 when no category was found. |
| QuickPayment.FieldError | client/src/components/QuickPayment.jsx:128-164 | The amount errs when empty, NaN or ≤ 0, or when it exceeds the found category's balance; the insufficient-balance error replaces the other. The category errs when not chosen. The handle errs when missing or not matching `^[\w.-]+@[\w.-]+$`. |
| QuickPayment.ValidateFormWith | client/src/components/QuickPayment.jsx:128-164 | Every check runs, and a field has an error exactly when its check records one. |
| QuickPayment.ValidFormIff | client/src/components/QuickPayment.jsx:128-164 | A form has no errors exactly when its amount is positive and within the found category's balance, a category is chosen, and the handle is well formed. |
| QuickPayment.ValidateForm | client/src/components/QuickPayment.jsx:128-164 | `validateForm` as written, with no contract of its own: the field checks applied to the category the form's id finds with `===`. QuickPayment.ValidFormIff states when it finds no errors, and QuickPayment.SelectedTextSkipsBalance what that lookup misses. |
| QuickPayment.SelectedCategory | client/src/components/QuickPayment.jsx:151-152 | The found category has the wanted id and is either one of the user's or one of the four defaults. Nothing is found exactly when neither list has that id. When one of the user's categories has it, a user's category is found rather than a default. |
| QuickPayment.HandleInputChange | client/src/components/QuickPayment.jsx:166-173 | Editing a field clears that field's error only; every other error stays. |
| QuickPayment.EditsStayLocal | client/src/components/QuickPayment.jsx:128-173 | Editing the merchant name changes no check. Editing the handle changes only the handle's check. |
| QuickPayment.ClientUpiParams | client/src/components/QuickPayment.jsx:192-206 | Five parameters in order: `pa` the handle, `pn` the merchant name or 'Merchant' when empty, `am` the amount text, `cu=INR`, and `tn` 'Payment from ' followed by the found category's name, or 'Spendly' when none was found or its name is empty. |
| QuickPayment.ClientUpiUrl | client/src/components/QuickPayment.jsx:192-206 | The URL is the app's scheme, `pay?`, then the serialized parameters, which hold only encoder output, `=` and `&`. QrScanner.ClientUrlRoundTrip reads them back. |
| QuickPayment.ConfirmedRequest | client/src/components/QuickPayment.jsx:529-535 | The confirmation button posts the form's category id unchanged, whatever it holds: the numeric id the dialog opened on, the `<select>`'s text after a pick, or a local default's id. With it go the parsed amount, the handle, the merchant name or 'UPI Payment' when it is empty, and the note 'Payment via ' followed by the handle. QuickPayment.ValidFormAccepted, QuickPayment.PickedFormAtServer and QuickPayment.DefaultConfirmationRefused give the server's answer in each case. |
| QuickPayment.ValidFormAccepted | client/src/components/QuickPayment.jsx:128-164 | A form the dialog accepts while it still holds the numeric id of one of the user's categories, held as the server stores it, is accepted by the server too. See also QuickPayment.jsx lines 529-535. |
| QuickPayment.PickedFormAtServer | client/src/components/QuickPayment.jsx:529-535 | After a pick from the `<select>` the dialog accepts any positive amount. For one of the user's categories, the server creates the payment exactly when the amount is within the category's balance, and otherwise answers with an insufficient balance. See also transactions.js lines 73-78. |
| QuickPayment.DefaultConfirmationRefused | client/src/components/QuickPayment.jsx:529-535 | For a form on a local `default-` category that the dialog accepts, the server answers that the category was not found. See also transactions.js lines 66-71. |
| QuickPayment.PostedCategoryId | client/src/components/QuickPayment.jsx:266 | The success branch of `handlePaymentConfirmation`, which no control reaches because its only caller, the failure button on line 611, passes `false`. That branch would post a `default-` id as null and any other string id as itself. On a numeric id it would fail, because `startsWith` is not a method of numbers. |
| QuickPayment.DefaultsPostNoCategory | client/src/components/QuickPayment.jsx:78-81 | The unreachable success branch would post every local default category without a category. The live button does not: see QuickPayment.DefaultConfirmationRefused. See also QuickPayment.jsx line 266. |
| QuickPayment.RestoreOnOpen | client/src/components/QuickPayment.jsx:338-368 | A stored payment is restored exactly when it is under five minutes old and its amount, category and handle all equal the form's. Otherwise it is removed. |
| QuickPayment.StashRestores | client/src/components/QuickPayment.jsx:347-351 | Taken on its own, the restore check accepts a payment stashed from the same amount, category and handle until 300000 ms have passed, whatever the merchant name, and never one for another amount. In the dialog the check never gets such a payment: see QuickPayment.NeverRestored. |
| QuickPayment.Mount | client/src/components/QuickPayment.jsx:89-119 | When the dialog mounts, open or closed, its first effect removes whatever payment the session held, before the restore effect reads it. An open dialog mounts on its opening form, a closed one on the blank `useState` form. |
| QuickPayment.Step | client/src/components/QuickPayment.jsx:78-121 | The dialog as written, where the fallback category list is a new array at every render and a dependency of the first effect. Opening resets the form to the opening form and removes the stored payment before the restore check reads it; closing removes it too. With the user's own categories an edit keeps the typed form and choosing an app stashes the form and shows the confirmation. For a user with no categories the first effect runs after every render of the open dialog, so an edit is replaced by the opening form and an app choice shows no confirmation. A new category list resets the open dialog. See also QuickPayment.jsx lines 337-369. |
| QuickPayment.NeverRestored | client/src/components/QuickPayment.jsx:337-369 | Whatever events follow, and whether or not the fallback list is rebuilt at every render, the restore branch never runs: a stored payment always has the form's amount, category and handle, and the check only runs after one of them changed, or after opening has removed the payment. See also QuickPayment.jsx lines 107 and 117. |
| QuickPayment.MountNeverRestores | client/src/components/QuickPayment.jsx:89-119 | From the mounted dialog, whatever the session held, the restore branch runs zero times. |
| QuickPayment.FirstEffect | client/src/components/QuickPayment.jsx:89-121 | Open, the first effect resets the form to the opening form; open or closed, it hides the confirmation and removes the stored payment. Whether the dialog is open, its opening form and its category list are not changed. |
| QuickPayment.Commit | client/src/components/QuickPayment.jsx:89-121 | One commit runs the first effect when its dependencies changed, then the restore check exactly when the dialog is open and it was closed before or the amount, category or handle changed. When the first effect runs the restore check finds no stored payment, so nothing is restored. See also QuickPayment.jsx lines 337-369. |
| QuickPayment.StepHoisted | client/src/components/QuickPayment.jsx:78-121 | The corrected dialog, with the fallback list declared once so that it keeps its identity. Opening and closing behave as in QuickPayment.Step. Every edit keeps the typed form, choosing an app in the open dialog stashes the form and shows the confirmation, and a new fallback list in place of the old one changes only the opening form. |
| QuickPayment.ResetIsFixpoint | client/src/components/QuickPayment.jsx:89-121 | The render a reset causes changes nothing: an open dialog on its opening form, with no stored payment and no confirmation, is left as it is by another commit, whichever effects run. The renders repeat, but the dialog stays put. |
| QuickPayment.EditsLostWithDefaults | client/src/components/QuickPayment.jsx:78-121 | As written, for a user with no categories, an edit of the open dialog is replaced by its opening form, and choosing an app does not show the confirmation. |
| QuickPayment.TypedAmountLost | client/src/components/QuickPayment.jsx:78-121 | As written, a user with no categories who opens the dialog and types "10" as the amount sees the amount back at ''. |
| QuickPayment.EditsStickHoisted | client/src/components/QuickPayment.jsx:78-121 | With the fallback list hoisted, an edit of the open dialog stays, and choosing an app stashes exactly the current form with the time and shows the confirmation. |
| AuthRoutes.OtpNumber | server/routes/auth.js:17-19 | For a random draw in [0, 1), the code number lies in 100000..999999. |
| AuthRoutes.OtpNumberCovers | server/routes/auth.js:17-19 | Every six-digit number is the code of some draw. |
| AuthRoutes.GenerateOtp | server/routes/auth.js:17-19 | The code text is six digits without a leading zero, and it reads back as the drawn number. |
| AuthRoutes.SendOtp | server/routes/auth.js:320-394 | A missing address and an unregistered address are refused and store nothing. Otherwise a fresh entry (the code's hash, expiry now + 600000 ms, 0 attempts, unverified) replaces any earlier one. The entry is removed again when the mail fails. On success the six-digit code goes to the mailer. |
| AuthRoutes.VerifyAnswer | server/routes/auth.js:397-451 | Checks run in order: fields, then entry present, then `now > expiresAt`, then `attempts >= 3`, then the code's hash. Success comes exactly with a live entry whose hash matches. |
| AuthRoutes.VerifyOtp | server/routes/auth.js:408-446 | No entry: nothing changes. Expired or locked: the entry is deleted, whatever the code. A wrong code adds exactly one attempt and keeps the entry. The right code deletes the entry. |
| AuthRoutes.SentCodeVerifies | server/routes/auth.js:356-366 | Within its lifetime, a freshly mailed code verifies and no other code does. See also auth.js lines 436-446. |
| AuthRoutes.VerifiesAtMostOnce | server/routes/auth.js:436-451 | Without a new send, any sequence of attempts has at most one success, and none when there is no entry. |
| AuthRoutes.WrongCodesBounded | server/routes/auth.js:427-443 | Without a new send, at most three wrong codes, minus those already tried, are ever weighed against an entry. |
| AuthRoutes.Register | server/routes/auth.js:87-241 | Checks run in order: email, password and name present; then the e-mail pattern; then a password of at least 6 UTF-16 units; then a free address; then a free phone, checked only when one is given. Any failure changes nothing. Success inserts one user with the password's hash and `phone \|\| null` under a fresh id. |
| AuthRoutes.RegisterKeepsEmailsUnique | server/routes/auth.js:124-140 | Registration keeps addresses unique. A registered address is found by later look-ups, and registering it again is refused. |
| AuthRoutes.SetPassword | server/routes/auth.js:496-498 | Every row with that address gets the new password's hash, and no other row changes. |
| AuthRoutes.ResetInputError | server/routes/auth.js:466-478 | A missing field is reported first. A new password under 6 UTF-16 units is reported next. |
| AuthRoutes.ResetPassword | server/routes/auth.js:462-518 | Fields, then length, then a registered address. Success replaces that address's password hash. The route never asks whether a code was verified. |
| AuthRoutes.ResetNeedsNoCode | server/routes/auth.js:462-498 | As written, anyone who knows a registered address can replace its password without any code (Finding 2). |
| AuthRoutes.VerifyOtpMarked | server/routes/auth.js:361-366 | The intended verification gives the same answers as the route. The right code marks the entry verified instead of deleting it. See also auth.js lines 436-446. |
| AuthRoutes.ResetPasswordVerified | server/routes/auth.js:462-498 | The intended reset applies the input checks, then requires a verified, unexpired entry for the address, and consumes the entry on success. |
| AuthRoutes.ResetNeedsTheMailedCode | server/routes/auth.js:361-366 | With the intended verification, an entry stays unverified until the mailed code itself is entered. See also auth.js lines 436-446. |
| AuthRoutes.NoEntryStaysGone | server/routes/auth.js:408-415 | Verification never creates an entry. |
| AuthRoutes.SendVerifyReset | server/routes/auth.js:320-518 | The intended flow end to end: the mailed code verifies, the reset succeeds and stores the new hash, and a second reset on the same entry is refused. |
| CategoryRoutes.AllocationRule | server/routes/categories.js:308-314 | A positive percentage decides the new balance whatever the fixed amount. The fixed amount counts only when there is no positive percentage. With neither, the balance is 0. For a positive salary the balance is never negative, and with a percentage of at most 100 and no fixed amount it never exceeds the salary. |
| CategoryRoutes.Recalculate | server/routes/categories.js:287-318 | The request fails with no-salary exactly when the user has no row or the salary is 0, and then nothing changes. Otherwise every category of this user, and no other category, gets its allocation as the new balance. No other table or field is written. |
| CategoryRoutes.RecalculateIdempotent | server/routes/categories.js:308-318 | Recalculating a second time changes nothing: the balances depend only on the salary and the allocation settings. |
| CategoryRoutes.Create | server/routes/categories.js:140-193 | A blank or missing name is refused first. Then a non-zero percentage outside 0..100 is refused. Either refusal leaves the store unchanged. Success stores one row under the next id with the trimmed, non-empty name, missing numbers as 0, a percentage within 0..100 and a zero balance. The id is new to a well-formed store. |
| CategoryRoutes.NewCategory | server/routes/categories.js:159-168 | The inserted row, with no contract of its own: the owner, the trimmed name, missing numbers as 0, the given colour or else the default one, and a zero balance. CategoryRoutes.Create states these of the stored row. |
| CategoryRoutes.Fresh | server/routes/categories.js:43-57 | Keeps exactly the items whose lower-cased name the user does not already have, and nothing else. |
| CategoryRoutes.InsertAllOkIff | server/routes/categories.js:76-112 | The insert loop completes exactly when every item has a non-blank name and an in-range percentage. |
| CategoryRoutes.InsertAllCommit | server/routes/categories.js:76-120 | A completed loop equals checking every item first, then storing the rows under consecutive ids from the next free id. The answer lists those rows with their ids. |
| CategoryRoutes.BulkCreate | server/routes/categories.js:29-137 | A missing, non-array or empty list is refused as invalid categories. An item without a name fails the creation. Every failure leaves the store as it was. Success implies a list of named items. |
| CategoryRoutes.CommitCreates | server/routes/categories.js:85-111 | For valid items the loop commits. Every item is created in order under consecutive ids with its trimmed name, its numbers (missing as 0), its colour (or the default) and a zero balance. Earlier rows, users and transactions are unchanged. |
| CategoryRoutes.BulkAllOrNothing | server/routes/categories.js:66-136 | A bulk request commits exactly when every item that survives the duplicate filter is valid. When it commits, each such item is created and nothing else changes. When it does not, the rollback leaves the store unchanged. |
| CategoryRoutes.BulkPreservesWf | server/routes/categories.js:85-102 | Rows created in bulk get ids no earlier row had, so a well-formed store stays well-formed. |
| CategoryRoutes.BulkKeepsBatchDuplicates | server/routes/categories.js:55-57 | A name repeated inside one request is created twice: the filter compares only against stored names, never within the batch. |
| CategoryRoutes.Update | server/routes/categories.js:196-241 | A blank name is refused. Otherwise a category that is not the user's own is not found, and every refusal changes nothing. Success rewrites only that row's name (trimmed), percentage, fixed amount and colour, keeping its balance and owner. The percentage is not range-checked here. |
| CategoryRoutes.Delete | server/routes/categories.js:244-271 | The request fails exactly when the category is not the user's own, and then nothing changes. Success removes only that row and keeps every transaction, including the ones that pointed at it. |
| UserRoutes.UpdateSalary | server/routes/user.js:32-63 | Refused exactly when the salary is missing, zero or negative, and then nothing changes. Otherwise only this user's salary is set and echoed back, and every other user is untouched. A missing user row still succeeds. |
| UserRoutes.SalaryThenRecalculate | server/routes/user.js:35-46 | After a salary update, the balance recalculation succeeds and gives each of the user's categories its allocation of the new salary. |
| UserRoutes.UpdateName | server/routes/user.js:66-97 | Refused exactly when the name is missing or blank, and then nothing changes. Otherwise the returned name is the input trimmed, and only this user's name is set, to that value. |
| UserRoutes.UpdateNameTrims | server/routes/user.js:69-80 | The stored name is the input trimmed: what is left between a whitespace prefix and a whitespace suffix of the input, non-empty, with no space at either end, and unchanged by trimming again. |
| CategoriesPage.NumberOrZero | client/src/pages/Categories.jsx:72-73 | A field that reads as a non-zero number gives that number. An unreadable field gives 0. |
| CategoriesPage.LoadedField | client/src/pages/Categories.jsx:131-132 | A field the edit handler fills from a stored number reads back as that number, with a missing or zero value as 0. |
| CategoriesPage.ValidateForm | client/src/pages/Categories.jsx:66-91 | The checks run in order and the first failure is reported, each error exactly in its own case: a blank name; then both numbers reading as 0; then both positive; then a percentage above 100. An accepted form has a name and a percentage of at most 100, and with non-negative numbers exactly one of the two is positive. |
| CategoriesPage.Payload | client/src/pages/Categories.jsx:104-109 | The request carries the trimmed name, both numbers with an unreadable value as 0, and the chosen colour. |
| CategoriesPage.TrimmedNameKept | client/src/pages/Categories.jsx:67 | A name the page accepts passes the server's blank-name check after trimming as well. See also Categories.jsx line 105. |
| CategoriesPage.AcceptedFormCreated | client/src/pages/Categories.jsx:93-118 | The server creates a form the page accepts exactly when its percentage is not negative. The page never checks for a negative value. The row holds the trimmed name and both numbers. For non-negative numbers, the salary allocation is the one positive amount. |
| CategoriesPage.AcceptedFormUpdated | client/src/pages/Categories.jsx:111-112 | Saving an accepted form over one's own category always succeeds, even with a negative percentage the create route would refuse. The balance is kept. |
| CategoriesPage.EditForm | client/src/pages/Categories.jsx:127-136 | The edit form shows the category's name, and its numbers read back as the stored ones, with missing as 0. |
| CategoriesPage.CreatedRowTidy | server/routes/categories.js:159-169 | Every created row has a trimmed, non-blank name and a non-empty colour. |
| CategoriesPage.EditSaveUnchanged | client/src/pages/Categories.jsx:104-112 | Saving the unchanged edit form of a stored, tidy category writes the row back exactly as it was, whenever the request is sent. The page sends it only when its own check passes, which CategoriesPage.EditFormRefused characterises. See also Categories.jsx lines 127-134. |
| CategoriesPage.EditFormRefused | client/src/pages/Categories.jsx:66-91 | The page refuses to save the unchanged edit form of a tidy stored row exactly when its amounts are both 0, both positive, or its percentage is above 100. The create route stores such rows, so they cannot be saved back through the page. |
| CategoriesPage.RecalculateGuardAgrees | client/src/pages/Categories.jsx:164-172 | The page's salary guard lets the request through exactly when the server recalculates instead of refusing for lack of a salary. |
| CategoriesPage.TotalMatchesStored | client/src/pages/Categories.jsx:183-185 | The page's percentage total over loaded rows equals the sum of the percentages the server stores. |
| CategoriesPage.TotalPercentage | client/src/pages/Categories.jsx:183-185 | A plain reference fold: the sum of the percentages, a missing one counting 0, and 0 for no categories. CategoriesPage.TotalMatchesStored states that over loaded rows it is the stored total, and BudgetPlanning.TotalsAgree relates it to the Budget Planning page's total. |
| CategoriesPage.TotalFixed | client/src/pages/Categories.jsx:187-189 | A plain reference fold: the sum of the fixed amounts, a missing one counting 0, and 0 for no categories. BudgetPlanning.TotalsAgree relates it to the Budget Planning page's total. |
| BudgetPlanning.Submit | client/src/pages/BudgetPlanning.jsx:79-95 | A percentage category is refused exactly when the user has no salary. A fixed category never needs one. The body carries the name as typed and the colour. |
| BudgetPlanning.SubmitCreates | client/src/pages/BudgetPlanning.jsx:88-101 | The server creates a submitted form exactly when the name is not blank and any percentage is within range. The row keeps only the chosen amount, with the other stored as 0. Under any salary it receives the balance the chosen amount alone gives. |
| BudgetPlanning.SubmitUpdates | client/src/pages/BudgetPlanning.jsx:97-98 | Saving a named form over one's own category always succeeds. The row's allocation is then the chosen amount's. |
| BudgetPlanning.EditForm | client/src/pages/BudgetPlanning.jsx:113-123 | The edit form shows the category's name. The switch is on percentage exactly when the category has a positive percentage. |
| BudgetPlanning.EditKeepsAllocation | client/src/pages/BudgetPlanning.jsx:82-98 | Saving an unchanged edit form is refused only for a percentage category without a salary. Otherwise the save succeeds and the category receives the same balance from the salary as before: edit round-trips the allocation. See also BudgetPlanning.jsx lines 113-120. |
| BudgetPlanning.DefaultPlanIsWhole | client/src/pages/BudgetPlanning.jsx:44-52 | The seven default percentages add up to exactly 100. |
| BudgetPlanning.DefaultPlanGood | client/src/pages/BudgetPlanning.jsx:44-52 | Every default entry has a name with no surrounding whitespace and a percentage in (0, 100]. |
| BudgetPlanning.PlanInput | client/src/pages/BudgetPlanning.jsx:158-160 | The posted body of a good entry passes the server's per-item checks. |
| BudgetPlanning.NewItems | client/src/pages/BudgetPlanning.jsx:146-151 | Keeps exactly the entries whose lower-cased name the user does not have, and is empty exactly when every entry's name is taken. Order and multiplicity are kept: see BudgetPlanning.NewItemsAppend. |
| BudgetPlanning.NewItemsAppend | client/src/pages/BudgetPlanning.jsx:149-151 | Filtering a concatenation of plan entries is concatenating the filtered parts, so the kept entries stay in plan order with their repetitions. |
| BudgetPlanning.NewItemsOne | client/src/pages/BudgetPlanning.jsx:149-151 | A single entry is kept exactly when its lower-cased name is not among the user's. |
| BudgetPlanning.DefaultsFrom | client/src/pages/BudgetPlanning.jsx:138-169 | Without a salary nothing is sent. With a salary, "all exist" is shown exactly when every entry's name is taken. Otherwise the posted entries are exactly the plan's new entries, in plan order: every one of them is posted, and nothing else. |
| BudgetPlanning.CreateDefaults | client/src/pages/BudgetPlanning.jsx:138-169 | The handler on the page's own plan, with no contract of its own. BudgetPlanning.DefaultsFrom states what it does for any plan and BudgetPlanning.DefaultsCreated that the server creates what it posts. |
| BudgetPlanning.PostedInputs | server/routes/categories.js:55-96 | The bodies of good, new entries all pass the server's duplicate filter and item checks, and trimming leaves their names unchanged. |
| BudgetPlanning.PostedCreated | server/routes/categories.js:29-126 | Posting good, new entries creates every one, in order, with its name and percentage, and touches no user. |
| BudgetPlanning.DefaultsCreated | client/src/pages/BudgetPlanning.jsx:138-163 | When the page shows the user's stored names and salary, every default entry it posts is created by the server, and the recalculation that follows succeeds. |
| BudgetPlanning.TotalsAgree | client/src/pages/BudgetPlanning.jsx:183-189 | Without negative amounts, this page's totals (positive amounts only) equal the Categories page's totals (all amounts). |
| BudgetPlanning.CarriedTotal | client/src/pages/BudgetPlanning.jsx:183-185 | Categories carrying a plan's positive percentages total the plan's percentage sum. |
| BudgetPlanning.DefaultPlanNoWarning | client/src/pages/BudgetPlanning.jsx:310 | A budget made of exactly the default plan never shows the "should be 100%" warning. |
| BudgetPlanning.PercentTotal | client/src/pages/BudgetPlanning.jsx:183-185 | A plain reference fold: the sum of the positive percentages. BudgetPlanning.TotalsAgree states that without negative amounts it equals the Categories page's total. |
| BudgetPlanning.FixedTotal | client/src/pages/BudgetPlanning.jsx:187-189 | A plain reference fold: the sum of the positive fixed amounts. BudgetPlanning.TotalsAgree states that without negative amounts it equals the Categories page's total. |
| BudgetPlanning.PercentWarning | client/src/pages/BudgetPlanning.jsx:310 | The warning's condition, with no contract of its own: some category has a positive percentage and the positive percentages do not add up to 100. BudgetPlanning.DefaultPlanNoWarning states that the default plan never shows it. |
| TransactionsPage.Filtered | client/src/pages/Transactions.jsx:76-84 | Keeps exactly the transactions that match both the status filter and the search, and nothing else. Their order is kept: see TransactionsPage.FilteredAppend. |
| TransactionsPage.FilteredAppend | client/src/pages/Transactions.jsx:76-84 | Filtering a concatenation is concatenating the filtered parts, so the shown transactions keep their original order. |
| TransactionsPage.FilteredOne | client/src/pages/Transactions.jsx:76-84 | A single transaction is kept exactly when it matches both the status filter and the search. |
| TransactionsPage.Shown | client/src/pages/Transactions.jsx:76-84 | The filter's test, with no contract of its own: the status filter and the search both keep the transaction. TransactionsPage.FilteredOne and TransactionsPage.SearchIgnoresCase state what it keeps. |
| TransactionsPage.ShowAll | client/src/pages/Transactions.jsx:76-84 | With 'all' and an empty search, the whole list is shown in order. |
| TransactionsPage.SearchIgnoresCase | client/src/pages/Transactions.jsx:78-81 | Searching for a term or for its lower-case form shows the same transactions. |
| TransactionsPage.GetStats | client/src/pages/Transactions.jsx:86-97 | The total is the list length. Each count is the number of rows with that status, and cancelled rows count as failed. |
| TransactionsPage.CountIsFilterLength | client/src/pages/Transactions.jsx:76-94 | Each summary count equals the length of the list the matching status filter shows. |
| TransactionsPage.Count | client/src/pages/Transactions.jsx:88-91 | A count of the transactions with one status text, never more than the list holds. TransactionsPage.CountIsFilterLength states that it is the length of that status filter's list. |
| TransactionsPage.StatsPartition | client/src/pages/Transactions.jsx:87-94 | For rows mirroring the server's, the successful, pending and failed counts add up to the total. |
| TransactionsPage.ActionsMatchServer | client/src/pages/Transactions.jsx:277-293 | The settle buttons appear exactly when the server would accept a settle request for that row. On a settled row every request is refused and changes nothing. |
| Analytics.Accumulate | client/src/pages/Analytics.jsx:38-39 | Adding an amount under a name raises that name's total by the amount and no other name's total. The name joins the key set, keys stay unique, and the grand total grows by the amount. |
| Analytics.SpendingFrom | client/src/pages/Analytics.jsx:37-40 | After the loop, each name's total is its starting total plus what the successful transactions under that name spent. The grand total grows by the page's total spent. |
| Analytics.SpendingByName | client/src/pages/Analytics.jsx:34-40 | The grouped spending has one entry per name a successful transaction falls under. Each entry holds exactly what was spent under that name. The entries add up to the total spent. |
| Analytics.Shares | client/src/pages/Analytics.jsx:42-46 | The chart has one row per group, in order, with the group's name and amount. |
| Analytics.ShareSumScales | client/src/pages/Analytics.jsx:45 | For a non-zero divisor, the shares sum to the grand total over the divisor, times 100. |
| Analytics.SharesMakeWhole | client/src/pages/Analytics.jsx:34-46 | When anything was spent, the chart's shares add up to exactly 100, before rounding. |
| Analytics.SpendingData | client/src/pages/Analytics.jsx:33-46 | The pie chart's rows, with no contract of its own: the per-name totals of the settled transactions, each with its share of the whole. Analytics.SharesMakeWhole states that the shares add up to 100, and Analytics.NameSpentById that a name's total is its category's spending. |
| Analytics.BudgetVsSpending | client/src/pages/Analytics.jsx:49-63 | One row per category, in order. Each row's budget is what the category holds plus what was spent under its name. |
| Analytics.BudgetOf | client/src/pages/Analytics.jsx:56-61 | One bar, with no contract of its own: the category's balance plus its name's spending as the budget, that spending as spent, and the balance as remaining. Analytics.BudgetIsFunds states what the figures are in terms of the server's rows. |
| Analytics.NameSpentById | client/src/contexts/BalanceContext.jsx:85-89 | When a name singles out one category's transactions, grouping by name gives the same sum as the context's sum by category id. |
| Analytics.BudgetIsFunds | client/src/pages/Analytics.jsx:57-61 | The page's rows are any selection of the user's rows that the transactions route returns, in any order: the user's own rows joined to an existing category, taken as a sub-multiset. In a ledger where every row is positive and owned like its category, a bar's spent figure is at most the server's settled spending for that category and its budget at most the category's balance plus that spending. When every such row is loaded, they are equal. The server's payment and settlement routes keep that budget figure constant: see TransactionRoutes.InitiateConserves and TransactionRoutes.SettleConserves. |
| Store.UserRows | server/routes/transactions.js:11-17 | The rows the transactions route selects are exactly the user's own rows whose category exists, the inner join with the categories table. |
| Store.SpentSubMultiset | server/routes/transactions.js:11-17 | Over rows with non-negative amounts, a sub-multiset of rows spends at most what the whole spends in any category, and the same multiset spends the same, whatever the order. |
| Store.SpentUserRows | server/routes/transactions.js:11-17 | In a ledger where every row is owned like its category, the user's joined rows spend in one of the user's categories exactly what all rows spend there. |
| TransactionRoutes.InitiateKeepsLedger | server/routes/transactions.js:34-125 | Creating a payment keeps the ledger invariant: every row has a positive amount, a category id already handed out, and the owner of its category when that category exists. |
| TransactionRoutes.SettleKeepsLedger | server/routes/transactions.js:128-215 | Settling a payment keeps the ledger invariant. |
| CategoryRoutes.RoutesKeepLedger | server/routes/categories.js:140-318 | Creating, updating, deleting and recalculating categories keep the ledger invariant. A deleted category's rows stay, and no later category takes its id. |
| CategoryRoutes.BulkKeepsLedger | server/routes/categories.js:29-137 | The bulk create keeps the ledger invariant, whether it commits or rolls back. |
| UserRoutes.UserRoutesKeepLedger | server/routes/user.js:32-97 | Setting the salary or the name keeps the ledger invariant. |
| AuthRoutes.AuthRoutesKeepLedger | server/routes/auth.js:87-518 | Registering and resetting a password keep the ledger invariant. |
| Analytics.AddToMonth | client/src/pages/Analytics.jsx:73-78 | Adding a transaction to its month keeps the buckets in calendar order. Only that month's amount and count grow, and the month gets a bucket if it had none. |
| Analytics.TrendsFrom | client/src/pages/Analytics.jsx:69-79 | After the loop, the buckets stay sorted. Each month's amount and count grow by exactly what the successful transactions of that month add. |
| Analytics.MonthlyTrends | client/src/pages/Analytics.jsx:66-82 | The trend has one bucket per month with a successful transaction, in calendar order. Each bucket holds that month's amount and number of transactions. |
| Analytics.Percent | client/src/pages/Analytics.jsx:144 | For a positive whole, the result is the part's share of 100, and lies within 0..100 when the part does not exceed the whole. For a whole of 0 or less it is 0. See also Analytics.jsx line 158. |
| Analytics.Round | client/src/pages/Analytics.jsx:172 | The result is the integer nearest to the input, with halves rounded up. |
| Analytics.HeadlineOf | client/src/pages/Analytics.jsx:144-172 | The average per transaction is the rounded successful total over the count of all transactions, and 0 when there are none. |
| Analytics.CardOf | client/src/pages/Analytics.jsx:326-334 | A card's budget is what the category holds plus what it spent. With a positive budget, the spent percentage is the spent share of the budget times 100 and the remaining percentage the balance's share; a zero budget shows 0% spent and 100% remaining. The two always add up to 100, and the spent percentage lies in 0..100. The alert is on exactly when more than four times the remaining balance was spent. See also Analytics.jsx line 403. |
| Analytics.AlertRule | client/src/pages/Analytics.jsx:403 | "Above 80 per cent of the budget spent" is the same as "spent more than four times what is left". |
| Analytics.CardAgreesWithGroup | client/src/pages/Dashboard.jsx:759-762 | For a real category name (not empty, not 'Unknown'), the card's sum equals the grouped chart's figure for that name. |
| Dashboard.HandleFormChange | client/src/pages/Dashboard.jsx:167-174 | The edited input takes the new text, and every other input keeps its text. |
| Dashboard.HandleQrScan | client/src/pages/Dashboard.jsx:176-184 | A scan replaces the payee and the name. An empty amount or note in the code keeps the form's own. The chosen category stays. |
| Dashboard.ScanRefillsForm | client/src/pages/Dashboard.jsx:176-184 | Scanning the intent URL the server made for a payment parses, and fills the form with that payment's payee, name, amount and note. This is a round trip through the URL. |
| Dashboard.FieldChecks | client/src/pages/Dashboard.jsx:187-200 | Each message is reported exactly when its field is the first to fail, in the order amount, category, payee. A non-numeric amount passes the amount test. |
| Dashboard.ValidatePaymentForm | client/src/pages/Dashboard.jsx:186-210 | A field failure is reported first. Only then is the balance context's check consulted, with the `<select>`'s string as the category id. |
| Dashboard.DashboardNeverPays | client/src/pages/Dashboard.jsx:203 | With categories as loaded (numeric ids), no form passes: a fully filled form is always refused with 'Category not found'. See also Dashboard.jsx lines 643-652. |
| Dashboard.OptimisticChangesNothing | client/src/pages/Dashboard.jsx:227-230 | The optimistic update as written changes no balance, because it is keyed by the string id. |
| Dashboard.ValidatePaymentFormCorrected | client/src/pages/Dashboard.jsx:186-210 | Field failures come first. A category whose id text matches no loaded category is reported as not found. |
| Dashboard.CorrectedChecksCategory | client/src/pages/Dashboard.jsx:203 | Choosing category n checks the payment exactly as the balance context checks it for the numeric id n. See also Dashboard.jsx line 227. |
| Dashboard.PostedRequest | client/src/pages/Dashboard.jsx:232-235 | The body carries the parsed amount, the `<select>`'s text as the category id, and the payee, name and note as typed. |
| Dashboard.CorrectedFormAccepted | client/src/pages/Dashboard.jsx:212-235 | For a form the corrected check accepts, the server creates the payment exactly when the amount is a number. A non-numeric amount is refused as invalid data. |
| Dashboard.OptimisticLowersTotal | client/src/pages/Dashboard.jsx:227-230 | With distinct ids, the corrected optimistic update lowers the total balance by exactly the amount. When no category is found, nothing changes. |
| Dashboard.DashboardPlanGood | client/src/pages/Dashboard.jsx:72-80 | Every entry of the Dashboard's default plan is a good entry, and the percentages add up to 100. |
| Dashboard.CreateDefaultsBody | client/src/pages/Dashboard.jsx:91-101 | Nothing is sent exactly when there is no salary. Otherwise the whole plan is posted, unfiltered. |
| Dashboard.PlanValid | server/routes/categories.js:76-83 | Any selection of a good plan's bodies passes the insert loop's checks. |
| Dashboard.DefaultsPosted | client/src/pages/Dashboard.jsx:91-104 | Posting a good plan always succeeds. The server skips the names the user already has and creates the rest, and the recalculation that follows succeeds. |
| Dashboard.PostedNamesExist | server/routes/categories.js:55-111 | After a successful post, every name in the plan is one of the user's category names. |
| Dashboard.DefaultsIdempotent | client/src/pages/Dashboard.jsx:91-101 | Pressing the button a second time creates nothing and changes nothing. |
| RegisterPage.ValidateForm | client/src/pages/Register.jsx:34-76 | Accepts exactly the forms meeting every rule. Each message is reported exactly when its check is the first to fail, in the order name, email, phone present, ten digits, password length, confirmation; terms, then privacy, come last. |
| RegisterPage.Request | client/src/contexts/AuthContext.jsx:61-78 | The request carries the email, password, name and phone as typed. The confirmation is not sent. |
| RegisterPage.AcceptedFormRegisters | client/src/pages/Register.jsx:78-101 | A form the page accepts always passes the server's presence and length checks. The server creates the user exactly when the address matches its pattern and neither address nor phone is registered. Otherwise the error is one of those three. |
| RegisterPage.PasswordRuleAgrees | client/src/pages/Register.jsx:55-58 | With the other fields acceptable, the page reports a short password exactly when the server refuses the password as too weak (or, when empty, as missing). |
| ForgotPasswordPage.ValidatePassword | client/src/pages/ForgotPassword.jsx:38-43 | Each flag holds exactly when its rule does: at least eight UTF-16 units, some digit, some listed special character. The password is valid exactly when all three hold. |
| ForgotPasswordPage.StrongPasswordPassesServer | client/src/pages/ForgotPassword.jsx:132-135 | A password the page accepts always passes the server's presence and length checks. |
| ForgotPasswordPage.PageRuleStricter | server/routes/auth.js:466-478 | The page's rule is strictly stronger than the server's: "abcdef" passes the server and fails the page. |
| ForgotPasswordPage.LastChar | client/src/pages/ForgotPassword.jsx:202 | A slot takes the typed value's last character, or nothing for an empty value. |
| ForgotPasswordPage.Join | client/src/pages/ForgotPassword.jsx:88 | Slots of at most one digit join into a string of digits no longer than the number of slots. |
| ForgotPasswordPage.HandleOtpChange | client/src/pages/ForgotPassword.jsx:198-210 | A value that is not all digits changes nothing. Otherwise only that slot changes, to the value's last character, and the error clears. Slots keep holding at most one digit. |
| ForgotPasswordPage.JoinFull | client/src/pages/ForgotPassword.jsx:88-89 | With slots of at most one digit, the joined code's UTF-16 length is its character count. That count equals the number of slots exactly when every slot is filled. |
| ForgotPasswordPage.AsciiUtf16 | client/src/pages/ForgotPassword.jsx:89 | A digit string has one UTF-16 unit per character. |
| ForgotPasswordPage.JoinDigits | client/src/pages/ForgotPassword.jsx:88 | Slots holding a code's digits one by one join back to that code. |
| ForgotPasswordPage.HandleSendOtp | client/src/pages/ForgotPassword.jsx:46-82 | An address the pattern rejects is never sent and is reported. Otherwise a sent code moves to the code step with a 30-second cooldown, and a refusal is reported. |
| ForgotPasswordPage.SendDisabled | client/src/pages/ForgotPassword.jsx:272 | The address step's button reads `phone`, which is declared nowhere, so rendering it throws a ReferenceError exactly when `loading` is false; when `loading` is true it is disabled. |
| ForgotPasswordPage.AddressStepNeverRenders | client/src/pages/ForgotPassword.jsx:219-272 | The page opens on the address step with `loading` false, so its first render throws. |
| ForgotPasswordPage.SendDisabledCorrected | client/src/pages/ForgotPassword.jsx:272 | The corrected button, reading the address, is enabled exactly when not loading and the address is non-empty. |
| ForgotPasswordPage.CorrectedSendReachesCode | client/src/pages/ForgotPassword.jsx:46-82 | With the corrected button every address the page's own pattern accepts can be submitted, and a successful send moves to the code step with the cooldown started. |
| ForgotPasswordPage.HandleVerifyOtp | client/src/pages/ForgotPassword.jsx:85-120 | An incomplete code is reported and not sent. The page becomes verified exactly when a full code is accepted. It then moves to the password step with the slots cleared. |
| ForgotPasswordPage.HandleResend | client/src/pages/ForgotPassword.jsx:174-195 | While the cooldown runs, nothing changes. Otherwise the slots are cleared on the same step and address. The cooldown restarts exactly when a new code is sent, and a refusal is reported. |
| ForgotPasswordPage.HandleResetPassword | client/src/pages/ForgotPassword.jsx:123-171 | The page leaves for the login page exactly when the code was verified, the password is strong, the confirmation matches and the server accepts. Any other outcome stays on the page with an error and nothing else changed. |
| ForgotPasswordPage.Tick | client/src/pages/ForgotPassword.jsx:25-30 | The timer lowers a running cooldown by one second and changes nothing else. |
| ForgotPasswordPage.Apply | client/src/pages/ForgotPassword.jsx:260-263 | The login page is final. The page reaches it only by submitting the password on the password step. See also ForgotPassword.jsx lines 346-402, 458-540. |
| ForgotPasswordPage.RunAppend | client/src/pages/ForgotPassword.jsx:46-216 | Running two event lists one after the other is the same as running their concatenation. |
| ForgotPasswordPage.InitialInv | client/src/pages/ForgotPassword.jsx:9-20 | The page opens in a state the invariant admits: six empty slots, no cooldown, not verified, on the first step. |
| ForgotPasswordPage.ApplyKeepsInv | client/src/pages/ForgotPassword.jsx:46-216 | Every event keeps the invariant. There are six slots of at most one digit, and the cooldown is at most 30. The page is verified exactly on the password step, whose slots are empty. Past the first step the address matches the pattern. |
| ForgotPasswordPage.RunKeepsInv | client/src/pages/ForgotPassword.jsx:46-216 | Every sequence of events keeps the invariant. |
| ForgotPasswordPage.CodeSentIffFull | client/src/pages/ForgotPassword.jsx:88-92 | Under the invariant, the code goes to the server exactly when every slot holds a digit, and the joined code is all digits. See also ForgotPassword.jsx line 367. |
| ForgotPasswordPage.LoginNeedsVerifiedCode | client/src/pages/ForgotPassword.jsx:126-129 | From an unverified page, the login page is reached only if the server accepted a code during the run. |
| ForgotPasswordPage.LoginNeedsSentCode | client/src/pages/ForgotPassword.jsx:61-63 | From the first step, the login page is reached only if the server sent a code during the run. |
| ForgotPasswordPage.LoginNeedsServer | client/src/pages/ForgotPassword.jsx:46-171 | A run from the opening page that ends at login got both a sent code and an accepted code from the server. |
| ForgotPasswordPage.SendAgrees | server/routes/auth.js:320-394 | With the server's real answer, the page reaches the code step exactly when the address matches the pattern, belongs to a user and the mail went out. The server then holds a live, unverified code for that address. |
| ForgotPasswordPage.TypeDigits | client/src/pages/ForgotPassword.jsx:346-358 | One digit event per remaining position of the code. |
| ForgotPasswordPage.TypingFillsSlots | client/src/pages/ForgotPassword.jsx:198-210 | Typing a six-digit code fills slot k with its k-th digit, and leaves the step, address and cooldown as they were. |
| ForgotPasswordPage.PageReachesCode | client/src/pages/ForgotPassword.jsx:46-89 | Typing a valid address, getting a code sent and typing the code leaves the page on the code step with that code in its slots, ready to send. |
| ForgotPasswordPage.CodeToLogin | client/src/pages/ForgotPassword.jsx:103-161 | From a full code, an accepted code, a strong password typed twice and an accepted reset lead to the login page. |
| ForgotPasswordPage.RecoveryFlow | client/src/pages/ForgotPassword.jsx:46-171 | End to end against the server: the mailed code, typed into the slots, verifies. A password the page accepts is then reset, and the page leaves for login. |
| JsText.TrimShape | server/routes/categories.js:143 | Trimming gives a contiguous part of the input that is no longer than it. The result is empty exactly when the input is all whitespace, and otherwise starts and ends with a non-whitespace character. See also categories.js line 164. |
| JsText.TrimBetween | server/routes/user.js:80 | What `trim` keeps is the part of the input between a whitespace prefix and a whitespace suffix. |
| JsText.TrimIdempotent | server/routes/user.js:69 | Trimming a trimmed string changes nothing. See also user.js line 80. |
| JsText.IncludesIff | client/src/pages/Transactions.jsx:79-81 | `includes` holds exactly when the needle occurs at some offset of the haystack. |
| JsText.Utf16Length | client/src/pages/Register.jsx:55 | A string's JavaScript length lies between its character count and twice that count. |
| JsText.ParseFloatDecimal | client/src/components/QuickPayment.jsx:132 | `parseFloat` reads the decimal rendering of any whole number back as that number. |
| JsText.DecimalSixDigits | server/routes/auth.js:17-19 | Any number from 100000 to 999999 renders as exactly six characters. |
| Patterns.IsValidEmailIff | server/routes/auth.js:102 | The one-pass address matcher accepts exactly the strings of the form local@domain.tld that the regular expression `^[^\s@]+@[^\s@]+\.[^\s@]+$` describes. |
| Patterns.IsValidUpiIdIff | client/src/components/QuickPayment.jsx:145 | Splitting at the first `@` and checking both sides accepts exactly the strings that `^[\w.-]+@[\w.-]+$` describes. |
| QuickPayment.SelectedTextSkipsBalance | client/src/components/QuickPayment.jsx:150-160 | Once a category is picked from the `<select>`, the form holds its id as text and the dialog finds no category. The form is then valid whatever the amount: only a positive amount and a valid handle are required. See also QuickPayment.jsx lines 669-677. |
| QuickPayment.SelectionValidatesAsNumeric | client/src/components/QuickPayment.jsx:150-160 | With the look-up by id text, picking one of the user's categories validates exactly as keeping its numeric id does, so the balance check applies. |
| QuickPayment.SameErrorsForTruthyIds | client/src/components/QuickPayment.jsx:128-164 | Which category id was chosen matters to the checks only through its truthiness. |

## Left out

- HTTP plumbing: status codes, JSON envelopes, the authentication middleware and the GET routes that only read rows. Each route is modelled from the point where it has the signed-in user and the parsed body. Error messages become the cases of an error datatype.
- SQLite itself. Statements run one after another on `Store.Db`. A failing write is modelled only where the code handles it: the bulk create's rollback and the debit at settlement (`debitFails`).
- Password hashing (bcrypt), token signing (JWT), the OTP hash (SHA-256) and mail delivery (nodemailer). Hashes are datatype constructors, which makes them injective, and whether the mail was sent is a parameter.
- Clocks and randomness: `Date.now()` and `Math.random()` are parameters (`now`, and a number drawn from [0, 1)).
- Floating point. Money and percentages are exact `real`s, so binary rounding, `toFixed` and `toLocaleString` are not modelled. The server's rendering of a JavaScript number in the intent URL is an input text.
- JsText.ParseFloat: reads decimal notation only; exponents, `Infinity` and hexadecimal prefixes are not modelled.
- JsText.ToLower: lowers ASCII letters only; JavaScript's full Unicode case mapping is not modelled.
- Analytics.CardOf: a missing `current_balance` counts as 0, as JavaScript's `null + n` does for the database's null; an `undefined` balance, which would make the budget NaN, is not modelled.
- Analytics.BudgetIsFunds: the transactions route orders the user's rows by creation time and returns at most 50 of them. The page's rows are modelled as any sub-multiset of the user's joined rows, which covers that selection but does not pin it down, so with more than 50 rows only the bounds hold.
- Analytics.Accumulate: the per-name totals are kept in a JavaScript object. A category named like an inherited member (`constructor`, `toString`, `valueOf`) would start from that member instead of `undefined`, and `__proto__` creates no entry at all; the model treats every name as an ordinary key. The same holds for Analytics.SpendingFrom, Analytics.SpendingByName and Analytics.BudgetVsSpending, which read the same object.
- Analytics.Shares: `Object.entries` lists integer-like keys first, in numeric order, and the others in insertion order; the model lists every name in first-seen order, so the rows of categories named like `42` come out in another order.
- Analytics.MonthlyTrends: a transaction's month is given as a (year, month) pair; the `Date` parsing and the time zone that produce it are not modelled.
- QuickPayment.HandleInputChange: clearing a field's error is modelled as removing it from the error map, where the component stores `''` under that field; both are falsy to every reader of the map.
- QuickPayment.PostedCategoryId: only the success branch of `handlePaymentConfirmation` is unreachable, and it is modelled only for the `category_id` it would post. The failure branch, which the failure button calls, shows a notice, removes the stored payment and closes the dialog; it is modelled as the dialog's `Close` event. The two requests the success button sends one after another are modelled only for the first.
- TransactionRoutes.RowKey: only digits after an optional minus sign are read as a number; texts that SQLite would also convert, with surrounding spaces, a plus sign, a decimal point or an exponent, are taken to select no row.
- TransactionsPage.GetStats: the contract does not state the total amount; that figure is `BalanceContext.TotalSpent`, whose own contract covers it.
- Concurrency: two settlement requests racing for one transaction, `Promise.all` in the client's loaders, and React's batching of state updates. Each handler is a single step on the state.
- Rendering and browser services: charts, the camera and QR decoding library, `sessionStorage` beyond the pending payment it holds, timers, toasts, focus movement between the OTP boxes, loading flags and image previews.
- The Login, Home and Profile pages, the static pages, and the maintenance scripts. They add no bookkeeping of their own.
- The `catch` branch of `parseUPIUrl`. `new URL` does not throw on text that starts with `upi://pay?`, because its host `pay` is valid, so the branch is never reached.

## Findings

| source | as written | input that shows it | evidently intended | confidence | as-written member | corrected member |
|---|---|---|---|---|---|---|
| client/src/pages/Dashboard.jsx:203 | The form's `category_id` comes from a `<select>`, so it is a string. `validatePayment` looks it up with `===` against the numeric ids loaded from the server, finds nothing and reports 'Category not found'. | Categories `[{id: 1, current_balance: 100}]`, form with category `"1"`, amount `"10"` and handle `"a@b"`: the form is refused. | Look the category up by its id's text, as the optimistic update on line 227 does. | not executed | Dashboard.DashboardNeverPays | Dashboard.CorrectedChecksCategory |
| server/routes/auth.js:462-518 | Verifying an OTP deletes its entry under the comment "Mark as verified", and the reset route never looks at the OTP store. | A user registered as `a@b.co`: posting `{email: "a@b.co", newPassword: "secret1"}` to the reset route with no OTP ever requested replaces the password. | Verification marks the entry as verified, and a reset needs a verified entry for that address, which it then consumes. | not executed | AuthRoutes.ResetNeedsNoCode | AuthRoutes.ResetNeedsTheMailedCode |
| client/src/pages/Dashboard.jsx:227-230 | The optimistic update finds the category by `cat.id.toString()` but passes the string id on to `updateCategoryBalance`, which compares it with `===` against the numeric ids and so changes nothing. | The defect is latent: the form check on line 203 refuses every form first (row 1). Once that check is corrected, categories `[{id: 1, current_balance: 100}]`, category `"1"` and amount 10 leave the balance at 100 until the next reload. | Update the category that was found, by its own id. | not executed | Dashboard.OptimisticChangesNothing | Dashboard.OptimisticLowersTotal |
| client/src/components/QuickPayment.jsx:150-160 | Once a category is picked from the `<select>`, the form holds its id as text, `getCategoryById` finds nothing, and the balance check is skipped. | Categories `[{id: 1, current_balance: 100}]`, category `"1"`, amount `"500"`, handle `"a@b"`: the form is valid, the confirmation is offered, and only the server refuses it, with an insufficient balance (QuickPayment.PickedFormAtServer). | Look the category up by its id's text so that the balance check applies. | not executed | QuickPayment.SelectedTextSkipsBalance | QuickPayment.SelectionValidatesAsNumeric |
| client/src/pages/ForgotPassword.jsx:272 | The address step's submit button is `disabled={loading \|\| !phone}`, and no `phone` is declared in the component or imported. Reading it throws a ReferenceError. | The page opens on the address step with `loading` false: its first render throws, so the reset flow is never shown. | `disabled={loading \|\| !email}`, reading the address the step submits. | not executed | ForgotPasswordPage.AddressStepNeverRenders | ForgotPasswordPage.CorrectedSendReachesCode |
| client/src/components/QuickPayment.jsx:78-121 | `defaultCategories` is a new array at every render, and through `availableCategories` it is a dependency of the reset effect. For a user with no categories the open dialog's effect runs after every render, resets the form and renders again. | No categories, dialog opened, "10" typed as the amount: the amount is back to '' at once, and no app choice shows the confirmation. | Declare the defaults outside the component or memoise them, so the reset runs only when the dialog opens or closes or the categories change. | not executed | QuickPayment.TypedAmountLost | QuickPayment.EditsStickHoisted |

=== FILE: analytics.dfy ===
/** The spending analytics the Dashboard and the Analytics page both
    compute from the loaded transactions: spending grouped by category
    name with each group's share, budget against spending per category,
    the monthly trend, the headline ratios, and the per-category card with
    its high-spending alert. */
module Analytics {
  import opened Wrappers
  import opened JsText
  import opened ClientData
  import Store
  import BalanceContext
  import TransactionRoutes

  /** `transaction.category_name || 'Unknown'`. */
  function GroupName(t: TransactionView): string {
    OrDefault(t.categoryName, "Unknown")
  }

  predicate Succeeded(t: TransactionView) {
    t.status == "success"
  }

  /** The amount of the successful transactions grouped under `name`: the
      reference the grouped figures are checked against. */
  function NameSpent(txs: seq<TransactionView>, name: string): real {
    if txs == [] then 0.0
    else (if Succeeded(txs[0]) && GroupName(txs[0]) == name then txs[0].amount else 0.0) + NameSpent(txs[1..], name)
  }

  /** The names the successful transactions are grouped under. */
  function SpentNames(txs: seq<TransactionView>): set<string> {
    set k | 0 <= k < |txs| && Succeeded(txs[k]) :: GroupName(txs[k])
  }

  // ---------------------------------------------------------------------
  // Spending by category name
  // ---------------------------------------------------------------------

  /** One key of the `categorySpending` object and its value. */
  datatype Entry = Entry(name: string, amount: real)

  /** `obj[name] || 0`. */
  function AmountOf(es: seq<Entry>, name: string): real {
    if es == [] then 0.0 else if es[0].name == name then es[0].amount else AmountOf(es[1..], name)
  }

  function Names(es: seq<Entry>): set<string> {
    set k | 0 <= k < |es| :: es[k].name
  }

  predicate UniqueNames(es: seq<Entry>) {
    forall i, j :: 0 <= i < j < |es| ==> es[i].name != es[j].name
  }

  /** `Object.values(obj).reduce((a, b) => a + b, 0)`. */
  function Total(es: seq<Entry>): real {
    if es == [] then 0.0 else es[0].amount + Total(es[1..])
  }

  /** `r` is `es` with `amount` added under `name`, as far as the amounts,
      the names, their uniqueness and the total tell. */
  ghost predicate AddedTo(r: seq<Entry>, es: seq<Entry>, name: string, amount: real) {
    && (forall n :: AmountOf(r, n) == AmountOf(es, n) + (if n == name then amount else 0.0))
    && Names(r) == Names(es) + {name}
    && (UniqueNames(es) ==> UniqueNames(r))
    && Total(r) == Total(es) + amount
  }

  /** `obj[name] = (obj[name] || 0) + amount`: an existing key keeps its
      place, a new one goes last. */
  function Accumulate(es: seq<Entry>, name: string, amount: real): (r: seq<Entry>)
    ensures forall n :: AmountOf(r, n) == AmountOf(es, n) + (if n == name then amount else 0.0)
    ensures Names(r) == Names(es) + {name}
    ensures UniqueNames(es) ==> UniqueNames(r)
    ensures Total(r) == Total(es) + amount
  {
    if es == [] then [Entry(name, amount)]
    else if es[0].name == name then
      var r := [es[0].(amount := es[0].amount + amount)] + es[1..];
      HeadAdded(es, amount);
      assert AddedTo(r, es, name, amount);
      r
    else
      var rest := Accumulate(es[1..], name, amount);
      assert AddedTo(rest, es[1..], name, amount);
      ConsAdded(es, rest, name, amount);
      [es[0]] + rest
  }

  /** Adding under the first entry's name updates that entry. */
  lemma HeadAdded(es: seq<Entry>, amount: real)
    requires es != []
    ensures AddedTo([es[0].(amount := es[0].amount + amount)] + es[1..], es, es[0].name, amount)
  {
    var r := [es[0].(amount := es[0].amount + amount)] + es[1..];
    assert r[1..] == es[1..];
    NamesCons(r);
    NamesCons(es);
  }

  /** Adding under another name leaves the first entry in front. */
  lemma ConsAdded(es: seq<Entry>, rest: seq<Entry>, name: string, amount: real)
    requires es != [] && es[0].name != name
    requires AddedTo(rest, es[1..], name, amount)
    ensures AddedTo([es[0]] + rest, es, name, amount)
  {
    var r := [es[0]] + rest;
    assert r[0] == es[0] && r[1..] == rest;
    forall n ensures AmountOf(r, n) == AmountOf(es, n) + (if n == name then amount else 0.0) {
      if n != es[0].name {
        assert AmountOf(r, n) == AmountOf(rest, n);
        assert AmountOf(es, n) == AmountOf(es[1..], n);
      }
    }
    NamesCons(r);
    NamesCons(es);
    UniqueCons(r);
    UniqueCons(es);
  }

  lemma UniqueCons(es: seq<Entry>)
    requires es != []
    ensures UniqueNames(es) <==> es[0].name !in Names(es[1..]) && UniqueNames(es[1..])
  {
    if UniqueNames(es) {
      forall i, j | 0 <= i < j < |es[1..]| ensures es[1..][i].name != es[1..][j].name {
        assert es[1..][i] == es[i + 1] && es[1..][j] == es[j + 1];
      }
    }
    if es[0].name !in Names(es[1..]) && UniqueNames(es[1..]) {
      forall i, j | 0 <= i < j < |es| ensures es[i].name != es[j].name {
        assert es[j] == es[1..][j - 1];
        if i > 0 { assert es[i] == es[1..][i - 1]; }
      }
    }
  }

  lemma NamesCons(es: seq<Entry>)
    requires es != []
    ensures Names(es) == {es[0].name} + Names(es[1..])
  {
    forall n | n in Names(es) ensures n in {es[0].name} + Names(es[1..]) {
      var k :| 0 <= k < |es| && es[k].name == n;
      if k > 0 { assert es[1..][k - 1].name == n; }
    }
    forall n | n in Names(es[1..]) ensures n in Names(es) {
      var k :| 0 <= k < |es[1..]| && es[1..][k].name == n;
      assert es[k + 1].name == n;
    }
  }

  lemma SpentNamesCons(txs: seq<TransactionView>)
    requires txs != []
    ensures SpentNames(txs) == (if Succeeded(txs[0]) then {GroupName(txs[0])} else {}) + SpentNames(txs[1..])
  {
    var t := txs[0];
    forall n | n in SpentNames(txs) ensures n in (if Succeeded(t) then {GroupName(t)} else {}) + SpentNames(txs[1..]) {
      var k :| 0 <= k < |txs| && Succeeded(txs[k]) && GroupName(txs[k]) == n;
      if k > 0 { assert txs[1..][k - 1] == txs[k]; }
    }
    forall n | n in SpentNames(txs[1..]) ensures n in SpentNames(txs) {
      var k :| 0 <= k < |txs[1..]| && Succeeded(txs[1..][k]) && GroupName(txs[1..][k]) == n;
      assert txs[k + 1] == txs[1..][k];
    }
  }

  /** The `forEach` over the successful transactions, from the entries so
      far. */
  function SpendingFrom(es: seq<Entry>, txs: seq<TransactionView>): (r: seq<Entry>)
    ensures forall n :: AmountOf(r, n) == AmountOf(es, n) + NameSpent(txs, n)
    ensures Names(r) == Names(es) + SpentNames(txs)
    ensures UniqueNames(es) ==> UniqueNames(r)
    ensures Total(r) == Total(es) + BalanceContext.TotalSpent(txs)
    decreases txs
  {
    if txs == [] then
      assert SpentNames(txs) == {};
      es
    else
      var t := txs[0];
      var next := if Succeeded(t) then Accumulate(es, GroupName(t), t.amount) else es;
      var r := SpendingFrom(next, txs[1..]);
      SpentNamesCons(txs);
      r
  }

  /** `categorySpending` once every transaction is seen: one entry per name
      a successful transaction is grouped under, holding exactly the amount
      spent under it, the amounts adding up to `totalSpent`. */
  lemma SpendingByName(txs: seq<TransactionView>)
    ensures var es := SpendingFrom([], txs);
      && UniqueNames(es)
      && Names(es) == SpentNames(txs)
      && (forall n :: AmountOf(es, n) == NameSpent(txs, n))
      && Total(es) == BalanceContext.TotalSpent(txs)
  {
    assert Names([]) == {};
  }

  /** A row of the spending chart; `share` is `None` where the division
      gives `NaN` or `Infinity` (a zero total). */
  datatype SpendingRow = SpendingRow(name: string, amount: real, share: Option<real>)

  function Shares(es: seq<Entry>, total: real): (r: seq<SpendingRow>)
    ensures |r| == |es|
    ensures forall k :: 0 <= k < |es| ==> r[k].name == es[k].name && r[k].amount == es[k].amount
  {
    if es == [] then []
    else [SpendingRow(es[0].name, es[0].amount, if total != 0.0 then Some(es[0].amount / total * 100.0) else None)]
         + Shares(es[1..], total)
  }

  /** `getSpendingData`: the grouped amounts with their percentage of the
      total. */
  function SpendingData(txs: seq<TransactionView>): seq<SpendingRow> {
    var es := SpendingFrom([], txs);
    Shares(es, Total(es))
  }

  function ShareSum(rows: seq<SpendingRow>): real {
    if rows == [] then 0.0 else (if rows[0].share.Some? then rows[0].share.value else 0.0) + ShareSum(rows[1..])
  }

  lemma {:induction false} ShareSumScales(es: seq<Entry>, total: real)
    requires total != 0.0
    ensures ShareSum(Shares(es, total)) == Total(es) / total * 100.0
  {
    if es != [] {
      ShareSumScales(es[1..], total);
      assert Shares(es, total)[1..] == Shares(es[1..], total);
      var a, t := es[0].amount, Total(es[1..]);
      assert a / total * 100.0 + t / total * 100.0 == (a + t) / total * 100.0;
    }
  }

  lemma SharesOfTotal(es: seq<Entry>)
    requires Total(es) != 0.0
    ensures ShareSum(Shares(es, Total(es))) == 100.0
  {
    ShareSumScales(es, Total(es));
    assert Total(es) / Total(es) == 1.0;
  }

  /** When anything was spent the shares add up to 100 (before rounding
      to one decimal). */
  lemma SharesMakeWhole(txs: seq<TransactionView>)
    requires BalanceContext.TotalSpent(txs) != 0.0
    ensures ShareSum(SpendingData(txs)) == 100.0
  {
    var es := SpendingFrom([], txs);
    SpendingByName(txs);
    assert SpendingData(txs) == Shares(es, Total(es));
    SharesOfTotal(es);
  }

  // ---------------------------------------------------------------------
  // Budget against spending
  // ---------------------------------------------------------------------

  datatype BudgetRow = BudgetRow(name: string, budget: real, spent: real, remaining: Option<real>, color: string)

  /** `getBudgetVsSpendingData` for one category: what it has spent (by
      name), what it holds, and their sum as its budget. */
  function BudgetOf(c: CategoryView, spending: seq<Entry>): BudgetRow {
    var spent := AmountOf(spending, c.name);
    BudgetRow(c.name, OrZero(c.currentBalance) + spent, spent, c.currentBalance, c.color)
  }

  function BudgetVsSpending(cats: seq<CategoryView>, txs: seq<TransactionView>): (r: seq<BudgetRow>)
    ensures |r| == |cats|
    ensures forall k :: 0 <= k < |cats| ==> r[k] == BudgetOf(cats[k], SpendingFrom([], txs))
  {
    var spending := SpendingFrom([], txs);
    seq(|cats|, k requires 0 <= k < |cats| => BudgetOf(cats[k], spending))
  }

  /** The transactions grouped under `name` are exactly those of category
      `c`. */
  predicate NamedApart(views: seq<TransactionView>, name: string, c: Store.CategoryId) {
    forall k :: 0 <= k < |views| ==> (GroupName(views[k]) == name <==> views[k].categoryId == Some(Num(c)))
  }

  lemma {:induction false} NameSpentById(views: seq<TransactionView>, name: string, c: Store.CategoryId)
    requires NamedApart(views, name, c)
    ensures NameSpent(views, name) == BalanceContext.GetSpendingByCategory(views, Num(c))
  {
    if views != [] {
      assert NamedApart(views[1..], name, c) by {
        forall k | 0 <= k < |views| - 1 ensures (GroupName(views[1..][k]) == name <==> views[1..][k].categoryId == Some(Num(c))) {
          assert views[1..][k] == views[k + 1];
        }
      }
      NameSpentById(views[1..], name, c);
    }
  }

  /** The bar of one of the user's categories, from rows the page loaded
      out of `GET /transactions`: any of the user's selected rows, in any
      order, as the route's ordering and 50-row limit give. When the
      category's name singles out its own transactions, the bar's spending
      is at most what the server has settled against the category, and its
      budget at most the category's funds (its balance plus that spending);
      when every selected row was loaded, both are equal. */
  lemma BudgetIsFunds(db: Store.Db, user: Store.UserId, rows: seq<Store.Transaction>, views: seq<TransactionView>,
                      c: Store.CategoryId)
    requires Store.Ledger(db) && c in db.categories && db.categories[c].owner == user
    requires multiset(rows) <= multiset(Store.UserRows(db.transactions, user, db.categories))
    requires Mirrors(views, rows)
    requires NamedApart(views, db.categories[c].name, c)
    ensures var bar := BudgetOf(CategoryOf(c, db.categories[c]), SpendingFrom([], views));
      && bar.spent <= Store.Spent(db.transactions, c) && bar.budget <= TransactionRoutes.Funds(db, c)
      && (multiset(rows) == multiset(Store.UserRows(db.transactions, user, db.categories)) ==>
            bar.spent == Store.Spent(db.transactions, c) && bar.budget == TransactionRoutes.Funds(db, c))
  {
    var selected := Store.UserRows(db.transactions, user, db.categories);
    var name := db.categories[c].name;
    var spent := AmountOf(SpendingFrom([], views), name);
    assert spent == Store.Spent(rows, c) by {
      SpendingByName(views);
      NameSpentById(views, name, c);
      BalanceContext.SpendingMatchesServer(views, rows, c);
    }
    assert Store.Spent(selected, c) == Store.Spent(db.transactions, c) by {
      Store.SpentUserRows(db.transactions, user, db.categories, db.nextCategory, c);
    }
    Store.UserRowsNonNegative(db, user);
    Store.SpentSubMultiset(rows, selected, c);
  }

  // ---------------------------------------------------------------------
  // Monthly trend
  // ---------------------------------------------------------------------

  /** One month of the trend. */
  datatype Bucket = Bucket(month: Month, amount: real, count: nat)

  /** The order of the `YYYY-MM` keys, for four-digit years. */
  predicate Before(a: Month, b: Month) {
    a.year < b.year || (a.year == b.year && a.month < b.month)
  }

  predicate Sorted(bs: seq<Bucket>) {
    forall i, j :: 0 <= i < j < |bs| ==> Before(bs[i].month, bs[j].month)
  }

  function Months(bs: seq<Bucket>): set<Month> {
    set k | 0 <= k < |bs| :: bs[k].month
  }

  function BucketAmount(bs: seq<Bucket>, m: Month): real {
    if bs == [] then 0.0 else if bs[0].month == m then bs[0].amount else BucketAmount(bs[1..], m)
  }

  function BucketCount(bs: seq<Bucket>, m: Month): nat {
    if bs == [] then 0 else if bs[0].month == m then bs[0].count else BucketCount(bs[1..], m)
  }

  /** Adds one transaction to its month, keeping the months in order. */
  function AddToMonth(bs: seq<Bucket>, m: Month, amount: real): (r: seq<Bucket>)
    requires Sorted(bs)
    ensures Sorted(r)
    ensures Months(r) == Months(bs) + {m}
    ensures forall x :: BucketAmount(r, x) == BucketAmount(bs, x) + (if x == m then amount else 0.0)
    ensures forall x :: BucketCount(r, x) == BucketCount(bs, x) + (if x == m then 1 else 0)
  {
    if bs == [] then
      var r := [Bucket(m, amount, 1)];
      assert Months(r) == {m} by { assert r[0].month == m; }
      r
    else if bs[0].month == m then
      var r := [bs[0].(amount := bs[0].amount + amount, count := bs[0].count + 1)] + bs[1..];
      MonthsCons(bs);
      MonthsCons(r);
      assert r[1..] == bs[1..];
      assert Sorted(r) by { SortedTail(bs); SortedCons(r[0], bs[1..]); }
      r
    else if Before(m, bs[0].month) then
      var r := [Bucket(m, amount, 1)] + bs;
      assert r[1..] == bs;
      MonthsCons(r);
      SortedHead(bs);
      MonthAbsent(bs, m);
      SortedCons(r[0], bs);
      r
    else
      SortedTail(bs);
      var rest := AddToMonth(bs[1..], m, amount);
      var r := [bs[0]] + rest;
      assert r[1..] == rest;
      MonthsCons(bs);
      MonthsCons(r);
      SortedCons(bs[0], rest);
      r
  }

  /** Every month of a sorted list after its first comes after the first. */
  lemma SortedHead(bs: seq<Bucket>)
    requires Sorted(bs) && bs != []
    ensures forall x :: x in Months(bs) ==> x == bs[0].month || Before(bs[0].month, x)
    ensures forall x :: x in Months(bs[1..]) ==> Before(bs[0].month, x)
  {
    forall x | x in Months(bs[1..]) ensures Before(bs[0].month, x) {
      var k :| 0 <= k < |bs[1..]| && bs[1..][k].month == x;
      assert bs[k + 1].month == x;
    }
    MonthsCons(bs);
  }

  lemma SortedTail(bs: seq<Bucket>)
    requires Sorted(bs) && bs != []
    ensures Sorted(bs[1..])
    ensures forall x :: x in Months(bs[1..]) ==> Before(bs[0].month, x)
  {
    SortedHead(bs);
  }

  lemma SortedCons(b: Bucket, rest: seq<Bucket>)
    requires Sorted(rest) && forall x :: x in Months(rest) ==> Before(b.month, x)
    ensures Sorted([b] + rest)
  {
    var r := [b] + rest;
    forall i, j | 0 <= i < j < |r| ensures Before(r[i].month, r[j].month) {
      assert r[j] == rest[j - 1];
      assert rest[j - 1].month in Months(rest);
      if i > 0 { assert r[i] == rest[i - 1]; }
    }
  }

  lemma MonthsCons(bs: seq<Bucket>)
    requires bs != []
    ensures Months(bs) == {bs[0].month} + Months(bs[1..])
  {
    forall x | x in Months(bs) ensures x in {bs[0].month} + Months(bs[1..]) {
      var k :| 0 <= k < |bs| && bs[k].month == x;
      if k > 0 { assert bs[1..][k - 1].month == x; }
    }
    forall x | x in Months(bs[1..]) ensures x in Months(bs) {
      var k :| 0 <= k < |bs[1..]| && bs[1..][k].month == x;
      assert bs[k + 1].month == x;
    }
  }

  /** A month before the first bucket of a sorted list has no bucket. */
  lemma {:induction false} MonthAbsent(bs: seq<Bucket>, m: Month)
    requires Sorted(bs) && bs != [] && Before(m, bs[0].month)
    ensures BucketAmount(bs, m) == 0.0 && BucketCount(bs, m) == 0
  {
    if |bs| > 1 {
      assert Before(bs[0].month, bs[1..][0].month);
      MonthAbsent(bs[1..], m);
    }
  }

  /** The months and counts of the successful transactions. */
  function MonthSpent(txs: seq<TransactionView>, m: Month): real {
    if txs == [] then 0.0 else (if Succeeded(txs[0]) && txs[0].created == m then txs[0].amount else 0.0) + MonthSpent(txs[1..], m)
  }

  function MonthCount(txs: seq<TransactionView>, m: Month): nat {
    if txs == [] then 0 else (if Succeeded(txs[0]) && txs[0].created == m then 1 else 0) + MonthCount(txs[1..], m)
  }

  function SpentMonths(txs: seq<TransactionView>): set<Month> {
    set k | 0 <= k < |txs| && Succeeded(txs[k]) :: txs[k].created
  }

  /** `r` is the buckets `bs` with the successful transactions of `txs`
      added in. */
  ghost predicate TrendsOf(r: seq<Bucket>, bs: seq<Bucket>, txs: seq<TransactionView>) {
    && Sorted(r)
    && Months(r) == Months(bs) + SpentMonths(txs)
    && (forall x :: BucketAmount(r, x) == BucketAmount(bs, x) + MonthSpent(txs, x))
    && (forall x :: BucketCount(r, x) == BucketCount(bs, x) + MonthCount(txs, x))
  }

  /** `getMonthlyTrends` from the buckets so far. */
  function TrendsFrom(bs: seq<Bucket>, txs: seq<TransactionView>): (r: seq<Bucket>)
    requires Sorted(bs)
    ensures TrendsOf(r, bs, txs)
    decreases txs
  {
    if txs == [] then
      assert SpentMonths(txs) == {};
      bs
    else
      var t := txs[0];
      var next := if Succeeded(t) then AddToMonth(bs, t.created, t.amount) else bs;
      var r := TrendsFrom(next, txs[1..]);
      TrendsStep(bs, txs, next, r);
      r
  }

  lemma SpentMonthsCons(txs: seq<TransactionView>)
    requires txs != []
    ensures SpentMonths(txs) == (if Succeeded(txs[0]) then {txs[0].created} else {}) + SpentMonths(txs[1..])
  {
    var t := txs[0];
    forall x | x in SpentMonths(txs) ensures x in (if Succeeded(t) then {t.created} else {}) + SpentMonths(txs[1..]) {
      var k :| 0 <= k < |txs| && Succeeded(txs[k]) && txs[k].created == x;
      if k > 0 { assert txs[1..][k - 1] == txs[k]; }
    }
    forall x | x in SpentMonths(txs[1..]) ensures x in SpentMonths(txs) {
      var k :| 0 <= k < |txs[1..]| && Succeeded(txs[1..][k]) && txs[1..][k].created == x;
      assert txs[k + 1] == txs[1..][k];
    }
  }

  /** One transaction's step of the fold. */
  lemma TrendsStep(bs: seq<Bucket>, txs: seq<TransactionView>, next: seq<Bucket>, r: seq<Bucket>)
    requires Sorted(bs) && txs != []
    requires next == if Succeeded(txs[0]) then AddToMonth(bs, txs[0].created, txs[0].amount) else bs
    requires TrendsOf(r, next, txs[1..])
    ensures TrendsOf(r, bs, txs)
  {
    SpentMonthsCons(txs);
    if Succeeded(txs[0]) {
      TrendsHit(bs, txs, next, r);
    } else {
      TrendsMiss(txs);
    }
  }

  /** A successful transaction's amount lands in its month's bucket. */
  lemma TrendsHit(bs: seq<Bucket>, txs: seq<TransactionView>, next: seq<Bucket>, r: seq<Bucket>)
    requires Sorted(bs) && txs != [] && Succeeded(txs[0])
    requires next == AddToMonth(bs, txs[0].created, txs[0].amount)
    requires TrendsOf(r, next, txs[1..])
    ensures forall x :: BucketAmount(r, x) == BucketAmount(bs, x) + MonthSpent(txs, x)
    ensures forall x :: BucketCount(r, x) == BucketCount(bs, x) + MonthCount(txs, x)
  {
    var t := txs[0];
    forall x ensures BucketAmount(r, x) == BucketAmount(bs, x) + MonthSpent(txs, x) {
      assert MonthSpent(txs, x) == (if t.created == x then t.amount else 0.0) + MonthSpent(txs[1..], x);
      assert BucketAmount(next, x) == BucketAmount(bs, x) + (if x == t.created then t.amount else 0.0);
    }
    forall x ensures BucketCount(r, x) == BucketCount(bs, x) + MonthCount(txs, x) {
      assert MonthCount(txs, x) == (if t.created == x then 1 else 0) + MonthCount(txs[1..], x);
      assert BucketCount(next, x) == BucketCount(bs, x) + (if x == t.created then 1 else 0);
    }
  }

  /** Any other transaction is skipped. */
  lemma TrendsMiss(txs: seq<TransactionView>)
    requires txs != [] && !Succeeded(txs[0])
    ensures forall x :: MonthSpent(txs, x) == MonthSpent(txs[1..], x) && MonthCount(txs, x) == MonthCount(txs[1..], x)
  {
  }

  /** The trend: one bucket per month with a successful transaction, in
      calendar order, holding that month's amount and number of
      transactions. */
  lemma MonthlyTrends(txs: seq<TransactionView>)
    ensures var r := TrendsFrom([], txs);
      && Sorted(r)
      && Months(r) == SpentMonths(txs)
      && (forall x :: BucketAmount(r, x) == MonthSpent(txs, x))
      && (forall x :: BucketCount(r, x) == MonthCount(txs, x))
  {
    assert Months([]) == {};
  }

  // ---------------------------------------------------------------------
  // Ratios
  // ---------------------------------------------------------------------

  /** `whole > 0 ? (part / whole) * 100 : 0`. */
  function Percent(part: real, whole: real): (r: real)
    ensures whole > 0.0 && 0.0 <= part <= whole ==> 0.0 <= r <= 100.0
    ensures whole <= 0.0 ==> r == 0.0
    ensures whole > 0.0 ==> r * whole == part * 100.0
  {
    if whole > 0.0 then part / whole * 100.0 else 0.0
  }

  /** `Math.round`: the nearest integer, halves rounded up. */
  function Round(x: real): (r: int)
    ensures r as real - 0.5 <= x < r as real + 0.5
  {
    (x + 0.5).Floor
  }

  /** The three headline figures: the savings rate and the share of the
      budget used (both against the salary), and the average transaction,
      which divides the successful amount by the number of all
      transactions, whatever their status. */
  datatype Headline = Headline(savingsRate: real, budgetUsed: real, average: int)

  function HeadlineOf(totalBalance: real, totalSpent: real, totalBudget: real, count: nat): (h: Headline)
    ensures count == 0 ==> h.average == 0
    ensures count > 0 ==> h.average as real - 0.5 <= totalSpent / count as real < h.average as real + 0.5
  {
    Headline(Percent(totalBalance, totalBudget), Percent(totalSpent, totalBudget),
             if count > 0 then Round(totalSpent / count as real) else 0)
  }

  // ---------------------------------------------------------------------
  // Category cards
  // ---------------------------------------------------------------------

  /** What a category card adds up: successful transactions whose
      `category_name` is the category's name. */
  function CardSpent(txs: seq<TransactionView>, name: string): real {
    if txs == [] then 0.0
    else (if Succeeded(txs[0]) && txs[0].categoryName == Some(name) then txs[0].amount else 0.0) + CardSpent(txs[1..], name)
  }

  /** The card's figures: spent, budget (what it holds plus what it spent),
      the shares spent and remaining, and the alert shown above 80 per
      cent. */
  datatype Card = Card(spent: real, budget: real, spentPercent: real, remainingPercent: real, alert: bool)

  function CardOf(c: CategoryView, txs: seq<TransactionView>): (card: Card)
    ensures card.spent == CardSpent(txs, c.name) && card.budget == OrZero(c.currentBalance) + card.spent
    ensures card.alert <==> card.budget > 0.0 && card.spent > 4.0 * OrZero(c.currentBalance)
    ensures OrZero(c.currentBalance) >= 0.0 && card.spent >= 0.0 ==> 0.0 <= card.spentPercent <= 100.0
    ensures card.budget <= 0.0 ==> card.spentPercent == 0.0 && card.remainingPercent == 100.0
    ensures card.budget > 0.0 ==> card.remainingPercent * card.budget == OrZero(c.currentBalance) * 100.0
    ensures card.budget > 0.0 ==> card.spentPercent * card.budget == card.spent * 100.0
    ensures card.spentPercent + card.remainingPercent == 100.0
  {
    var spent := CardSpent(txs, c.name);
    var budget := OrZero(c.currentBalance) + spent;
    var pct := Percent(spent, budget);
    AlertRule(OrZero(c.currentBalance), spent);
    Card(spent, budget, pct, 100.0 - pct, pct > 80.0)
  }

  /** Above 80 per cent spent means spent more than four times what is
      left. */
  lemma AlertRule(left: real, spent: real)
    ensures Percent(spent, left + spent) > 80.0 <==> left + spent > 0.0 && spent > 4.0 * left
  {
    var budget := left + spent;
    if budget > 0.0 {
      ScaledAbove(Percent(spent, budget), budget, spent * 100.0);
    }
  }

  lemma ScaledAbove(pct: real, budget: real, n: real)
    requires budget > 0.0 && pct * budget == n
    ensures pct > 80.0 <==> n > 80.0 * budget
  {
    ScaleOrder(pct, 80.0, budget);
  }

  lemma ScaleOrder(x: real, y: real, b: real)
    requires b > 0.0
    ensures x > y <==> x * b > y * b
  {
    if x > y { assert (x - y) * b > 0.0; }
    if x * b > y * b { assert (x - y) * b > 0.0; }
  }

  /** The card's sum agrees with the grouped figure for every real
      category name (one that is neither empty nor 'Unknown'). */
  lemma {:induction false} CardAgreesWithGroup(txs: seq<TransactionView>, name: string)
    requires name != [] && name != "Unknown"
    ensures CardSpent(txs, name) == NameSpent(txs, name)
  {
    if txs != [] {
      CardAgreesWithGroup(txs[1..], name);
    }
  }
}

=== FILE: auth_routes.dfy ===
/** The `/api/auth` routes that change state: registration, and the
    password-reset flow built on a one-time code kept in an in-memory store
    keyed by e-mail address (expiring after ten minutes, locked after three
    wrong codes). The clock, the random number behind a code and whether the
    mail goes out are inputs; the SHA-256 and bcrypt hashes are injective
    constructors. */
module AuthRoutes {
  import opened Wrappers
  import opened JsText
  import opened Patterns
  import opened Store

  // ---------------------------------------------------------------------
  // One-time codes
  // ---------------------------------------------------------------------

  /** `Math.floor(100000 + Math.random() * 900000)` for a random number in
      [0, 1). */
  function OtpNumber(rand: real): (n: int)
    requires 0.0 <= rand < 1.0
    ensures 100000 <= n <= 999999
  {
    (100000.0 + rand * 900000.0).Floor
  }

  /** Every six-digit number is the code of some random draw. */
  lemma OtpNumberCovers(n: int)
    requires 100000 <= n <= 999999
    ensures var rand := (n - 100000) as real / 900000.0;
      0.0 <= rand < 1.0 && OtpNumber(rand) == n
  {
    var rand := (n - 100000) as real / 900000.0;
    assert rand * 900000.0 == (n - 100000) as real;
    assert 100000.0 + rand * 900000.0 == n as real;
  }

  /** `generateOTP()`: the code as text, always six digits with no leading
      zero, read back as the drawn number. */
  function GenerateOtp(rand: real): (otp: string)
    requires 0.0 <= rand < 1.0
    ensures |otp| == 6 && AllDigits(otp) && otp[0] != '0'
    ensures DigitsValue(otp) == OtpNumber(rand)
  {
    var n := OtpNumber(rand);
    DecimalSixDigits(n);
    Decimal(n)
  }

  /** `hashOTP`: the SHA-256 digest of a code. */
  datatype OtpHash = Sha256(code: string)

  /** A stored code: its hash, its expiry time in milliseconds, the number
      of wrong codes tried against it and the `verified` flag. */
  datatype OtpEntry = OtpEntry(hash: OtpHash, expiresAt: int, attempts: nat, verified: bool)

  type OtpStore = map<string, OtpEntry>

  /** Ten minutes in milliseconds. */
  const OtpLifetime: int := 10 * 60 * 1000

  /** Wrong codes after which an entry is locked. */
  const MaxAttempts: nat := 3

  /** Some user row has exactly this e-mail address. */
  predicate EmailRegistered(db: Db, email: string) {
    exists u :: u in db.users && db.users[u].email == email
  }

  datatype SendError = EmailRequired | EmailNotRegistered | EmailSendFailed

  /** `POST /send-otp`: an address is required and must belong to a user;
      a fresh code replaces any previous entry for the address, and the
      entry is dropped again when the mail cannot be sent. On success the
      result is the code handed to the mailer. */
  function SendOtp(db: Db, store: OtpStore, email: Option<string>, now: int, rand: real, mailSent: bool)
    : (r: (OtpStore, Result<string, SendError>))
    requires 0.0 <= rand < 1.0
    ensures r.1 == Err(EmailRequired) <==> !Truthy(email)
    ensures r.1 == Err(EmailNotRegistered) <==> Truthy(email) && !EmailRegistered(db, email.value)
    ensures r.1 == Err(EmailSendFailed) <==> Truthy(email) && EmailRegistered(db, email.value) && !mailSent
    ensures r.1 == Err(EmailRequired) || r.1 == Err(EmailNotRegistered) ==> r.0 == store
    ensures r.1 == Err(EmailSendFailed) ==> r.0 == store - {email.value}
    ensures r.1.Ok? ==>
      && email.Some? && |r.1.value| == 6 && AllDigits(r.1.value)
      && r.0 == store[email.value := OtpEntry(Sha256(r.1.value), now + OtpLifetime, 0, false)]
  {
    if !Truthy(email) then (store, Err(EmailRequired))
    else if !EmailRegistered(db, email.value) then (store, Err(EmailNotRegistered))
    else
      var otp := GenerateOtp(rand);
      var stored := store[email.value := OtpEntry(Sha256(otp), now + OtpLifetime, 0, false)];
      if mailSent then (stored, Ok(otp)) else (stored - {email.value}, Err(EmailSendFailed))
  }

  datatype VerifyError = OtpFieldsRequired | OtpNotFound | OtpExpired | TooManyAttempts | InvalidOtp

  /** The entry for `email` exists, has not expired at `now` and is not
      locked. */
  predicate Live(store: OtpStore, email: string, now: int) {
    email in store && now <= store[email].expiresAt && store[email].attempts < MaxAttempts
  }

  /** The answer of `POST /verify-otp`, decided in the route's order:
      fields, entry, expiry, attempts, code. */
  function VerifyAnswer(store: OtpStore, email: Option<string>, otp: Option<string>, now: int)
    : (r: Result<(), VerifyError>)
    ensures r == Err(OtpFieldsRequired) <==> !Truthy(email) || !Truthy(otp)
    ensures r == Err(OtpNotFound) <==> Truthy(email) && Truthy(otp) && email.value !in store
    ensures r == Err(OtpExpired) <==>
      Truthy(email) && Truthy(otp) && email.value in store && now > store[email.value].expiresAt
    ensures r == Err(TooManyAttempts) <==>
      && Truthy(email) && Truthy(otp) && email.value in store && now <= store[email.value].expiresAt
      && store[email.value].attempts >= MaxAttempts
    ensures r == Err(InvalidOtp) <==>
      Truthy(email) && Truthy(otp) && Live(store, email.value, now) && store[email.value].hash != Sha256(otp.value)
    ensures r.Ok? <==>
      Truthy(email) && Truthy(otp) && Live(store, email.value, now) && store[email.value].hash == Sha256(otp.value)
  {
    if !Truthy(email) || !Truthy(otp) then Err(OtpFieldsRequired)
    else if email.value !in store then Err(OtpNotFound)
    else
      var entry := store[email.value];
      if now > entry.expiresAt then Err(OtpExpired)
      else if entry.attempts >= MaxAttempts then Err(TooManyAttempts)
      else if entry.hash != Sha256(otp.value) then Err(InvalidOtp)
      else Ok(())
  }

  /** `POST /verify-otp` as written: an expired or locked entry is deleted,
      a wrong code adds one attempt and keeps the entry, and the right code
      deletes the entry. */
  function VerifyOtp(store: OtpStore, email: Option<string>, otp: Option<string>, now: int)
    : (r: (OtpStore, Result<(), VerifyError>))
    ensures r.1 == VerifyAnswer(store, email, otp, now)
    ensures r.1 == Err(OtpFieldsRequired) || r.1 == Err(OtpNotFound) ==> r.0 == store
    ensures r.1 == Err(OtpExpired) || r.1 == Err(TooManyAttempts) || r.1.Ok? ==> r.0 == store - {email.value}
    ensures r.1 == Err(InvalidOtp) ==>
      r.0 == store[email.value := store[email.value].(attempts := store[email.value].attempts + 1)]
  {
    var answer := VerifyAnswer(store, email, otp, now);
    match answer
    case Err(OtpFieldsRequired) => (store, answer)
    case Err(OtpNotFound) => (store, answer)
    case Err(InvalidOtp) =>
      var entry := store[email.value];
      (store[email.value := entry.(attempts := entry.attempts + 1)], answer)
    case _ => (store - {email.value}, answer)
  }

  /** A code mailed by `send-otp` verifies before it expires, and no other
      code does. */
  lemma SentCodeVerifies(db: Db, store: OtpStore, email: Option<string>, now: int, rand: real, later: int, code: string)
    requires 0.0 <= rand < 1.0
    requires SendOtp(db, store, email, now, rand, true).1.Ok?
    requires later <= now + OtpLifetime && code != []
    ensures var s := SendOtp(db, store, email, now, rand, true);
      VerifyOtp(s.0, email, Some(code), later).1.Ok? <==> code == s.1.value
  {
  }

  /** One verification attempt, as the client sends it for a fixed address. */
  datatype Attempt = Attempt(otp: string, now: int)

  /** The answers to a sequence of attempts against the store. */
  function VerifyAll(store: OtpStore, email: string, attempts: seq<Attempt>): (answers: seq<Result<(), VerifyError>>)
    ensures |answers| == |attempts|
    decreases |attempts|
  {
    if attempts == [] then []
    else
      var r := VerifyOtp(store, Some(email), Some(attempts[0].otp), attempts[0].now);
      [r.1] + VerifyAll(r.0, email, attempts[1..])
  }

  /** The number of answers equal to `a`. */
  function Count(answers: seq<Result<(), VerifyError>>, a: Result<(), VerifyError>): nat {
    if answers == [] then 0 else (if answers[0] == a then 1 else 0) + Count(answers[1..], a)
  }

  /** Each stored code verifies at most once: without a new `send-otp`, a
      sequence of attempts has at most one success, and none when there is
      no entry. */
  lemma {:induction false} VerifiesAtMostOnce(store: OtpStore, email: string, attempts: seq<Attempt>)
    ensures Count(VerifyAll(store, email, attempts), Ok(())) <= if email in store then 1 else 0
    decreases |attempts|
  {
    if attempts != [] {
      var r := VerifyOtp(store, Some(email), Some(attempts[0].otp), attempts[0].now);
      var rest := VerifyAll(r.0, email, attempts[1..]);
      assert ([r.1] + rest)[1..] == rest;
      VerifiesAtMostOnce(r.0, email, attempts[1..]);
    }
  }

  /** Guessing is bounded: without a new `send-otp`, at most three wrong
      codes are ever weighed against an entry (fewer when some were already
      tried). */
  lemma {:induction false} WrongCodesBounded(store: OtpStore, email: string, attempts: seq<Attempt>)
    ensures Count(VerifyAll(store, email, attempts), Err(InvalidOtp))
         <= if email in store && store[email].attempts < MaxAttempts then MaxAttempts - store[email].attempts else 0
    decreases |attempts|
  {
    if attempts != [] {
      var r := VerifyOtp(store, Some(email), Some(attempts[0].otp), attempts[0].now);
      var rest := VerifyAll(r.0, email, attempts[1..]);
      assert ([r.1] + rest)[1..] == rest;
      WrongCodesBounded(r.0, email, attempts[1..]);
    }
  }

  // ---------------------------------------------------------------------
  // Registration
  // ---------------------------------------------------------------------

  datatype RegisterError = MissingFields | InvalidEmail | WeakPassword | EmailTaken | PhoneTaken

  /** The body of `POST /register`; absent fields are `None`. */
  datatype RegisterRequest = RegisterRequest(
    email: Option<string>,
    password: Option<string>,
    name: Option<string>,
    phone: Option<string>)

  /** `!email || !password || !name`. */
  predicate MissingRegisterFields(req: RegisterRequest) {
    !Truthy(req.email) || !Truthy(req.password) || !Truthy(req.name)
  }

  /** Some user row has exactly this phone number. */
  predicate PhoneRegistered(db: Db, phone: string) {
    exists u :: u in db.users && db.users[u].phone == Some(phone)
  }

  /** The row a valid registration inserts: the address and name as given,
      the password's hash, the phone only when it is non-empty (`phone ||
      null`), and the column default 0 for the salary. */
  function NewUser(req: RegisterRequest): User
    requires !MissingRegisterFields(req)
  {
    User(req.email.value, Bcrypt(req.password.value), req.name.value,
         if Truthy(req.phone) then req.phone else None, 0.0)
  }

  /** `POST /register`: required fields, then the e-mail pattern, then a
      password of at least six UTF-16 units, then a free address, then (only
      when one is given) a free phone number; the first failure answers. */
  function Register(db: Db, req: RegisterRequest): (r: Outcome<UserId, RegisterError>)
    ensures r.result.Err? ==> r.db == db
    ensures r.result == Err(MissingFields) <==> MissingRegisterFields(req)
    ensures r.result == Err(InvalidEmail) <==> !MissingRegisterFields(req) && !IsValidEmail(req.email.value)
    ensures r.result == Err(WeakPassword) <==>
      !MissingRegisterFields(req) && IsValidEmail(req.email.value) && Utf16Length(req.password.value) < 6
    ensures r.result == Err(EmailTaken) <==>
      && !MissingRegisterFields(req) && IsValidEmail(req.email.value) && Utf16Length(req.password.value) >= 6
      && EmailRegistered(db, req.email.value)
    ensures r.result == Err(PhoneTaken) <==>
      && !MissingRegisterFields(req) && IsValidEmail(req.email.value) && Utf16Length(req.password.value) >= 6
      && !EmailRegistered(db, req.email.value) && Truthy(req.phone) && PhoneRegistered(db, req.phone.value)
    ensures r.result.Ok? ==>
      && !MissingRegisterFields(req)
      && r.result.value == db.nextUser
      && r.db == db.(users := db.users[db.nextUser := NewUser(req)], nextUser := db.nextUser + 1)
    ensures Wf(db) ==> Wf(r.db)
  {
    if MissingRegisterFields(req) then Outcome(db, Err(MissingFields))
    else if !IsValidEmail(req.email.value) then Outcome(db, Err(InvalidEmail))
    else if Utf16Length(req.password.value) < 6 then Outcome(db, Err(WeakPassword))
    else if EmailRegistered(db, req.email.value) then Outcome(db, Err(EmailTaken))
    else if Truthy(req.phone) && PhoneRegistered(db, req.phone.value) then Outcome(db, Err(PhoneTaken))
    else
      var id := db.nextUser;
      Outcome(db.(users := db.users[id := NewUser(req)], nextUser := id + 1), Ok(id))
  }

  /** No two user rows share an e-mail address. */
  predicate UniqueEmails(db: Db) {
    forall u, v :: u in db.users && v in db.users && db.users[u].email == db.users[v].email ==> u == v
  }

  /** Registration keeps addresses unique, and the registered address then
      reaches the code flow and refuses a second registration. */
  lemma RegisterKeepsEmailsUnique(db: Db, req: RegisterRequest)
    requires Wf(db) && UniqueEmails(db)
    ensures UniqueEmails(Register(db, req).db)
    ensures Register(db, req).result.Ok? ==>
      && EmailRegistered(Register(db, req).db, req.email.value)
      && Register(Register(db, req).db, req).result == Err(EmailTaken)
  {
    var r := Register(db, req);
    if r.result.Ok? {
      var id := r.result.value;
      assert id !in db.users;
      assert r.db.users[id].email == req.email.value;
      forall u, v | u in r.db.users && v in r.db.users && r.db.users[u].email == r.db.users[v].email
        ensures u == v
      {
      }
    }
  }

  // ---------------------------------------------------------------------
  // Password reset
  // ---------------------------------------------------------------------

  datatype ResetError = ResetFieldsRequired | ResetWeakPassword | ResetEmailNotRegistered | OtpNotVerified

  /** Every row with address `email` gets the new password's hash; nothing
      else changes. */
  function SetPassword(users: map<UserId, User>, email: string, newPassword: string): (r: map<UserId, User>)
    ensures r.Keys == users.Keys
    ensures forall u :: u in users && users[u].email != email ==> r[u] == users[u]
    ensures forall u :: u in users && users[u].email == email ==> r[u] == users[u].(passwordHash := Bcrypt(newPassword))
  {
    map u | u in users :: if users[u].email == email then users[u].(passwordHash := Bcrypt(newPassword)) else users[u]
  }

  /** `!email || !newPassword`, then fewer than six UTF-16 units. */
  function ResetInputError(email: Option<string>, newPassword: Option<string>): (r: Option<ResetError>)
    ensures r == Some(ResetFieldsRequired) <==> !Truthy(email) || !Truthy(newPassword)
    ensures r == Some(ResetWeakPassword) <==> Truthy(email) && Truthy(newPassword) && Utf16Length(newPassword.value) < 6
    ensures r.None? || r == Some(ResetFieldsRequired) || r == Some(ResetWeakPassword)
  {
    if !Truthy(email) || !Truthy(newPassword) then Some(ResetFieldsRequired)
    else if Utf16Length(newPassword.value) < 6 then Some(ResetWeakPassword)
    else None
  }

  /** `POST /reset-password` as written: fields, length, a registered
      address, then the new hash for that address. The code store is not
      consulted. */
  function ResetPassword(db: Db, email: Option<string>, newPassword: Option<string>): (r: Outcome<(), ResetError>)
    ensures r.result.Err? ==> r.db == db
    ensures r.result == Err(ResetFieldsRequired) <==> !Truthy(email) || !Truthy(newPassword)
    ensures r.result == Err(ResetWeakPassword) <==>
      Truthy(email) && Truthy(newPassword) && Utf16Length(newPassword.value) < 6
    ensures r.result == Err(ResetEmailNotRegistered) <==>
      Truthy(email) && Truthy(newPassword) && Utf16Length(newPassword.value) >= 6 && !EmailRegistered(db, email.value)
    ensures r.result != Err(OtpNotVerified)
    ensures r.result.Ok? ==>
      email.Some? && newPassword.Some? && r.db == db.(users := SetPassword(db.users, email.value, newPassword.value))
  {
    match ResetInputError(email, newPassword)
    case Some(e) => Outcome(db, Err(e))
    case None =>
      if !EmailRegistered(db, email.value) then Outcome(db, Err(ResetEmailNotRegistered))
      else Outcome(db.(users := SetPassword(db.users, email.value, newPassword.value)), Ok(()))
  }

  /** The gap in the reset as written: the password of any registered
      address can be replaced by anyone who knows the address, whatever the
      code store holds, since no code needs to have been verified. */
  lemma ResetNeedsNoCode(db: Db, email: string, newPassword: string, u: UserId)
    requires u in db.users && db.users[u].email == email && email != []
    requires Utf16Length(newPassword) >= 6
    ensures var r := ResetPassword(db, Some(email), Some(newPassword));
      r.result.Ok? && r.db.users[u].passwordHash == Bcrypt(newPassword)
  {
  }

  /** `POST /verify-otp` as the `verified` flag and the "mark as verified"
      step intend: the right code marks the entry verified instead of
      deleting it; every other answer is as written. */
  function VerifyOtpMarked(store: OtpStore, email: Option<string>, otp: Option<string>, now: int)
    : (r: (OtpStore, Result<(), VerifyError>))
    ensures r.1 == VerifyAnswer(store, email, otp, now)
    ensures r.1.Ok? ==> r.0 == store[email.value := store[email.value].(verified := true)]
    ensures r.1.Err? ==> r == VerifyOtp(store, email, otp, now)
  {
    var answer := VerifyAnswer(store, email, otp, now);
    if answer.Ok? then (store[email.value := store[email.value].(verified := true)], answer)
    else VerifyOtp(store, email, otp, now)
  }

  /** The reset the flow intends: the input checks as written, then a
      verified, unexpired entry for the address, then a registered address;
      a successful reset consumes the entry. */
  function ResetPasswordVerified(db: Db, store: OtpStore, email: Option<string>, newPassword: Option<string>, now: int)
    : (r: (Outcome<(), ResetError>, OtpStore))
    ensures r.0.result.Err? ==> r.0.db == db && r.1 == store
    ensures r.0.result == Err(OtpNotVerified) <==>
      && ResetInputError(email, newPassword).None?
      && !(email.value in store && store[email.value].verified && now <= store[email.value].expiresAt)
    ensures r.0.result.Ok? ==>
      && email.Some? && newPassword.Some?
      && email.value in store && store[email.value].verified && now <= store[email.value].expiresAt
      && r.0 == ResetPassword(db, email, newPassword)
      && r.1 == store - {email.value}
  {
    match ResetInputError(email, newPassword)
    case Some(e) => (Outcome(db, Err(e)), store)
    case None =>
      var e := email.value;
      if !(e in store && store[e].verified && now <= store[e].expiresAt) then (Outcome(db, Err(OtpNotVerified)), store)
      else
        var r := ResetPassword(db, email, newPassword);
        if r.result.Ok? then (r, store - {e}) else (r, store)
  }

  /** Attempts against the store with the intended verification. */
  function VerifyAllMarked(store: OtpStore, email: string, attempts: seq<Attempt>): OtpStore
    decreases |attempts|
  {
    if attempts == [] then store
    else
      var r := VerifyOtpMarked(store, Some(email), Some(attempts[0].otp), attempts[0].now);
      VerifyAllMarked(r.0, email, attempts[1..])
  }

  /** With the intended verification, a freshly mailed code must be typed
      in before a reset can succeed: if no attempt carries the mailed code,
      the reset is refused, whatever the attempts and the new password. */
  lemma {:induction false} ResetNeedsTheMailedCode(store: OtpStore, email: string, code: string, attempts: seq<Attempt>)
    requires email in store && !store[email].verified && store[email].hash == Sha256(code)
    requires forall k :: 0 <= k < |attempts| ==> attempts[k].otp != code
    ensures var s := VerifyAllMarked(store, email, attempts);
      email in s ==> !s[email].verified && s[email].hash == Sha256(code)
    decreases |attempts|
  {
    if attempts != [] {
      var r := VerifyOtpMarked(store, Some(email), Some(attempts[0].otp), attempts[0].now);
      assert forall k :: 0 <= k < |attempts[1..]| ==> attempts[1..][k].otp != code by {
        forall k | 0 <= k < |attempts[1..]| ensures attempts[1..][k].otp != code {
          assert attempts[1..][k] == attempts[k + 1];
        }
      }
      if email in r.0 {
        ResetNeedsTheMailedCode(r.0, email, code, attempts[1..]);
      } else {
        NoEntryStaysGone(r.0, email, attempts[1..]);
      }
    }
  }

  /** Verification never creates an entry. */
  lemma {:induction false} NoEntryStaysGone(store: OtpStore, email: string, attempts: seq<Attempt>)
    requires email !in store
    ensures email !in VerifyAllMarked(store, email, attempts)
    decreases |attempts|
  {
    if attempts != [] {
      NoEntryStaysGone(VerifyOtpMarked(store, Some(email), Some(attempts[0].otp), attempts[0].now).0, email, attempts[1..]);
    }
  }

  /** The intended flow end to end: the mailed code verifies, the reset then
      succeeds once and stores the new password's hash, and a second reset
      with the same entry is refused. */
  lemma SendVerifyReset(db: Db, store: OtpStore, email: string, now: int, rand: real, newPassword: string)
    requires 0.0 <= rand < 1.0
    requires SendOtp(db, store, Some(email), now, rand, true).1.Ok?
    requires Utf16Length(newPassword) >= 6 && newPassword != []
    ensures var s := SendOtp(db, store, Some(email), now, rand, true);
      var v := VerifyOtpMarked(s.0, Some(email), Some(s.1.value), now);
      var reset := ResetPasswordVerified(db, v.0, Some(email), Some(newPassword), now);
      && v.1.Ok? && reset.0.result.Ok?
      && (forall u :: u in db.users && db.users[u].email == email ==> reset.0.db.users[u].passwordHash == Bcrypt(newPassword))
      && ResetPasswordVerified(reset.0.db, reset.1, Some(email), Some(newPassword), now).0.result == Err(OtpNotVerified)
  {
  }

  /** Registering and resetting a password change only `users`, so every
      transaction row keeps fitting the store. */
  lemma AuthRoutesKeepLedger(db: Db, req: RegisterRequest, store: OtpStore, email: Option<string>,
                             newPassword: Option<string>, now: int)
    requires Ledger(db)
    ensures Ledger(Register(db, req).db)
    ensures Ledger(ResetPassword(db, email, newPassword).db)
    ensures Ledger(ResetPasswordVerified(db, store, email, newPassword, now).0.db)
  {
    LedgerFrame(db, Register(db, req).db);
    LedgerFrame(db, ResetPassword(db, email, newPassword).db);
  }
}

=== FILE: balance_context.dfy ===
/** The client's shared balance state: the categories and transactions
    loaded for the signed-in user, the totals derived from them, the
    optimistic updates the payment screens apply, and the balance check a
    payment must pass before it is sent. */
module BalanceContext {
  import opened Wrappers
  import opened JsText
  import opened ClientData
  import Store
  import TransactionRoutes

  // ---------------------------------------------------------------------
  // Totals
  // ---------------------------------------------------------------------

  /** `totalBalance`: the sum of `current_balance || 0`. */
  function TotalBalance(cats: seq<CategoryView>): real {
    if cats == [] then 0.0 else OrZero(cats[0].currentBalance) + TotalBalance(cats[1..])
  }

  /** What a transaction adds to `totalSpent`. */
  function SpentBy(t: TransactionView): real {
    if t.status == "success" then t.amount else 0.0
  }

  /** `totalSpent`: the sum of the amounts of the `success` transactions. */
  function TotalSpent(txs: seq<TransactionView>): real {
    if txs == [] then 0.0 else SpentBy(txs[0]) + TotalSpent(txs[1..])
  }

  /** `totalBudget`: the signed-in user's salary, or 0 when there is no user
      or no salary. */
  function TotalBudget(salary: Option<real>): (r: real)
    ensures r != 0.0 <==> TruthyNum(salary)
    ensures TruthyNum(salary) ==> r == salary.value
  {
    OrZero(salary)
  }

  /** No two entries share an id, as for rows loaded from the server. */
  predicate UniqueCategoryIds(cats: seq<CategoryView>) {
    forall i, j :: 0 <= i < j < |cats| ==> cats[i].id != cats[j].id
  }

  predicate UniqueTransactionIds(txs: seq<TransactionView>) {
    forall i, j :: 0 <= i < j < |txs| ==> txs[i].id != txs[j].id
  }

  // ---------------------------------------------------------------------
  // Optimistic updates
  // ---------------------------------------------------------------------

  /** `updateCategoryBalance`: every category whose id is `===` to `id` gets
      the new `current_balance`; the list keeps its length and order and
      every other entry and field is unchanged. */
  function UpdateCategoryBalance(cats: seq<CategoryView>, id: JsId, newBalance: real): (r: seq<CategoryView>)
    ensures |r| == |cats|
    ensures forall k :: 0 <= k < |cats| && cats[k].id == id ==> r[k] == cats[k].(currentBalance := Some(newBalance))
    ensures forall k :: 0 <= k < |cats| && cats[k].id != id ==> r[k] == cats[k]
  {
    if cats == [] then []
    else
      var head := if cats[0].id == id then cats[0].(currentBalance := Some(newBalance)) else cats[0];
      [head] + UpdateCategoryBalance(cats[1..], id, newBalance)
  }

  /** An id that matches no category leaves the list as it was. */
  lemma UpdateUnknownCategory(cats: seq<CategoryView>, id: JsId, newBalance: real)
    requires forall k :: 0 <= k < |cats| ==> cats[k].id != id
    ensures UpdateCategoryBalance(cats, id, newBalance) == cats
  {
    var r := UpdateCategoryBalance(cats, id, newBalance);
    assert forall k :: 0 <= k < |cats| ==> r[k] == cats[k];
  }

  /** With unique ids, setting the balance of the category at `k` moves
      `totalBalance` by exactly the difference between the new and the old
      balance of that one category. */
  lemma {:induction false} UpdateCategoryTotal(cats: seq<CategoryView>, k: nat, newBalance: real)
    requires k < |cats| && UniqueCategoryIds(cats)
    ensures TotalBalance(UpdateCategoryBalance(cats, cats[k].id, newBalance))
         == TotalBalance(cats) - OrZero(cats[k].currentBalance) + OrZero(Some(newBalance))
    decreases k
  {
    var id := cats[k].id;
    var r := UpdateCategoryBalance(cats, id, newBalance);
    assert r[1..] == UpdateCategoryBalance(cats[1..], id, newBalance);
    if k == 0 {
      UpdateUnknownCategory(cats[1..], id, newBalance);
    } else {
      assert cats[1..][k - 1] == cats[k];
      UpdateCategoryTotal(cats[1..], k - 1, newBalance);
    }
  }

  /** `addTransaction`: the new transaction goes first and the existing
      list follows in its order; `totalSpent` grows by what the new one adds. */
  function AddTransaction(txs: seq<TransactionView>, t: TransactionView): (r: seq<TransactionView>)
    ensures |r| == |txs| + 1 && r[0] == t && r[1..] == txs
    ensures TotalSpent(r) == TotalSpent(txs) + (if t.status == "success" then t.amount else 0.0)
  {
    [t] + txs
  }

  /** `updateTransactionStatus`: every transaction whose id is `===` to `id`
      gets the new status; nothing else changes. */
  function UpdateTransactionStatus(txs: seq<TransactionView>, id: JsId, status: string): (r: seq<TransactionView>)
    ensures |r| == |txs|
    ensures forall k :: 0 <= k < |txs| && txs[k].id == id ==> r[k] == txs[k].(status := status)
    ensures forall k :: 0 <= k < |txs| && txs[k].id != id ==> r[k] == txs[k]
  {
    if txs == [] then []
    else
      var head := if txs[0].id == id then txs[0].(status := status) else txs[0];
      [head] + UpdateTransactionStatus(txs[1..], id, status)
  }

  /** With unique ids, marking the pending transaction at `k` as `success`
      raises `totalSpent` by its amount, and marking it anything else leaves
      `totalSpent` alone. */
  lemma {:induction false} UpdateStatusTotal(txs: seq<TransactionView>, k: nat, status: string)
    requires k < |txs| && UniqueTransactionIds(txs) && txs[k].status == "pending"
    ensures TotalSpent(UpdateTransactionStatus(txs, txs[k].id, status))
         == TotalSpent(txs) + (if status == "success" then txs[k].amount else 0.0)
    decreases k
  {
    var id := txs[k].id;
    var r := UpdateTransactionStatus(txs, id, status);
    assert r[1..] == UpdateTransactionStatus(txs[1..], id, status);
    if k == 0 {
      var rest := UpdateTransactionStatus(txs[1..], id, status);
      assert forall j :: 0 <= j < |rest| ==> rest[j] == txs[1..][j];
      assert rest == txs[1..];
    } else {
      assert txs[1..][k - 1] == txs[k];
      UpdateStatusTotal(txs[1..], k - 1, status);
    }
  }

  // ---------------------------------------------------------------------
  // Look-ups
  // ---------------------------------------------------------------------

  /** `getCategoryById`: the first category whose id is `===` to `id`. */
  function GetCategoryById(cats: seq<CategoryView>, id: JsId): (r: Option<CategoryView>)
    ensures r.None? <==> forall k :: 0 <= k < |cats| ==> cats[k].id != id
    ensures r.Some? ==> exists k :: 0 <= k < |cats| && cats[k] == r.value && r.value.id == id
                                    && forall j :: 0 <= j < k ==> cats[j].id != id
  {
    if cats == [] then None
    else if cats[0].id == id then Some(cats[0])
    else
      var r := GetCategoryById(cats[1..], id);
      assert r.Some? ==> exists k :: 1 <= k < |cats| && cats[k] == r.value && r.value.id == id
                                     && forall j :: 0 <= j < k ==> cats[j].id != id;
      r
  }

  /** What a transaction adds to the spending of category `id`. */
  function SpentOn(t: TransactionView, id: JsId): real {
    if t.categoryId == Some(id) && t.status == "success" then t.amount else 0.0
  }

  /** `getSpendingByCategory`: the amounts of the `success` transactions
      whose `category_id` is `===` to `id`. */
  function GetSpendingByCategory(txs: seq<TransactionView>, id: JsId): real {
    if txs == [] then 0.0 else SpentOn(txs[0], id) + GetSpendingByCategory(txs[1..], id)
  }

  /** On transactions that mirror the server's rows, the client's spending
      of a category is the server's settled total for that category. */
  lemma {:induction false} SpendingMatchesServer(views: seq<TransactionView>, txs: seq<Store.Transaction>, c: Store.CategoryId)
    requires Mirrors(views, txs)
    ensures GetSpendingByCategory(views, Num(c)) == Store.Spent(txs, c)
    decreases |txs|
  {
    if txs != [] {
      assert Mirrors(views[1..], txs[1..]) by {
        forall k | 0 <= k < |views[1..]|
          ensures views[1..][k].categoryId == Some(Num(txs[1..][k].category))
          ensures views[1..][k].amount == txs[1..][k].amount
          ensures views[1..][k].status == StatusText(txs[1..][k].status)
        {
          assert views[1..][k] == views[k + 1] && txs[1..][k] == txs[k + 1];
        }
      }
      assert views[0].categoryId == Some(Num(txs[0].category));
      SpendingMatchesServer(views[1..], txs[1..], c);
    }
  }

  /** A category's spending is part of the total spending when every
      amount is non-negative. */
  lemma {:induction false} SpendingWithinTotal(txs: seq<TransactionView>, id: JsId)
    requires forall k :: 0 <= k < |txs| ==> txs[k].amount >= 0.0
    ensures 0.0 <= GetSpendingByCategory(txs, id) <= TotalSpent(txs)
    decreases |txs|
  {
    if txs != [] {
      assert txs[0].amount >= 0.0;
      SpendingWithinTotal(txs[1..], id);
    }
  }

  /** Among numeric ids the look-up by text finds what `===` on the number
      finds. */
  lemma {:induction false} FindByTextAgrees(cats: seq<CategoryView>, n: int)
    requires NumericIds(cats)
    ensures FindByText(cats, Str(IdText(Num(n)))) == GetCategoryById(cats, Num(n))
    decreases |cats|
  {
    if cats != [] {
      if IdText(cats[0].id) == IdText(Num(n)) {
        IdTextInjective(cats[0].id.n, n);
      }
      FindByTextAgrees(cats[1..], n);
    }
  }

  // ---------------------------------------------------------------------
  // The payment check
  // ---------------------------------------------------------------------

  datatype PaymentCheck = Valid | CategoryMissing | BadAmount | Insufficient(available: real)

  /** `balance < amount` in JavaScript: false when either side is missing
      or `NaN`. */
  predicate Below(balance: Option<real>, amount: Option<real>) {
    balance.Some? && amount.Some? && balance.value < amount.value
  }

  /** `validatePayment`: the category must exist, then the amount must not
      be `<= 0`, then the category's `current_balance` must not be below the
      amount; a `NaN` amount (`None`) passes the last two checks. */
  function ValidatePayment(cats: seq<CategoryView>, id: JsId, amount: Option<real>): (r: PaymentCheck)
    ensures r == CategoryMissing <==> GetCategoryById(cats, id).None?
    ensures r == BadAmount <==> GetCategoryById(cats, id).Some? && amount.Some? && amount.value <= 0.0
    ensures r.Insufficient? <==>
      && GetCategoryById(cats, id).Some? && !(amount.Some? && amount.value <= 0.0)
      && Below(GetCategoryById(cats, id).value.currentBalance, amount)
    ensures r.Insufficient? ==> Some(r.available) == GetCategoryById(cats, id).value.currentBalance
  {
    match GetCategoryById(cats, id)
    case None => CategoryMissing
    case Some(c) =>
      if amount.Some? && amount.value <= 0.0 then BadAmount
      else if Below(c.currentBalance, amount) then Insufficient(c.currentBalance.value)
      else Valid
  }

  /** A payment that passes the check never takes a known balance below
      zero. */
  lemma ValidKeepsBalance(cats: seq<CategoryView>, id: JsId, a: real)
    requires ValidatePayment(cats, id, Some(a)) == Valid
    requires GetCategoryById(cats, id).value.currentBalance.Some?
    ensures 0.0 < a <= GetCategoryById(cats, id).value.currentBalance.value
  {
  }

  /** For a category the client holds exactly as the server stores it, the
      client's check and the server's agree: the client accepts the payment
      exactly when the server creates the transaction, and reports an
      insufficient balance exactly when the server does. */
  lemma ValidatePaymentAgrees(db: Store.Db, user: Store.UserId, cats: seq<CategoryView>, c: Store.CategoryId,
                              a: real, upi: string, name: Option<string>, note: Option<string>,
                              amountText: string, now: nat, suffix: string)
    requires c != 0 && c in db.categories && db.categories[c].owner == user && upi != []
    requires GetCategoryById(cats, Num(c)) == Some(CategoryOf(c, db.categories[c]))
    ensures var r := TransactionRoutes.Initiate(db, user, TransactionRoutes.PaymentRequest(Some(Num(c)), Some(a), Some(upi), name, note),
                                                amountText, now, suffix);
      && (ValidatePayment(cats, Num(c), Some(a)) == Valid <==> r.result.Ok?)
      && (ValidatePayment(cats, Num(c), Some(a)).Insufficient? <==> r.result.Err? && r.result.error.InsufficientBalance?)
  {
  }

  // ---------------------------------------------------------------------
  // Sign-in changes
  // ---------------------------------------------------------------------

  datatype Balances = Balances(categories: seq<CategoryView>, transactions: seq<TransactionView>)

  /** The effect of a change of user: signing out clears both lists; a
      signed-in user gets what the load returned (`None` when it failed,
      which keeps the lists). */
  function OnUserChange(state: Balances, signedIn: bool, loaded: Option<Balances>): (r: Balances)
    ensures !signedIn ==> r.categories == [] && r.transactions == []
    ensures !signedIn ==> TotalBalance(r.categories) == 0.0 && TotalSpent(r.transactions) == 0.0
    ensures signedIn && loaded.None? ==> r == state
  {
    if !signedIn then Balances([], [])
    else if loaded.Some? then loaded.value
    else state
  }
}

=== FILE: budget_planning.dfy ===
/** The Budget Planning page: the category form with its percentage/fixed
    switch, the edit form it fills from a category, the one-click default
    plan, and the percentage total with its warning. */
module BudgetPlanning {
  import opened Wrappers
  import opened JsText
  import opened ClientData
  import opened Store
  import CategoryRoutes
  import CategoriesPage

  type NumField = CategoriesPage.NumField

  /** The form's `allocation_type`. */
  datatype AllocationType = PercentageType | FixedType

  datatype PlanForm = PlanForm(name: string, percentage: NumField, fixedAmount: NumField, color: string, allocation: AllocationType)

  const FormColor: string := "#3B82F6"

  /** The empty form `resetForm` restores. */
  const EmptyForm: PlanForm := PlanForm("", CategoriesPage.Typed(""), CategoriesPage.Typed(""), FormColor, PercentageType)

  /** `handleSubmit`'s guard: 'Please set your salary in Profile first to
      use percentage-based categories'. */
  datatype SubmitError = SalaryRequired

  /** `handleSubmit`: a percentage category needs a salary; the body holds
      the name as typed, the colour, and only the chosen amount as
      `parseFloat` reads it (`NaN` travels as JSON `null`, here `None`). */
  function Submit(salary: Option<real>, form: PlanForm): (r: Result<CategoryRoutes.CategoryInput, SubmitError>)
    ensures r.Err? <==> !TruthyNum(salary) && form.allocation == PercentageType
    ensures r.Ok? ==> r.value.name == Some(form.name) && r.value.color == Some(form.color)
  {
    if !TruthyNum(salary) && form.allocation == PercentageType then Err(SalaryRequired)
    else if form.allocation == PercentageType then
      Ok(CategoryRoutes.CategoryInput(Some(form.name), CategoriesPage.FieldNumber(form.percentage), None, Some(form.color)))
    else
      Ok(CategoryRoutes.CategoryInput(Some(form.name), None, CategoriesPage.FieldNumber(form.fixedAmount), Some(form.color)))
  }

  /** The amount the form's switch selects, as `parseFloat` reads it. */
  function Chosen(form: PlanForm): Option<real> {
    if form.allocation == PercentageType then CategoriesPage.FieldNumber(form.percentage)
    else CategoriesPage.FieldNumber(form.fixedAmount)
  }

  /** The balance a salary gives the amount the switch selects. */
  function ChosenAllocation(salary: real, form: PlanForm): real {
    var x := OrZero(Chosen(form));
    if form.allocation == PercentageType then (if x > 0.0 then salary * x / 100.0 else 0.0)
    else (if x > 0.0 then x else 0.0)
  }

  /** A submitted form creates a category whose balance under any salary is
      what the selected amount alone gives it: the other amount is stored as
      0. A blank name or an out-of-range percentage is refused by the server
      with nothing stored. */
  lemma SubmitCreates(db: Db, user: UserId, salary: Option<real>, form: PlanForm, s: real)
    requires Submit(salary, form).Ok?
    ensures var r := CategoryRoutes.Create(db, user, Submit(salary, form).value);
      && (r.result.Ok? <==> !IsBlank(form.name) && !(form.allocation == PercentageType && CategoryRoutes.PercentageOutOfRange(Chosen(form))))
      && (r.result.Ok? ==>
            var c := r.result.value.1;
            && c.name == Trim(form.name)
            && (form.allocation == PercentageType ==> c.fixedAmount == 0.0)
            && (form.allocation == FixedType ==> c.percentage == 0.0)
            && CategoryRoutes.Allocation(s, c.percentage, c.fixedAmount) == ChosenAllocation(s, form))
  {
  }

  /** Saving the form over one of the user's categories behaves the same
      way, except that the update route checks no percentage range. */
  lemma SubmitUpdates(db: Db, user: UserId, id: CategoryId, salary: Option<real>, form: PlanForm, s: real)
    requires Submit(salary, form).Ok? && CategoryRoutes.Owns(db, user, id) && !IsBlank(form.name)
    ensures var r := CategoryRoutes.Update(db, user, id, Submit(salary, form).value);
      && r.result.Ok?
      && CategoryRoutes.Allocation(s, r.db.categories[id].percentage, r.db.categories[id].fixedAmount) == ChosenAllocation(s, form)
  {
  }

  /** `handleEdit`: the form filled from a category; the switch is on
      percentage exactly when the category has a positive percentage. */
  function EditForm(c: CategoryView): (form: PlanForm)
    ensures form.name == c.name
    ensures form.allocation == PercentageType <==> c.percentage.Some? && c.percentage.value > 0.0
  {
    PlanForm(c.name, CategoriesPage.LoadedField(c.percentage), CategoriesPage.LoadedField(c.fixedAmount),
             OrDefault(Some(c.color), FormColor),
             if c.percentage.Some? && c.percentage.value > 0.0 then PercentageType else FixedType)
  }

  /** Saving the edit form of a tidy stored row unchanged keeps the balance
      the row receives from the stored salary, whichever amount it uses; a
      percentage row without a salary is refused by the page and nothing is
      sent. */
  lemma EditKeepsAllocation(db: Db, user: UserId, id: CategoryId)
    requires CategoryRoutes.Owns(db, user, id) && CategoriesPage.Tidy(db.categories[id]) && user in db.users
    ensures var c := db.categories[id];
      var salary := db.users[user].salary;
      var sub := Submit(Some(salary), EditForm(CategoryOf(id, c)));
      && (sub.Err? <==> salary == 0.0 && c.percentage > 0.0)
      && (sub.Ok? ==>
            var r := CategoryRoutes.Update(db, user, id, sub.value);
            && r.result.Ok?
            && CategoryRoutes.Allocation(salary, r.db.categories[id].percentage, r.db.categories[id].fixedAmount)
               == CategoryRoutes.Allocation(salary, c.percentage, c.fixedAmount))
  {
    var c := db.categories[id];
    var form := EditForm(CategoryOf(id, c));
    assert CategoriesPage.FieldNumber(CategoriesPage.Typed("")) == None by {
      assert ParseFloat("") == None;
    }
    if Submit(Some(db.users[user].salary), form).Ok? {
      SubmitUpdates(db, user, id, Some(db.users[user].salary), form, db.users[user].salary);
    }
  }

  // ---------------------------------------------------------------------
  // The default plan
  // ---------------------------------------------------------------------

  /** An entry of the default plan (the icon is for display only). */
  datatype PlanItem = PlanItem(name: string, percentage: real, color: string)

  /** `defaultCategories`: seven percentage categories. */
  const DefaultPlan: seq<PlanItem> := [
    PlanItem("Dining & Restaurants", 25.0, "#EF4444"),
    PlanItem("Transportation", 15.0, "#3B82F6"),
    PlanItem("Entertainment", 10.0, "#8B5CF6"),
    PlanItem("Shopping", 15.0, "#F59E0B"),
    PlanItem("Bills & Utilities", 20.0, "#10B981"),
    PlanItem("Healthcare", 5.0, "#EC4899"),
    PlanItem("Savings", 10.0, "#6B7280")
  ]

  function PlanPercentage(items: seq<PlanItem>): real {
    if items == [] then 0.0 else items[0].percentage + PlanPercentage(items[1..])
  }

  /** The full plan shares out the whole salary. */
  lemma {:induction false} DefaultPlanIsWhole()
    ensures PlanPercentage(DefaultPlan) == 100.0
  {
    var p := DefaultPlan;
    assert p[1..][1..][1..][1..][1..][1..][1..] == [];
  }

  /** An entry of the plan has a name that neither starts nor ends with
      whitespace and a positive percentage of at most 100. */
  predicate GoodItem(item: PlanItem) {
    && item.name != [] && !IsSpace(item.name[0]) && !IsSpace(item.name[|item.name| - 1])
    && 0.0 < item.percentage <= 100.0
  }

  lemma DefaultPlanGood()
    ensures forall k :: 0 <= k < |DefaultPlan| ==> GoodItem(DefaultPlan[k])
  {
  }

  /** The body of one entry: name, percentage and colour. */
  function PlanInput(item: PlanItem): (r: CategoryRoutes.CategoryInput)
    ensures GoodItem(item) ==> CategoryRoutes.ValidItem(r)
  {
    assert GoodItem(item) ==> !IsBlank(item.name) by {
      if GoodItem(item) { assert !IsSpace(item.name[0]); }
    }
    CategoryRoutes.CategoryInput(Some(item.name), Some(item.percentage), None, Some(item.color))
  }

  function PlanInputs(items: seq<PlanItem>): (r: seq<CategoryRoutes.CategoryInput>)
    ensures |r| == |items|
    ensures forall k :: 0 <= k < |items| ==> r[k] == PlanInput(items[k])
  {
    if items == [] then [] else [PlanInput(items[0])] + PlanInputs(items[1..])
  }

  /** `categories.map(cat => cat.name.toLowerCase())`. */
  function LowerNames(cats: seq<CategoryView>): (r: seq<string>)
    ensures |r| == |cats|
    ensures forall k :: 0 <= k < |cats| ==> r[k] == ToLower(cats[k].name)
  {
    if cats == [] then [] else [ToLower(cats[0].name)] + LowerNames(cats[1..])
  }

  /** The entries whose lower-cased name is not among `names`, in order. */
  function NewItems(items: seq<PlanItem>, names: seq<string>): (r: seq<PlanItem>)
    ensures |r| <= |items|
    ensures forall k :: 0 <= k < |r| ==> r[k] in items && ToLower(r[k].name) !in names
    ensures forall k :: 0 <= k < |items| && ToLower(items[k].name) !in names ==> items[k] in r
    ensures r == [] <==> forall k :: 0 <= k < |items| ==> ToLower(items[k].name) in names
  {
    if items == [] then []
    else
      var rest := NewItems(items[1..], names);
      assert forall k :: 1 <= k < |items| ==> items[k] == items[1..][k - 1];
      if ToLower(items[0].name) in names then rest else [items[0]] + rest
  }

  /** The filter keeps the plan's order and multiplicity: filtering a
      concatenation is concatenating the filtered parts. */
  lemma {:induction false} NewItemsAppend(a: seq<PlanItem>, b: seq<PlanItem>, names: seq<string>)
    ensures NewItems(a + b, names) == NewItems(a, names) + NewItems(b, names)
    decreases |a|
  {
    if a == [] {
      assert a + b == b;
    } else {
      assert (a + b)[0] == a[0];
      assert (a + b)[1..] == a[1..] + b;
      NewItemsAppend(a[1..], b, names);
    }
  }

  /** A single entry is kept exactly when its lower-cased name is new. */
  lemma NewItemsOne(item: PlanItem, names: seq<string>)
    ensures NewItems([item], names) == if ToLower(item.name) in names then [] else [item]
  {
    assert [item][1..] == [];
  }

  /** What `createDefaultCategories` does. */
  datatype DefaultsStep =
    | SalaryFirst                         // 'Please set your salary in Profile first'
    | AllExist                            // 'All default categories already exist!'
    | Post(items: seq<PlanItem>)          // POST /categories/bulk, then /recalculate

  /** `createDefaultCategories` over a plan: without a salary nothing
      happens; otherwise the plan entries whose names the user does not have
      yet (compared lower-cased) are posted, unless there are none. */
  function DefaultsFrom(plan: seq<PlanItem>, salary: Option<real>, cats: seq<CategoryView>): (r: DefaultsStep)
    ensures r == SalaryFirst <==> !TruthyNum(salary)
    ensures r == AllExist <==> TruthyNum(salary) && forall k :: 0 <= k < |plan| ==> ToLower(plan[k].name) in LowerNames(cats)
    ensures r.Post? ==> r.items != [] && forall k :: 0 <= k < |r.items| ==> r.items[k] in plan && ToLower(r.items[k].name) !in LowerNames(cats)
    ensures r.Post? ==> forall k :: 0 <= k < |plan| && ToLower(plan[k].name) !in LowerNames(cats) ==> plan[k] in r.items
    ensures r.Post? ==> r.items == NewItems(plan, LowerNames(cats))
  {
    if !TruthyNum(salary) then SalaryFirst
    else
      var items := NewItems(plan, LowerNames(cats));
      if items == [] then AllExist else Post(items)
  }

  /** The button itself, with the default plan. */
  function CreateDefaults(salary: Option<real>, cats: seq<CategoryView>): DefaultsStep {
    DefaultsFrom(DefaultPlan, salary, cats)
  }

  /** The page's categories are the user's stored rows, as far as names go. */
  ghost predicate NamesMirror(cats: seq<CategoryView>, db: Db, user: UserId) {
    forall n :: n in LowerNames(cats) <==> n in CategoryRoutes.ExistingNames(db, user)
  }

  /** Items that all pass the duplicate filter are all kept. */
  lemma {:induction false} FreshKeepsAll(items: seq<CategoryRoutes.CategoryInput>, existing: set<string>)
    requires CategoryRoutes.AllNamed(items)
    requires forall k :: 0 <= k < |items| ==> ToLower(items[k].name.value) !in existing
    ensures CategoryRoutes.Fresh(items, existing) == items
  {
    if items != [] {
      FreshKeepsAll(items[1..], existing);
      assert items == [items[0]] + items[1..];
    }
  }

  /** Items that are each valid are valid together. */
  lemma {:induction false} AllValidOf(items: seq<CategoryRoutes.CategoryInput>)
    requires forall k :: 0 <= k < |items| ==> CategoryRoutes.ValidItem(items[k])
    ensures CategoryRoutes.AllValid(items)
  {
    if items != [] {
      AllValidOf(items[1..]);
    }
  }

  /** A name that neither starts nor ends with whitespace is its own trim. */
  lemma TrimmedAlready(name: string)
    requires name != [] && !IsSpace(name[0]) && !IsSpace(name[|name| - 1])
    ensures Trim(name) == name
  {
    assert TrimStart(name) == name;
  }

  /** The bodies of good entries the user has no name for all pass the
      duplicate filter and the insert loop's checks. */
  lemma PostedInputs(items: seq<PlanItem>, existing: set<string>)
    requires forall k :: 0 <= k < |items| ==> GoodItem(items[k])
    requires forall k :: 0 <= k < |items| ==> ToLower(items[k].name) !in existing
    ensures CategoryRoutes.AllNamed(PlanInputs(items))
    ensures CategoryRoutes.Fresh(PlanInputs(items), existing) == PlanInputs(items)
    ensures CategoryRoutes.AllValid(PlanInputs(items))
    ensures forall k :: 0 <= k < |items| ==> Trim(PlanInputs(items)[k].name.value) == items[k].name
  {
    var inputs := PlanInputs(items);
    forall k | 0 <= k < |inputs| ensures ToLower(inputs[k].name.value) !in existing {
      assert inputs[k].name.value == items[k].name;
    }
    FreshKeepsAll(inputs, existing);
    AllValidOf(inputs);
    forall k | 0 <= k < |items| ensures Trim(inputs[k].name.value) == items[k].name {
      TrimmedAlready(items[k].name);
    }
  }

  /** Good entries the user has no name for are created in full, one new
      row per entry in order with the entry's name and percentage. */
  lemma PostedCreated(db: Db, user: UserId, items: seq<PlanItem>)
    requires forall k :: 0 <= k < |items| ==> GoodItem(items[k])
    requires forall k :: 0 <= k < |items| ==> ToLower(items[k].name) !in CategoryRoutes.ExistingNames(db, user)
    requires items != []
    ensures var r := CategoryRoutes.BulkCreate(db, user, CategoryRoutes.Items(PlanInputs(items)));
      && r.result.Ok? && |r.result.value| == |items|
      && (forall k :: 0 <= k < |items| ==>
            r.result.value[k].1.name == items[k].name && r.result.value[k].1.percentage == items[k].percentage)
      && r.db.users == db.users
  {
    var inputs := PlanInputs(items);
    PostedInputs(items, CategoryRoutes.ExistingNames(db, user));
    CategoryRoutes.BulkAllOrNothing(db, user, inputs);
  }

  /** When the page shows the user's stored names and salary, the entries
      it posts from a plan of good entries (the default plan is one, by
      `DefaultPlanGood`) are all created, and the recalculation that
      follows succeeds. */
  lemma DefaultsCreated(db: Db, user: UserId, plan: seq<PlanItem>, cats: seq<CategoryView>)
    requires forall k :: 0 <= k < |plan| ==> GoodItem(plan[k])
    requires user in db.users && NamesMirror(cats, db, user)
    requires DefaultsFrom(plan, Some(db.users[user].salary), cats).Post?
    ensures var items := DefaultsFrom(plan, Some(db.users[user].salary), cats).items;
      var r := CategoryRoutes.BulkCreate(db, user, CategoryRoutes.Items(PlanInputs(items)));
      && r.result.Ok? && |r.result.value| == |items|
      && CategoryRoutes.Recalculate(r.db, user).result.Ok?
  {
    var items := DefaultsFrom(plan, Some(db.users[user].salary), cats).items;
    forall k | 0 <= k < |items| ensures GoodItem(items[k]) {
      assert items[k] in plan;
    }
    forall k | 0 <= k < |items| ensures ToLower(items[k].name) !in CategoryRoutes.ExistingNames(db, user) {
      assert ToLower(items[k].name) !in LowerNames(cats);
    }
    PostedCreated(db, user, items);
  }

  // ---------------------------------------------------------------------
  // Totals
  // ---------------------------------------------------------------------

  predicate PositivePercentage(c: CategoryView) {
    c.percentage.Some? && c.percentage.value > 0.0
  }

  /** `totalPercentage`: the sum of the positive percentages. */
  function PercentTotal(cats: seq<CategoryView>): real {
    if cats == [] then 0.0
    else (if PositivePercentage(cats[0]) then cats[0].percentage.value else 0.0) + PercentTotal(cats[1..])
  }

  /** `totalFixedAmount`: the sum of the positive fixed amounts. */
  function FixedTotal(cats: seq<CategoryView>): real {
    if cats == [] then 0.0
    else (if cats[0].fixedAmount.Some? && cats[0].fixedAmount.value > 0.0 then cats[0].fixedAmount.value else 0.0)
         + FixedTotal(cats[1..])
  }

  /** The warning shown when some category uses a percentage and the
      percentages do not add up to 100. */
  predicate PercentWarning(cats: seq<CategoryView>) {
    PercentTotal(cats) != 100.0 && exists k :: 0 <= k < |cats| && PositivePercentage(cats[k])
  }

  /** Without negative amounts this page's totals equal the Categories
      page's, which add every amount. */
  lemma {:induction false} TotalsAgree(cats: seq<CategoryView>)
    requires forall k :: 0 <= k < |cats| ==> OrZero(cats[k].percentage) >= 0.0 && OrZero(cats[k].fixedAmount) >= 0.0
    ensures PercentTotal(cats) == CategoriesPage.TotalPercentage(cats)
    ensures FixedTotal(cats) == CategoriesPage.TotalFixed(cats)
  {
    if cats != [] {
      TotalsAgree(cats[1..]);
    }
  }

  /** The categories carry the plan's percentages, one for one. */
  predicate CarriesPlan(cats: seq<CategoryView>, items: seq<PlanItem>) {
    |cats| == |items| && forall k :: 0 <= k < |items| ==> cats[k].percentage == Some(items[k].percentage)
  }

  lemma {:induction false} CarriedTotal(cats: seq<CategoryView>, items: seq<PlanItem>)
    requires CarriesPlan(cats, items)
    requires forall k :: 0 <= k < |items| ==> items[k].percentage > 0.0
    ensures PercentTotal(cats) == PlanPercentage(items)
  {
    if items != [] {
      CarriedTotal(cats[1..], items[1..]);
    }
  }

  /** A budget whose categories are exactly the default plan shows no
      warning. */
  lemma DefaultPlanNoWarning(cats: seq<CategoryView>)
    requires CarriesPlan(cats, DefaultPlan)
    ensures !PercentWarning(cats)
  {
    DefaultPlanGood();
    CarriedTotal(cats, DefaultPlan);
    DefaultPlanIsWhole();
  }
}

=== FILE: categories_page.dfy ===
/** The Categories page: the category form's checks and the body it sends
    to create or update a category, the form filled in for an edit, the
    guard in front of the recalculate button, and the page's two totals. */
module CategoriesPage {
  import opened Wrappers
  import opened JsText
  import opened ClientData
  import opened Store
  import CategoryRoutes

  /** The value of a number input: the text the user typed, or the number
      the edit handler put there from a loaded category. */
  datatype NumField = Typed(text: string) | Loaded(x: real)

  /** `parseFloat(value)`, with `None` for `NaN`; a number reads back as
      itself. */
  function FieldNumber(f: NumField): Option<real> {
    match f
    case Typed(s) => ParseFloat(s)
    case Loaded(x) => Some(x)
  }

  /** `parseFloat(value) || 0`. */
  function NumberOrZero(f: NumField): (r: real)
    ensures FieldNumber(f).Some? && FieldNumber(f).value != 0.0 ==> r == FieldNumber(f).value
    ensures FieldNumber(f).None? ==> r == 0.0
  {
    OrZero(FieldNumber(f))
  }

  /** A number input as the edit handler fills it: `value || ''`. */
  function LoadedField(o: Option<real>): (f: NumField)
    ensures NumberOrZero(f) == OrZero(o)
  {
    assert ParseFloat("") == None;
    if TruthyNum(o) then Loaded(o.value) else Typed("")
  }

  datatype CategoryForm = CategoryForm(name: string, percentage: NumField, fixedAmount: NumField, color: string)

  const FormColor: string := "#4F46E5"

  /** The empty form `resetForm` restores. */
  const EmptyForm: CategoryForm := CategoryForm("", Typed(""), Typed(""), FormColor)

  datatype FormError =
    | NameRequired    // 'Category name is required'
    | NeitherSet      // 'Please set either percentage or fixed amount'
    | BothSet         // 'Please set either percentage OR fixed amount, not both'
    | TooLarge        // 'Percentage cannot exceed 100%'

  /** `validateForm`: a name is required; then exactly one of percentage and
      fixed amount must be set, where "set" for the pair means non-zero and
      "both" means both positive; a percentage above 100 is refused. A
      negative value is not refused here. */
  function ValidateForm(form: CategoryForm): (r: Option<FormError>)
    ensures r == Some(NameRequired) <==> IsBlank(form.name)
    ensures r == Some(NeitherSet) <==> !IsBlank(form.name) && NumberOrZero(form.percentage) == 0.0 && NumberOrZero(form.fixedAmount) == 0.0
    ensures r == Some(BothSet) <==>
      && !IsBlank(form.name) && !(NumberOrZero(form.percentage) == 0.0 && NumberOrZero(form.fixedAmount) == 0.0)
      && NumberOrZero(form.percentage) > 0.0 && NumberOrZero(form.fixedAmount) > 0.0
    ensures r == Some(TooLarge) <==>
      && !IsBlank(form.name) && !(NumberOrZero(form.percentage) == 0.0 && NumberOrZero(form.fixedAmount) == 0.0)
      && !(NumberOrZero(form.percentage) > 0.0 && NumberOrZero(form.fixedAmount) > 0.0)
      && NumberOrZero(form.percentage) > 100.0
    ensures r.None? ==> !IsBlank(form.name) && NumberOrZero(form.percentage) <= 100.0
    ensures r.None? && NumberOrZero(form.percentage) >= 0.0 && NumberOrZero(form.fixedAmount) >= 0.0 ==>
      (NumberOrZero(form.percentage) > 0.0) != (NumberOrZero(form.fixedAmount) > 0.0)
  {
    var p := NumberOrZero(form.percentage);
    var f := NumberOrZero(form.fixedAmount);
    if IsBlank(form.name) then Some(NameRequired)
    else if p == 0.0 && f == 0.0 then Some(NeitherSet)
    else if p > 0.0 && f > 0.0 then Some(BothSet)
    else if p > 100.0 then Some(TooLarge)
    else None
  }

  /** The body `handleSubmit` sends to `POST /categories` or
      `PUT /categories/:id`: the trimmed name, both numbers (`NaN` as 0) and
      the colour. */
  function Payload(form: CategoryForm): (r: CategoryRoutes.CategoryInput)
    ensures r.name == Some(Trim(form.name)) && r.color == Some(form.color)
    ensures r.percentage == Some(NumberOrZero(form.percentage)) && r.fixedAmount == Some(NumberOrZero(form.fixedAmount))
  {
    CategoryRoutes.CategoryInput(Some(Trim(form.name)), Some(NumberOrZero(form.percentage)),
                                 Some(NumberOrZero(form.fixedAmount)), Some(form.color))
  }

  /** A name the form accepts is not blank after trimming either. */
  lemma TrimmedNameKept(name: string)
    requires !IsBlank(name)
    ensures !CategoryRoutes.NameBlank(Some(Trim(name)))
  {
    TrimShape(name);
  }

  /** A form the page accepts is created by the server exactly when its
      percentage is not negative (the server range-checks it, the page does
      not), and the row then holds the trimmed name and the two numbers; a
      non-negative form has one positive amount, which is the balance the
      category receives from a salary (a negative fixed amount with no
      percentage passes the page and allocates nothing). */
  lemma AcceptedFormCreated(db: Db, user: UserId, form: CategoryForm, salary: real)
    requires ValidateForm(form).None?
    ensures var r := CategoryRoutes.Create(db, user, Payload(form));
      var p, f := NumberOrZero(form.percentage), NumberOrZero(form.fixedAmount);
      && (r.result.Ok? <==> p >= 0.0)
      && (r.result.Err? ==> r.result.error == CategoryRoutes.InvalidPercentage)
      && (r.result.Ok? ==>
            && r.result.value.1.name == Trim(form.name)
            && r.result.value.1.percentage == p && r.result.value.1.fixedAmount == f
            && (f >= 0.0 ==> CategoryRoutes.Allocation(salary, p, f) == if p > 0.0 then salary * p / 100.0 else f))
  {
    TrimmedNameKept(form.name);
    TrimIdempotent(form.name);
  }

  /** Saving an accepted form over one of the user's categories always
      succeeds: the update route does not range-check the percentage, so a
      negative one the create route would refuse is stored. */
  lemma AcceptedFormUpdated(db: Db, user: UserId, id: CategoryId, form: CategoryForm)
    requires ValidateForm(form).None? && CategoryRoutes.Owns(db, user, id)
    ensures var r := CategoryRoutes.Update(db, user, id, Payload(form));
      && r.result.Ok?
      && r.db.categories[id].percentage == NumberOrZero(form.percentage)
      && r.db.categories[id].fixedAmount == NumberOrZero(form.fixedAmount)
      && r.db.categories[id].balance == db.categories[id].balance
  {
    TrimmedNameKept(form.name);
  }

  /** `handleEdit`: the form filled from a category, with an unset number
      shown as an empty field and the default colour for a missing one. */
  function EditForm(c: CategoryView): (form: CategoryForm)
    ensures form.name == c.name
    ensures NumberOrZero(form.percentage) == OrZero(c.percentage) && NumberOrZero(form.fixedAmount) == OrZero(c.fixedAmount)
  {
    CategoryForm(c.name, LoadedField(c.percentage), LoadedField(c.fixedAmount), OrDefault(Some(c.color), FormColor))
  }

  /** A stored row as the create and update routes leave it: a trimmed,
      non-blank name and a non-empty colour. */
  predicate Tidy(c: Category) {
    Trim(c.name) == c.name && !IsBlank(c.name) && c.color != []
  }

  /** Every row the create route inserts is tidy. */
  lemma CreatedRowTidy(db: Db, user: UserId, input: CategoryRoutes.CategoryInput)
    requires CategoryRoutes.Create(db, user, input).result.Ok?
    ensures Tidy(CategoryRoutes.Create(db, user, input).result.value.1)
  {
    var c := CategoryRoutes.Create(db, user, input).result.value.1;
    TrimIdempotent(input.name.value);
    TrimShape(c.name);
  }

  /** Saving the edit form of a tidy row without changing it writes the
      row back as it was: the page round-trips a category. */
  lemma EditSaveUnchanged(db: Db, user: UserId, id: CategoryId)
    requires CategoryRoutes.Owns(db, user, id) && Tidy(db.categories[id])
    ensures CategoryRoutes.Update(db, user, id, Payload(EditForm(CategoryOf(id, db.categories[id])))) == Outcome(db, Ok(()))
  {
    var c := db.categories[id];
    var input := Payload(EditForm(CategoryOf(id, c)));
    assert input.name == Some(c.name);
    assert !CategoryRoutes.NameBlank(input.name);
    var c2 := CategoryRoutes.Update(db, user, id, input).db.categories[id];
    assert c2 == c;
    assert db.categories[id := c] == db.categories;
  }

  /** The page itself refuses to save the unchanged edit form of a tidy
      row whose amounts are both zero or both positive, or whose percentage
      is above 100; the create route stores such rows, so not every stored
      category can be saved back through the page. */
  lemma EditFormRefused(id: CategoryId, c: Category)
    requires Tidy(c)
    ensures var p, f := OrZero(Some(c.percentage)), OrZero(Some(c.fixedAmount));
      ValidateForm(EditForm(CategoryOf(id, c))).Some? <==>
        (p == 0.0 && f == 0.0) || (p > 0.0 && f > 0.0) || p > 100.0
  {
  }

  /** `recalculateBalances` asks the server only when the signed-in user
      has a salary. */
  predicate MayRecalculate(salary: Option<real>) {
    TruthyNum(salary)
  }

  /** When the page's user record carries the stored salary, the page's
      guard lets a request through exactly when the server recalculates. */
  lemma RecalculateGuardAgrees(db: Db, user: UserId)
    requires user in db.users
    ensures MayRecalculate(Some(db.users[user].salary)) <==> CategoryRoutes.Recalculate(db, user).result.Ok?
  {
  }

  /** `getTotalPercentage`: the sum of the percentages, a missing one as 0. */
  function TotalPercentage(cats: seq<CategoryView>): (r: real)
    ensures cats == [] ==> r == 0.0
  {
    if cats == [] then 0.0 else OrZero(cats[0].percentage) + TotalPercentage(cats[1..])
  }

  /** `getTotalFixedAmount`: the sum of the fixed amounts, a missing one as 0. */
  function TotalFixed(cats: seq<CategoryView>): (r: real)
    ensures cats == [] ==> r == 0.0
  {
    if cats == [] then 0.0 else OrZero(cats[0].fixedAmount) + TotalFixed(cats[1..])
  }

  /** The views of server rows. */
  function Views(rows: seq<(CategoryId, Category)>): (r: seq<CategoryView>)
    ensures |r| == |rows|
    ensures forall k :: 0 <= k < |rows| ==> r[k] == CategoryOf(rows[k].0, rows[k].1)
  {
    if rows == [] then [] else [CategoryOf(rows[0].0, rows[0].1)] + Views(rows[1..])
  }

  /** The sum of the stored percentages of some rows. */
  function StoredPercentage(rows: seq<(CategoryId, Category)>): real {
    if rows == [] then 0.0 else rows[0].1.percentage + StoredPercentage(rows[1..])
  }

  /** The page's percentage total over loaded rows is the sum of what the
      server stores (a stored 0 adds nothing either way). */
  lemma {:induction false} TotalMatchesStored(rows: seq<(CategoryId, Category)>)
    ensures TotalPercentage(Views(rows)) == StoredPercentage(rows)
  {
    if rows != [] {
      TotalMatchesStored(rows[1..]);
      assert Views(rows)[1..] == Views(rows[1..]);
    }
  }
}

=== FILE: category_routes.dfy ===
/** The `/api/categories` routes: create, bulk create for the default
    budget plan, update, delete, and the recalculation of balances from the
    salary. Each is a function of the store, the authenticated user and the
    request body. */
module CategoryRoutes {
  import opened Wrappers
  import opened JsText
  import opened Store

  /** Why a bulk insert aborted (the message of the thrown error). */
  datatype BulkFailure =
    | NameRequired
    | InvalidPercentageFor(name: string)
    | NameMissing

  datatype CategoryError =
    | InvalidName
    | InvalidPercentage
    | InvalidCategories
    | CreationFailed(reason: BulkFailure)
    | CategoryNotFound
    | NoSalary

  /** A category in a request body; absent JSON fields are `None`. */
  datatype CategoryInput = CategoryInput(
    name: Option<string>,
    percentage: Option<real>,
    fixedAmount: Option<real>,
    color: Option<string>)

  /** `!name || name.trim().length === 0`. */
  predicate NameBlank(name: Option<string>) {
    !Truthy(name) || IsBlank(name.value)
  }

  /** `percentage && (percentage < 0 || percentage > 100)`. */
  predicate PercentageOutOfRange(p: Option<real>) {
    TruthyNum(p) && (p.value < 0.0 || p.value > 100.0)
  }

  /** The row inserted for a valid input: trimmed name, missing numbers as
      0, the default colour, and a zero balance. */
  function NewCategory(user: UserId, input: CategoryInput): Category
    requires !NameBlank(input.name)
  {
    Category(user, Trim(input.name.value), OrZero(input.percentage), OrZero(input.fixedAmount),
             OrDefault(input.color, DefaultColor), 0.0)
  }

  /** `c` is `user`'s category. */
  predicate Owns(db: Db, user: UserId, id: CategoryId) {
    id in db.categories && db.categories[id].owner == user
  }

  // ---------------------------------------------------------------------
  // Allocation and recalculation
  // ---------------------------------------------------------------------

  /** The balance a category receives from a salary: its percentage of the
      salary when the percentage is positive, else its fixed amount when that
      is positive, else nothing. */
  function Allocation(salary: real, percentage: real, fixedAmount: real): real {
    if percentage > 0.0 then salary * percentage / 100.0
    else if fixedAmount > 0.0 then fixedAmount
    else 0.0
  }

  /** A positive percentage decides the balance whatever the fixed amount;
      the fixed amount only counts without one; the balance is never
      negative for a positive salary. */
  lemma AllocationRule(salary: real, percentage: real, fixedAmount: real)
    ensures percentage > 0.0 ==> Allocation(salary, percentage, fixedAmount) == salary * percentage / 100.0
    ensures percentage <= 0.0 && fixedAmount > 0.0 ==> Allocation(salary, percentage, fixedAmount) == fixedAmount
    ensures percentage <= 0.0 && fixedAmount <= 0.0 ==> Allocation(salary, percentage, fixedAmount) == 0.0
    ensures salary > 0.0 ==> Allocation(salary, percentage, fixedAmount) >= 0.0
    ensures salary > 0.0 && percentage <= 100.0 && fixedAmount <= 0.0 ==> Allocation(salary, percentage, fixedAmount) <= salary
  {
  }

  /** `POST /recalculate`: without a salary (no user row, or salary 0)
      nothing changes; otherwise every category of the user gets its
      allocation as its balance and nothing else is written. */
  function Recalculate(db: Db, user: UserId): (r: Outcome<(), CategoryError>)
    ensures r.result.Err? <==> user !in db.users || db.users[user].salary == 0.0
    ensures r.result.Err? ==> r.result.error == NoSalary && r.db == db
    ensures r.result.Ok? ==>
      && r.db == db.(categories := r.db.categories)
      && r.db.categories.Keys == db.categories.Keys
      && forall id :: id in db.categories ==>
           var c := db.categories[id];
           r.db.categories[id]
             == if c.owner == user then c.(balance := Allocation(db.users[user].salary, c.percentage, c.fixedAmount)) else c
    ensures Wf(db) ==> Wf(r.db)
  {
    if user !in db.users || db.users[user].salary == 0.0 then Outcome(db, Err(NoSalary))
    else
      var salary := db.users[user].salary;
      var cats := map id | id in db.categories ::
        var c := db.categories[id];
        if c.owner == user then c.(balance := Allocation(salary, c.percentage, c.fixedAmount)) else c;
      Outcome(db.(categories := cats), Ok(()))
  }

  /** Recalculating twice gives the same store as recalculating once: the
      new balances depend only on the salary and the allocation settings. */
  lemma RecalculateIdempotent(db: Db, user: UserId)
    requires Recalculate(db, user).result.Ok?
    ensures Recalculate(Recalculate(db, user).db, user) == Recalculate(db, user)
  {
    var once := Recalculate(db, user);
    var twice := Recalculate(once.db, user);
    assert twice.db.categories == once.db.categories;
  }

  // ---------------------------------------------------------------------
  // Create
  // ---------------------------------------------------------------------

  /** `POST /`: a non-blank name is required first, then a percentage, if
      given and non-zero, must lie in 0..100. The new row is the next id, with
      the trimmed name and a zero balance. Names are not de-duplicated. */
  function Create(db: Db, user: UserId, input: CategoryInput): (r: Outcome<(CategoryId, Category), CategoryError>)
    ensures r.result.Err? ==> r.db == db
    ensures r.result == Err(InvalidName) <==> NameBlank(input.name)
    ensures r.result == Err(InvalidPercentage) <==> !NameBlank(input.name) && PercentageOutOfRange(input.percentage)
    ensures r.result.Ok? ==>
      var (id, c) := r.result.value;
      && id == db.nextCategory
      && r.db == db.(categories := db.categories[id := c], nextCategory := id + 1)
      && c.owner == user && c.name == Trim(input.name.value) && c.name != []
      && c.percentage == OrZero(input.percentage) && 0.0 <= c.percentage <= 100.0
      && c.fixedAmount == OrZero(input.fixedAmount)
      && c.balance == 0.0
    ensures Wf(db) && r.result.Ok? ==> r.result.value.0 !in db.categories && Wf(r.db)
  {
    if NameBlank(input.name) then Outcome(db, Err(InvalidName))
    else if PercentageOutOfRange(input.percentage) then Outcome(db, Err(InvalidPercentage))
    else
      var id := db.nextCategory;
      var c := NewCategory(user, input);
      TrimShape(input.name.value);
      Outcome(db.(categories := db.categories[id := c], nextCategory := id + 1), Ok((id, c)))
  }

  // ---------------------------------------------------------------------
  // Bulk create
  // ---------------------------------------------------------------------

  /** The `categories` field of a bulk request. */
  datatype BulkBody = Missing | NotArray | Items(items: seq<CategoryInput>)

  /** The user's stored names, lower-cased. */
  function ExistingNames(db: Db, user: UserId): set<string> {
    set id | id in db.categories && db.categories[id].owner == user :: ToLower(db.categories[id].name)
  }

  predicate AllNamed(items: seq<CategoryInput>) {
    forall k :: 0 <= k < |items| ==> items[k].name.Some?
  }

  /** The items whose lower-cased (untrimmed) name is not already stored;
      the batch is not compared with itself. */
  function Fresh(items: seq<CategoryInput>, existing: set<string>): (r: seq<CategoryInput>)
    requires AllNamed(items)
    ensures AllNamed(r) && |r| <= |items|
    ensures forall k :: 0 <= k < |r| ==> ToLower(r[k].name.value) !in existing
    ensures forall k :: 0 <= k < |r| ==> r[k] in items
    ensures forall k :: 0 <= k < |items| && ToLower(items[k].name.value) !in existing ==> items[k] in r
  {
    if items == [] then []
    else
      var rest := Fresh(items[1..], existing);
      assert forall k :: 1 <= k < |items| ==> items[k] == items[1..][k - 1];
      if ToLower(items[0].name.value) in existing then rest else [items[0]] + rest
  }

  /** An item the insert loop accepts. */
  predicate ValidItem(item: CategoryInput) {
    !NameBlank(item.name) && !PercentageOutOfRange(item.percentage)
  }

  /** Every item is valid (stated recursively, item by item). */
  predicate AllValid(items: seq<CategoryInput>) {
    items == [] || (ValidItem(items[0]) && AllValid(items[1..]))
  }

  lemma {:induction false} AllValidAt(items: seq<CategoryInput>, k: nat)
    requires AllValid(items) && k < |items|
    ensures ValidItem(items[k])
    decreases k
  {
    if k > 0 {
      AllValidAt(items[1..], k - 1);
    }
  }

  /** The insert loop inside the SQL transaction: each item is checked and
      inserted in turn under the next id, and the first invalid item aborts
      the whole loop. */
  function InsertAll(db: Db, user: UserId, items: seq<CategoryInput>): (r: Result<(Db, seq<(CategoryId, Category)>), CategoryError>)
    ensures r.Err? ==> r.error.CreationFailed?
    decreases |items|
  {
    if items == [] then Ok((db, []))
    else
      var item := items[0];
      if NameBlank(item.name) then Err(CreationFailed(NameRequired))
      else if PercentageOutOfRange(item.percentage) then Err(CreationFailed(InvalidPercentageFor(item.name.value)))
      else
        match InsertAll(InsertOne(db, user, item), user, items[1..])
        case Err(e) => Err(e)
        case Ok(rest) => Ok((rest.0, [(db.nextCategory, NewCategory(user, item))] + rest.1))
  }

  /** One insert: the next id gets the new row. */
  function InsertOne(db: Db, user: UserId, item: CategoryInput): Db
    requires ValidItem(item)
  {
    db.(categories := db.categories[db.nextCategory := NewCategory(user, item)], nextCategory := db.nextCategory + 1)
  }

  /** The loop commits exactly when every item is valid. */
  lemma {:induction false} InsertAllOkIff(db: Db, user: UserId, items: seq<CategoryInput>)
    ensures InsertAll(db, user, items).Ok? <==> AllValid(items)
    decreases |items|
  {
    if items != [] && ValidItem(items[0]) {
      InsertAllOkIff(InsertOne(db, user, items[0]), user, items[1..]);
    }
  }

  /** The first step of a committed loop. */
  lemma InsertAllCons(db: Db, user: UserId, items: seq<CategoryInput>)
    requires items != [] && InsertAll(db, user, items).Ok?
    ensures ValidItem(items[0])
    ensures InsertAll(InsertOne(db, user, items[0]), user, items[1..]).Ok?
    ensures var rest := InsertAll(InsertOne(db, user, items[0]), user, items[1..]).value;
      InsertAll(db, user, items).value == (rest.0, [(db.nextCategory, NewCategory(user, items[0]))] + rest.1)
  {
  }

  /** The rows the loop builds for valid items, in order. */
  function Rows(user: UserId, items: seq<CategoryInput>): (r: seq<Category>)
    requires AllValid(items)
    ensures |r| == |items|
  {
    if items == [] then [] else [NewCategory(user, items[0])] + Rows(user, items[1..])
  }

  lemma {:induction false} RowsAt(user: UserId, items: seq<CategoryInput>, k: nat)
    requires AllValid(items) && k < |items|
    ensures ValidItem(items[k]) && Rows(user, items)[k] == NewCategory(user, items[k])
    decreases k
  {
    AllValidAt(items, k);
    if k > 0 {
      RowsAt(user, items[1..], k - 1);
    }
  }

  /** `rows` paired with consecutive ids from `n`. */
  function Numbered(n: int, rows: seq<Category>): (r: seq<(CategoryId, Category)>)
    ensures |r| == |rows|
    decreases |rows|
  {
    if rows == [] then [] else [(n, rows[0])] + Numbered(n + 1, rows[1..])
  }

  lemma {:induction false} NumberedAt(n: int, rows: seq<Category>, k: nat)
    requires k < |rows|
    ensures Numbered(n, rows)[k] == (n + k, rows[k])
    decreases k
  {
    if k > 0 {
      NumberedAt(n + 1, rows[1..], k - 1);
    }
  }

  /** `cats` with `rows` stored under consecutive ids from `n`. */
  function Inserted(cats: map<CategoryId, Category>, n: int, rows: seq<Category>): map<CategoryId, Category>
    decreases |rows|
  {
    if rows == [] then cats else Inserted(cats[n := rows[0]], n + 1, rows[1..])
  }

  /** The ids `n .. n + |rows| - 1` are added, the rows below `n` kept. */
  lemma {:induction false} InsertedKeys(cats: map<CategoryId, Category>, n: int, rows: seq<Category>)
    ensures forall id :: id in Inserted(cats, n, rows) <==> id in cats || n <= id < n + |rows|
    ensures forall id :: id in cats && id < n ==> Inserted(cats, n, rows)[id] == cats[id]
    decreases |rows|
  {
    if rows != [] {
      InsertedKeys(cats[n := rows[0]], n + 1, rows[1..]);
    }
  }

  /** Row `k` is stored under id `n + k`. */
  lemma {:induction false} InsertedAt(cats: map<CategoryId, Category>, n: int, rows: seq<Category>, k: nat)
    requires k < |rows|
    ensures n + k in Inserted(cats, n, rows) && Inserted(cats, n, rows)[n + k] == rows[k]
    decreases k
  {
    InsertedKeys(cats[n := rows[0]], n + 1, rows[1..]);
    if k > 0 {
      InsertedAt(cats[n := rows[0]], n + 1, rows[1..], k - 1);
    }
  }

  /** A committed loop is the same as checking every item first and then
      storing all the rows under consecutive ids. */
  lemma {:induction false} InsertAllCommit(db: Db, user: UserId, items: seq<CategoryInput>)
    requires InsertAll(db, user, items).Ok?
    ensures AllValid(items)
    ensures var res := InsertAll(db, user, items).value;
      && res.0 == db.(categories := res.0.categories, nextCategory := db.nextCategory + |items|)
      && res.0.categories == Inserted(db.categories, db.nextCategory, Rows(user, items))
      && res.1 == Numbered(db.nextCategory, Rows(user, items))
    decreases |items|
  {
    if items != [] {
      var next := db.nextCategory;
      var db1 := InsertOne(db, user, items[0]);
      var rest := InsertAll(db1, user, items[1..]).value;
      var res := InsertAll(db, user, items).value;
      InsertAllCons(db, user, items);
      assert res == (rest.0, [(next, NewCategory(user, items[0]))] + rest.1);
      InsertAllCommit(db1, user, items[1..]);
      var c := NewCategory(user, items[0]);
      var tail := Rows(user, items[1..]);
      var rows := Rows(user, items);
      assert rows == [c] + tail;
      assert rows[0] == c && rows[1..] == tail;
      assert db1.categories == db.categories[next := c];
    }
  }

  /** When every name is already taken, no item is kept. */
  lemma NothingFresh(items: seq<CategoryInput>, existing: set<string>)
    requires AllNamed(items)
    requires forall k :: 0 <= k < |items| ==> ToLower(items[k].name.value) in existing
    ensures Fresh(items, existing) == []
  {
  }

  /** The store after a committed bulk insert of `kept`: every item valid and
      created in order under consecutive fresh ids, with the trimmed name,
      its numbers (missing ones as 0), its colour (or the default) and a
      zero balance; earlier rows and the other tables unchanged. */
  predicate BulkCreated(db: Db, user: UserId, kept: seq<CategoryInput>, db2: Db, created: seq<(CategoryId, Category)>)
    requires AllNamed(kept)
  {
    && |created| == |kept|
    && AllValid(kept)
    && (forall k :: 0 <= k < |kept| ==>
          && created[k].0 == db.nextCategory + k
          && created[k].0 in db2.categories
          && db2.categories[created[k].0] == created[k].1
          && created[k].1.owner == user
          && created[k].1.name == Trim(kept[k].name.value)
          && created[k].1.percentage == OrZero(kept[k].percentage)
          && created[k].1.fixedAmount == OrZero(kept[k].fixedAmount)
          && created[k].1.color == OrDefault(kept[k].color, DefaultColor)
          && created[k].1.balance == 0.0)
    && (forall id :: id in db.categories && id < db.nextCategory ==> id in db2.categories && db2.categories[id] == db.categories[id])
    && db2.users == db.users && db2.transactions == db.transactions
  }

  /** The items of a bulk request that reach the insert loop. */
  function Kept(db: Db, user: UserId, items: seq<CategoryInput>): seq<CategoryInput>
    requires AllNamed(items)
  {
    Fresh(items, ExistingNames(db, user))
  }

  /** `POST /bulk`. A missing, non-array or empty list is rejected; an item
      without a name makes the duplicate filter throw; the items whose names
      the user already has (compared lower-cased) are skipped, and if none
      remain nothing is created. Otherwise the remaining items are inserted
      all-or-nothing: the first blank name or out-of-range percentage rolls
      back every insert of the request. */
  function BulkCreate(db: Db, user: UserId, body: BulkBody): (r: Outcome<seq<(CategoryId, Category)>, CategoryError>)
    ensures r.result.Err? ==> r.db == db
    ensures r.result == Err(InvalidCategories) <==> !body.Items? || body.items == []
    ensures body.Items? && body.items != [] && !AllNamed(body.items) ==> r.result == Err(CreationFailed(NameMissing))
    ensures r.result.Ok? ==> body.Items? && AllNamed(body.items)
  {
    match body
    case Missing => Outcome(db, Err(InvalidCategories))
    case NotArray => Outcome(db, Err(InvalidCategories))
    case Items(items) =>
      if items == [] then Outcome(db, Err(InvalidCategories))
      else if !AllNamed(items) then Outcome(db, Err(CreationFailed(NameMissing)))
      else
        var kept := Kept(db, user, items);
        if kept == [] then Outcome(db, Ok([]))
        else match InsertAll(db, user, kept)
          case Err(e) => Outcome(db, Err(e))
          case Ok(res) => Outcome(res.0, Ok(res.1))
  }

  /** A committed insert loop leaves the store `BulkCreated` describes. */
  lemma CommitCreates(db: Db, user: UserId, kept: seq<CategoryInput>)
    requires AllNamed(kept) && AllValid(kept)
    ensures InsertAll(db, user, kept).Ok?
    ensures var res := InsertAll(db, user, kept).value;
      BulkCreated(db, user, kept, res.0, res.1)
  {
    InsertAllOkIff(db, user, kept);
    InsertAllCommit(db, user, kept);
    var res := InsertAll(db, user, kept).value;
    var rows := Rows(user, kept);
    var n := db.nextCategory;
    assert res.0.categories == Inserted(db.categories, n, rows);
    assert res.1 == Numbered(n, rows);
    InsertedKeys(db.categories, n, rows);
    forall k | 0 <= k < |kept|
      ensures res.1[k].0 == n + k
      ensures res.1[k].0 in res.0.categories && res.0.categories[res.1[k].0] == res.1[k].1
      ensures res.1[k].1.owner == user && res.1[k].1.name == Trim(kept[k].name.value) && res.1[k].1.balance == 0.0
      ensures res.1[k].1.percentage == OrZero(kept[k].percentage) && res.1[k].1.fixedAmount == OrZero(kept[k].fixedAmount)
      ensures res.1[k].1.color == OrDefault(kept[k].color, DefaultColor)
    {
      NumberedAt(n, rows, k);
      InsertedAt(db.categories, n, rows, k);
      RowsAt(user, kept, k);
    }
  }

  /** All-or-nothing: a bulk request commits exactly when every item that
      survives the duplicate filter is valid; then each of them is created,
      in order, and nothing else changes. */
  lemma BulkAllOrNothing(db: Db, user: UserId, items: seq<CategoryInput>)
    requires items != [] && AllNamed(items)
    ensures var r := BulkCreate(db, user, Items(items));
      && (r.result.Ok? <==> AllValid(Kept(db, user, items)))
      && (r.result.Ok? ==> BulkCreated(db, user, Kept(db, user, items), r.db, r.result.value))
  {
    var kept := Kept(db, user, items);
    if kept != [] {
      InsertAllOkIff(db, user, kept);
      if AllValid(kept) {
        CommitCreates(db, user, kept);
      }
    }
  }

  /** The rows a bulk request creates have ids no row had before. */
  lemma BulkPreservesWf(db: Db, user: UserId, body: BulkBody)
    requires Wf(db)
    ensures Wf(BulkCreate(db, user, body).db)
  {
    if body.Items? && body.items != [] && AllNamed(body.items) {
      var kept := Kept(db, user, body.items);
      if kept != [] && InsertAll(db, user, kept).Ok? {
        InsertAllCommit(db, user, kept);
        InsertedKeys(db.categories, db.nextCategory, Rows(user, kept));
      }
    }
  }

  /** Every item whose name is new to the user is created, even when the
      batch repeats a name: the batch is not compared with itself. */
  lemma BulkKeepsBatchDuplicates(db: Db, user: UserId, item: CategoryInput)
    requires ValidItem(item)
    requires ToLower(item.name.value) !in ExistingNames(db, user)
    ensures var r := BulkCreate(db, user, Items([item, item]));
      r.result.Ok? && |r.result.value| == 2 && r.result.value[0].1 == r.result.value[1].1
  {
    var items := [item, item];
    assert Kept(db, user, items) == items;
    assert AllValid(items) by {
      assert items[1..] == [item] && items[1..][1..] == [];
    }
    InsertAllOkIff(db, user, items);
    InsertAllCommit(db, user, items);
    var rows := Rows(user, items);
    NumberedAt(db.nextCategory, rows, 0);
    NumberedAt(db.nextCategory, rows, 1);
    RowsAt(user, items, 0);
    RowsAt(user, items, 1);
  }

  // ---------------------------------------------------------------------
  // Update and delete
  // ---------------------------------------------------------------------

  /** `PUT /:id`: a non-blank name is required; then only the user's own
      category with that id is rewritten (name, percentage, fixed amount,
      colour), otherwise nothing matches and the answer is not-found. The
      balance is never touched and the percentage is not range-checked. */
  function Update(db: Db, user: UserId, id: CategoryId, input: CategoryInput): (r: Outcome<(), CategoryError>)
    ensures r.result.Err? ==> r.db == db
    ensures r.result == Err(InvalidName) <==> NameBlank(input.name)
    ensures r.result == Err(CategoryNotFound) <==> !NameBlank(input.name) && !Owns(db, user, id)
    ensures r.result.Ok? ==> Owns(db, user, id) && id in r.db.categories
    ensures r.result.Ok? && id in db.categories ==>
      var old_ := db.categories[id];
      && r.db == db.(categories := db.categories[id := r.db.categories[id]])
      && r.db.categories[id] == old_.(name := Trim(input.name.value), percentage := OrZero(input.percentage),
                                      fixedAmount := OrZero(input.fixedAmount), color := OrDefault(input.color, DefaultColor))
      && r.db.categories[id].balance == old_.balance && r.db.categories[id].owner == user
    ensures Wf(db) ==> Wf(r.db)
  {
    if NameBlank(input.name) then Outcome(db, Err(InvalidName))
    else if !Owns(db, user, id) then Outcome(db, Err(CategoryNotFound))
    else
      var c := db.categories[id];
      var c2 := c.(name := Trim(input.name.value), percentage := OrZero(input.percentage),
                   fixedAmount := OrZero(input.fixedAmount), color := OrDefault(input.color, DefaultColor));
      Outcome(db.(categories := db.categories[id := c2]), Ok(()))
  }

  /** `DELETE /:id`: removes the user's own category with that id, or
      answers not-found and changes nothing. Foreign keys are not enforced by
      the connection, so the category's transactions stay. */
  function Delete(db: Db, user: UserId, id: CategoryId): (r: Outcome<(), CategoryError>)
    ensures r.result.Err? <==> !Owns(db, user, id)
    ensures r.result.Err? ==> r.result.error == CategoryNotFound && r.db == db
    ensures r.result.Ok? ==> r.db == db.(categories := db.categories - {id})
    ensures r.db.transactions == db.transactions
    ensures Wf(db) ==> Wf(r.db)
  {
    if Owns(db, user, id) then Outcome(db.(categories := db.categories - {id}), Ok(()))
    else Outcome(db, Err(CategoryNotFound))
  }

  // ---------------------------------------------------------------------
  // The ledger invariant
  // ---------------------------------------------------------------------

  /** No category route touches the transactions, changes an owner or
      reuses an id, so each keeps every transaction row fitting the store. */
  lemma RoutesKeepLedger(db: Db, user: UserId, id: CategoryId, input: CategoryInput)
    requires Wf(db) && Ledger(db)
    ensures Ledger(Create(db, user, input).db)
    ensures Ledger(Update(db, user, id, input).db)
    ensures Ledger(Delete(db, user, id).db)
    ensures Ledger(Recalculate(db, user).db)
  {
    CreateKeepsLedger(db, user, input);
    EditsKeepLedger(db, user, id, input);
  }

  lemma CreateKeepsLedger(db: Db, user: UserId, input: CategoryInput)
    requires Wf(db) && Ledger(db)
    ensures Ledger(Create(db, user, input).db)
  {
    LedgerFrame(db, Create(db, user, input).db);
  }

  lemma EditsKeepLedger(db: Db, user: UserId, id: CategoryId, input: CategoryInput)
    requires Ledger(db)
    ensures Ledger(Update(db, user, id, input).db)
    ensures Ledger(Delete(db, user, id).db)
    ensures Ledger(Recalculate(db, user).db)
  {
    LedgerFrame(db, Update(db, user, id, input).db);
    LedgerFrame(db, Delete(db, user, id).db);
    LedgerFrame(db, Recalculate(db, user).db);
  }

  /** The bulk insert stores its rows under ids from the counter on, so it
      keeps every transaction row fitting the store. */
  lemma BulkKeepsLedger(db: Db, user: UserId, body: BulkBody)
    requires Ledger(db)
    ensures Ledger(BulkCreate(db, user, body).db)
  {
    var r := BulkCreate(db, user, body);
    if body.Items? && body.items != [] && AllNamed(body.items) {
      var kept := Kept(db, user, body.items);
      if kept != [] && InsertAll(db, user, kept).Ok? {
        InsertAllCommit(db, user, kept);
        InsertedKeys(db.categories, db.nextCategory, Rows(user, kept));
        LedgerFrame(db, r.db);
      }
    }
  }
}

=== FILE: client_data.dfy ===
/** The records the React client holds: categories and transactions as the
    JSON rows the server sends (plus the client's own local defaults), and
    the ids it compares with `===`. */
module ClientData {
  import opened Wrappers
  import opened JsText
  import Store

  /** A JavaScript id value: a number from the server, or a string from a
      form control or a local default. Two ids are `===` exactly when they
      are equal here; a number is never `===` a string. */
  datatype JsId = Num(n: int) | Str(s: string)

  /** `id.toString()`. */
  function IdText(id: JsId): (r: string)
    ensures id.Num? && id.n >= 0 ==> r == Decimal(id.n)
  {
    match id
    case Num(n) => if n >= 0 then Decimal(n) else "-" + Decimal(-n)
    case Str(s) => s
  }

  /** Distinct numeric ids render as distinct strings. */
  lemma IdTextInjective(a: int, b: int)
    requires IdText(Num(a)) == IdText(Num(b))
    ensures a == b
  {
    var ra, rb := IdText(Num(a)), IdText(Num(b));
    if a >= 0 && b >= 0 {
      assert DigitsValue(ra) == a && DigitsValue(rb) == b;
    } else if a < 0 && b < 0 {
      assert ra[1..] == Decimal(-a) && rb[1..] == Decimal(-b);
      assert DigitsValue(Decimal(-a)) == -a;
    }
  }

  /** JavaScript truthiness of an id: not `0` and not `''`. */
  predicate TruthyId(id: JsId) {
    match id
    case Num(n) => n != 0
    case Str(s) => s != []
  }

  /** A category as the client holds it. Numbers the JSON may leave out or
      set to `null` are `None`; `balance` exists only on the client's own
      default categories. */
  datatype CategoryView = CategoryView(
    id: JsId,
    name: string,
    percentage: Option<real>,
    fixedAmount: Option<real>,
    currentBalance: Option<real>,
    balance: Option<real>,
    color: string)

  /** A calendar month, from the transaction's `created_at`. */
  datatype Month = Month(year: int, month: int)

  /** A transaction as the client holds it; `status` is the text the server
      stores. */
  datatype TransactionView = TransactionView(
    id: JsId,
    categoryId: Option<JsId>,
    categoryName: Option<string>,
    amount: real,
    status: string,
    merchantName: Option<string>,
    note: Option<string>,
    created: Month)

  /** The `status` text of a server row. */
  function StatusText(s: Store.Status): (r: string)
    ensures r == "success" <==> s == Store.Success
    ensures r == "pending" <==> s == Store.Pending
  {
    match s
    case Pending => "pending"
    case Success => "success"
    case Failed => "failed"
    case Cancelled => "cancelled"
  }

  /** A client list that mirrors server rows one for one, in the same order:
      the same category, amount and status. */
  predicate Mirrors(views: seq<TransactionView>, txs: seq<Store.Transaction>) {
    && |views| == |txs|
    && forall k :: 0 <= k < |views| ==>
         && views[k].categoryId == Some(Num(txs[k].category))
         && views[k].amount == txs[k].amount
         && views[k].status == StatusText(txs[k].status)
  }

  /** The view of a server category row with id `id`. */
  function CategoryOf(id: Store.CategoryId, c: Store.Category): (v: CategoryView)
    ensures v.id == Num(id) && v.name == c.name && v.currentBalance == Some(c.balance)
  {
    CategoryView(Num(id), c.name, Some(c.percentage), Some(c.fixedAmount), Some(c.balance), None, c.color)
  }

  /** `cats.find(cat => cat.id.toString() === id.toString())`: the first
      category whose id renders as the text of `id`. */
  function FindByText(cats: seq<CategoryView>, id: JsId): (r: Option<CategoryView>)
    ensures r.None? <==> forall k :: 0 <= k < |cats| ==> IdText(cats[k].id) != IdText(id)
    ensures r.Some? ==> exists k :: FirstMatchAt(cats, id, k) && cats[k] == r.value
  {
    if cats == [] then None
    else if IdText(cats[0].id) == IdText(id) then Some(cats[0])
    else
      var r := FindByText(cats[1..], id);
      if r.Some? then FirstMatchShift(cats, id, r.value); r else r
  }

  /** A first match in the tail, behind a non-matching head, is a first
      match in the whole list. */
  lemma FirstMatchShift(cats: seq<CategoryView>, id: JsId, v: CategoryView)
    requires cats != [] && IdText(cats[0].id) != IdText(id)
    requires exists k :: FirstMatchAt(cats[1..], id, k) && cats[1..][k] == v
    ensures exists k :: FirstMatchAt(cats, id, k) && cats[k] == v
  {
    var k :| FirstMatchAt(cats[1..], id, k) && cats[1..][k] == v;
    assert cats[k + 1] == v;
    forall j | 0 <= j < k + 1 ensures IdText(cats[j].id) != IdText(id) {
      if j > 0 { assert cats[j] == cats[1..][j - 1]; }
    }
    assert FirstMatchAt(cats, id, k + 1);
  }

  /** `cats[k]` is the first category whose id renders as the text of `id`. */
  predicate FirstMatchAt(cats: seq<CategoryView>, id: JsId, k: int) {
    && 0 <= k < |cats| && IdText(cats[k].id) == IdText(id)
    && forall j :: 0 <= j < k ==> IdText(cats[j].id) != IdText(id)
  }

  /** All ids numeric, as loaded from the server. */
  predicate NumericIds(cats: seq<CategoryView>) {
    forall k :: 0 <= k < |cats| ==> cats[k].id.Num?
  }
}

=== FILE: dashboard.dfy ===
/** The Dashboard's own logic: the quick payment form (filled by hand or
    from a scanned QR code, checked, optimistically applied and posted) and
    the button that creates the default categories. Its charts are the ones
    in `Analytics`. */
module Dashboard {
  import opened Wrappers
  import opened JsText
  import opened ClientData
  import opened Store
  import BalanceContext
  import TransactionRoutes
  import CategoryRoutes
  import BudgetPlanning
  import QrScanner

  // ---------------------------------------------------------------------
  // The payment form
  // ---------------------------------------------------------------------

  /** The quick payment form. Every field holds the text of its input, so
      `categoryId` is the `value` of the chosen `<option>`: the category's
      id as a string. */
  datatype PayForm = PayForm(amount: string, categoryId: string, merchantUpi: string, merchantName: string, note: string)

  /** The form as first shown and as reset after a payment. */
  const EmptyPayForm: PayForm := PayForm("", "", "", "", "")

  datatype FormField = AmountInput | CategoryInput | UpiInput | NameInput | NoteInput

  function FieldValue(form: PayForm, field: FormField): string {
    match field
    case AmountInput => form.amount
    case CategoryInput => form.categoryId
    case UpiInput => form.merchantUpi
    case NameInput => form.merchantName
    case NoteInput => form.note
  }

  /** `handlePaymentFormChange`: the edited input takes the new text, the
      others keep theirs. */
  function HandleFormChange(form: PayForm, field: FormField, value: string): (r: PayForm)
    ensures FieldValue(r, field) == value
    ensures forall g :: g != field ==> FieldValue(r, g) == FieldValue(form, g)
  {
    match field
    case AmountInput => form.(amount := value)
    case CategoryInput => form.(categoryId := value)
    case UpiInput => form.(merchantUpi := value)
    case NameInput => form.(merchantName := value)
    case NoteInput => form.(note := value)
  }

  /** `handleQRScan`: the payee and the name are replaced (by '' when the
      code has none); an empty amount or note in the code keeps what the
      form had; the chosen category stays. */
  function HandleQrScan(form: PayForm, data: QrScanner.UpiData): (r: PayForm)
    ensures r.categoryId == form.categoryId
    ensures r.merchantUpi == OrDefault(data.upiId, "") && r.merchantName == data.merchantName
    ensures r.amount == (if data.amount == [] then form.amount else data.amount)
    ensures r.note == (if data.note == [] then form.note else data.note)
  {
    form.(merchantUpi := OrDefault(data.upiId, ""),
          merchantName := OrDefault(Some(data.merchantName), ""),
          amount := OrDefault(Some(data.amount), form.amount),
          note := OrDefault(Some(data.note), form.note))
  }

  /** Scanning the intent URL the server made for a payment fills the form
      with that payment's payee, name, amount and note. */
  lemma ScanRefillsForm(form: PayForm, merchantUpi: string, merchantName: Option<string>, amountText: string,
                        note: Option<string>, reference: string)
    requires QrScanner.NumberText(amountText) && amountText != [] && merchantUpi != []
    ensures var data := QrScanner.ParseUpiUrl(TransactionRoutes.ServerUpiUrl(merchantUpi, merchantName, amountText, note, reference));
      && data.Some?
      && HandleQrScan(form, data.value)
         == form.(merchantUpi := merchantUpi, merchantName := OrDefault(merchantName, "Merchant"),
                  amount := amountText, note := OrDefault(note, "Payment via Spendly - " + reference))
  {
    QrScanner.ServerUrlRoundTrip(merchantUpi, merchantName, amountText, note, reference);
  }

  // ---------------------------------------------------------------------
  // The check, as written
  // ---------------------------------------------------------------------

  datatype PayError =
    | EnterAmount                                  // 'Please enter a valid amount'
    | SelectCategory                               // 'Please select a category'
    | EnterUpi                                     // 'Please enter merchant UPI ID or scan QR code'
    | Rejected(check: BalanceContext.PaymentCheck) // the balance context's message

  /** The amount test: `!amount || parseFloat(amount) <= 0`; a text that
      is not a number (`NaN`) passes it. */
  predicate AmountRefused(amount: string) {
    amount == [] || (ParseFloat(amount).Some? && ParseFloat(amount).value <= 0.0)
  }

  /** The three field tests, in the source's order. */
  function FieldChecks(form: PayForm): (r: Option<PayError>)
    ensures r == Some(EnterAmount) <==> AmountRefused(form.amount)
    ensures r == Some(SelectCategory) <==> !AmountRefused(form.amount) && form.categoryId == []
    ensures r == Some(EnterUpi) <==> !AmountRefused(form.amount) && form.categoryId != [] && form.merchantUpi == []
    ensures r.None? || r == Some(EnterAmount) || r == Some(SelectCategory) || r == Some(EnterUpi)
  {
    if AmountRefused(form.amount) then Some(EnterAmount)
    else if form.categoryId == [] then Some(SelectCategory)
    else if form.merchantUpi == [] then Some(EnterUpi)
    else None
  }

  /** `validatePaymentForm` as written: after the field tests it hands the
      `<select>`'s string to `validatePayment`, whose look-up compares ids
      with `===`. */
  function ValidatePaymentForm(cats: seq<CategoryView>, form: PayForm): (r: Option<PayError>)
    ensures FieldChecks(form).Some? ==> r == FieldChecks(form)
    ensures FieldChecks(form).None? ==>
      var check := BalanceContext.ValidatePayment(cats, Str(form.categoryId), ParseFloat(form.amount));
      r == if check == BalanceContext.Valid then None else Some(Rejected(check))
  {
    if FieldChecks(form).Some? then FieldChecks(form)
    else
      var check := BalanceContext.ValidatePayment(cats, Str(form.categoryId), ParseFloat(form.amount));
      if check == BalanceContext.Valid then None else Some(Rejected(check))
  }

  /** With the categories as loaded (numeric ids), no form ever passes: a
      completely filled form is always refused with 'Category not found',
      so the Dashboard never posts a payment. */
  lemma DashboardNeverPays(cats: seq<CategoryView>, form: PayForm)
    requires NumericIds(cats)
    ensures ValidatePaymentForm(cats, form).Some?
    ensures FieldChecks(form).None? ==> ValidatePaymentForm(cats, form) == Some(Rejected(BalanceContext.CategoryMissing))
  {
    assert forall k :: 0 <= k < |cats| ==> cats[k].id != Str(form.categoryId);
  }

  /** The optimistic update as written: the category is found by the text
      of its id, but its balance is then updated under the `<select>`'s
      string. */
  function OptimisticAsWritten(cats: seq<CategoryView>, form: PayForm, amount: real): seq<CategoryView> {
    match FindByText(cats, Str(form.categoryId))
    case None => cats
    case Some(c) => BalanceContext.UpdateCategoryBalance(cats, Str(form.categoryId), OrZero(c.currentBalance) - amount)
  }

  /** ... which changes nothing, since no loaded id is that string. */
  lemma OptimisticChangesNothing(cats: seq<CategoryView>, form: PayForm, amount: real)
    requires NumericIds(cats)
    ensures OptimisticAsWritten(cats, form, amount) == cats
  {
    BalanceContext.UpdateUnknownCategory(cats, Str(form.categoryId), OrZero(Some(0.0)) - amount);
    if FindByText(cats, Str(form.categoryId)).Some? {
      var c := FindByText(cats, Str(form.categoryId)).value;
      BalanceContext.UpdateUnknownCategory(cats, Str(form.categoryId), OrZero(c.currentBalance) - amount);
    }
  }

  // ---------------------------------------------------------------------
  // The check, corrected
  // ---------------------------------------------------------------------

  /** The check with the chosen category looked up by the text of its id,
      as the rest of the page does, and its own id handed to
      `validatePayment`. */
  function ValidatePaymentFormCorrected(cats: seq<CategoryView>, form: PayForm): (r: Option<PayError>)
    ensures FieldChecks(form).Some? ==> r == FieldChecks(form)
    ensures FieldChecks(form).None? && FindByText(cats, Str(form.categoryId)).None? ==>
      r == Some(Rejected(BalanceContext.CategoryMissing))
  {
    if FieldChecks(form).Some? then FieldChecks(form)
    else
      match FindByText(cats, Str(form.categoryId))
      case None => Some(Rejected(BalanceContext.CategoryMissing))
      case Some(c) =>
        var check := BalanceContext.ValidatePayment(cats, c.id, ParseFloat(form.amount));
        if check == BalanceContext.Valid then None else Some(Rejected(check))
  }

  /** Choosing category `n` in the `<select>` now checks the payment exactly
      as the balance context checks it for the numeric id `n`: a known
      category is found and an amount above its balance is refused. */
  lemma CorrectedChecksCategory(cats: seq<CategoryView>, form: PayForm, n: int)
    requires NumericIds(cats) && form.categoryId == IdText(Num(n)) && FieldChecks(form).None?
    ensures var check := BalanceContext.ValidatePayment(cats, Num(n), ParseFloat(form.amount));
      ValidatePaymentFormCorrected(cats, form) == if check == BalanceContext.Valid then None else Some(Rejected(check))
  {
    BalanceContext.FindByTextAgrees(cats, n);
    var found := FindByText(cats, Str(form.categoryId));
    if found.Some? {
      assert found.value.id == Num(n);
    }
  }

  /** The body `handlePayment` posts: the form with the parsed amount
      (`NaN` travels as `null`) and the `<select>`'s text as `category_id`.
      The server reads the text of a category's id as that id. */
  function PostedRequest(form: PayForm): (r: TransactionRoutes.PaymentRequest)
    ensures r.categoryId == Some(Str(form.categoryId)) && r.amount == ParseFloat(form.amount)
    ensures r.merchantUpi == Some(form.merchantUpi) && r.merchantName == Some(form.merchantName) && r.note == Some(form.note)
  {
    TransactionRoutes.PaymentRequest(Some(Str(form.categoryId)), ParseFloat(form.amount), Some(form.merchantUpi),
                                     Some(form.merchantName), Some(form.note))
  }

  /** A form the corrected check accepts, for one of the user's categories
      held as the server stores it, is accepted by the server exactly when
      its amount is a number (a text like 'abc' passes both client checks
      and is refused by the server as invalid data). */
  lemma CorrectedFormAccepted(db: Db, user: UserId, cats: seq<CategoryView>, form: PayForm, c: CategoryId,
                              amountText: string, now: nat, suffix: string)
    requires c != 0 && c in db.categories && db.categories[c].owner == user
    requires NumericIds(cats) && BalanceContext.GetCategoryById(cats, Num(c)) == Some(CategoryOf(c, db.categories[c]))
    requires form.categoryId == IdText(Num(c)) && ValidatePaymentFormCorrected(cats, form).None?
    ensures var r := TransactionRoutes.Initiate(db, user, PostedRequest(form), amountText, now, suffix);
      && (r.result.Ok? <==> ParseFloat(form.amount).Some?)
      && (r.result.Err? ==> r.result.error == TransactionRoutes.InvalidData)
  {
    assert FieldChecks(form).None?;
    CorrectedChecksCategory(cats, form, c);
    TransactionRoutes.RowKeyOfText(c);
  }

  /** The corrected optimistic update: the found category's balance is
      lowered by the amount under its own id. */
  function OptimisticCorrected(cats: seq<CategoryView>, form: PayForm, amount: real): seq<CategoryView> {
    PayFrom(cats, FindByText(cats, Str(form.categoryId)), amount)
  }

  function PayFrom(cats: seq<CategoryView>, found: Option<CategoryView>, amount: real): seq<CategoryView> {
    match found
    case None => cats
    case Some(c) => BalanceContext.UpdateCategoryBalance(cats, c.id, OrZero(c.currentBalance) - amount)
  }

  /** With distinct ids, the corrected update lowers the total balance by
      exactly the amount paid (a missing balance counts as 0 on both
      sides), and changes nothing when no category was found. */
  lemma OptimisticLowersTotal(cats: seq<CategoryView>, form: PayForm, amount: real)
    requires BalanceContext.UniqueCategoryIds(cats)
    ensures FindByText(cats, Str(form.categoryId)).Some? ==>
      BalanceContext.TotalBalance(OptimisticCorrected(cats, form, amount)) == BalanceContext.TotalBalance(cats) - amount
    ensures FindByText(cats, Str(form.categoryId)).None? ==> OptimisticCorrected(cats, form, amount) == cats
  {
    var found := FindByText(cats, Str(form.categoryId));
    if found.Some? {
      var k :| 0 <= k < |cats| && cats[k] == found.value;
      PayFromCategory(cats, k, found, amount);
    }
  }

  lemma {:induction false} PayFromCategory(cats: seq<CategoryView>, k: nat, found: Option<CategoryView>, amount: real)
    requires k < |cats| && found == Some(cats[k]) && BalanceContext.UniqueCategoryIds(cats)
    ensures BalanceContext.TotalBalance(PayFrom(cats, found, amount)) == BalanceContext.TotalBalance(cats) - amount
  {
    BalanceContext.UpdateCategoryTotal(cats, k, OrZero(cats[k].currentBalance) - amount);
  }

  // ---------------------------------------------------------------------
  // Default categories
  // ---------------------------------------------------------------------

  /** The Dashboard's `defaultCategories`: the same shares as the budget
      planning page's, with its first entry named 'Food & Dining'. */
  const DashboardPlan: seq<BudgetPlanning.PlanItem> := [
    BudgetPlanning.PlanItem("Food & Dining", 25.0, "#EF4444"),
    BudgetPlanning.PlanItem("Transportation", 15.0, "#3B82F6"),
    BudgetPlanning.PlanItem("Entertainment", 10.0, "#8B5CF6"),
    BudgetPlanning.PlanItem("Shopping", 15.0, "#F59E0B"),
    BudgetPlanning.PlanItem("Bills & Utilities", 20.0, "#10B981"),
    BudgetPlanning.PlanItem("Healthcare", 5.0, "#EC4899"),
    BudgetPlanning.PlanItem("Savings", 10.0, "#6B7280")
  ]

  /** A name that starts with a capital and ends with a small letter has
      no surrounding whitespace. */
  lemma LetterBounded(item: BudgetPlanning.PlanItem)
    requires item.name != [] && 'A' <= item.name[0] <= 'Z' && 'a' <= item.name[|item.name| - 1] <= 'z'
    requires 0.0 < item.percentage <= 100.0
    ensures BudgetPlanning.GoodItem(item)
  {
  }

  lemma DashboardPlanWhole()
    ensures BudgetPlanning.PlanPercentage(DashboardPlan) == 100.0
  {
    var p := DashboardPlan;
    assert p[1..][1..][1..][1..][1..][1..][1..] == [];
  }

  lemma DashboardPlanGood()
    ensures forall k :: 0 <= k < |DashboardPlan| ==> BudgetPlanning.GoodItem(DashboardPlan[k])
    ensures BudgetPlanning.PlanPercentage(DashboardPlan) == 100.0
  {
    var p := DashboardPlan;
    LetterBounded(p[0]);
    LetterBounded(p[1]);
    LetterBounded(p[2]);
    LetterBounded(p[3]);
    LetterBounded(p[4]);
    LetterBounded(p[5]);
    LetterBounded(p[6]);
    DashboardPlanWhole();
  }

  /** `createDefaultCategories`: without a salary nothing is sent;
      otherwise the whole plan is posted, with no filter on the client. */
  function CreateDefaultsBody(salary: Option<real>, plan: seq<BudgetPlanning.PlanItem>): (r: Option<CategoryRoutes.BulkBody>)
    ensures r.None? <==> !TruthyNum(salary)
    ensures r.Some? ==> r.value == CategoryRoutes.Items(BudgetPlanning.PlanInputs(plan))
  {
    if !TruthyNum(salary) then None else Some(CategoryRoutes.Items(BudgetPlanning.PlanInputs(plan)))
  }

  /** The plan entries are all valid items. */
  lemma PlanValid(plan: seq<BudgetPlanning.PlanItem>, kept: seq<CategoryRoutes.CategoryInput>)
    requires forall k :: 0 <= k < |plan| ==> BudgetPlanning.GoodItem(plan[k])
    requires forall k :: 0 <= k < |kept| ==> kept[k] in BudgetPlanning.PlanInputs(plan)
    ensures CategoryRoutes.AllValid(kept)
  {
    var inputs := BudgetPlanning.PlanInputs(plan);
    forall k | 0 <= k < |kept| ensures CategoryRoutes.ValidItem(kept[k]) {
      var j :| 0 <= j < |inputs| && inputs[j] == kept[k];
      assert CategoryRoutes.ValidItem(BudgetPlanning.PlanInput(plan[j]));
    }
    BudgetPlanning.AllValidOf(kept);
  }

  /** Posting a plan of good entries always succeeds: the server skips the
      names the user already has and creates the others, and the
      recalculation that follows succeeds for a user with a salary. */
  lemma {:induction false} DefaultsPosted(db: Db, user: UserId, plan: seq<BudgetPlanning.PlanItem>)
    requires plan != [] && forall k :: 0 <= k < |plan| ==> BudgetPlanning.GoodItem(plan[k])
    requires user in db.users && db.users[user].salary != 0.0
    ensures var inputs := BudgetPlanning.PlanInputs(plan);
      var r := CategoryRoutes.BulkCreate(db, user, CategoryRoutes.Items(inputs));
      && CategoryRoutes.AllNamed(inputs)
      && r.result.Ok? && |r.result.value| == |CategoryRoutes.Kept(db, user, inputs)|
      && CategoryRoutes.Recalculate(r.db, user).result.Ok?
  {
    var inputs := BudgetPlanning.PlanInputs(plan);
    BudgetPlanning.PostedInputs(plan, {});
    var kept := CategoryRoutes.Kept(db, user, inputs);
    PlanValid(plan, kept);
    CategoryRoutes.BulkAllOrNothing(db, user, inputs);
  }

  /** After a successful post every name of the plan is one of the user's
      names. */
  lemma {:induction false} PostedNamesExist(db: Db, user: UserId, plan: seq<BudgetPlanning.PlanItem>)
    requires Wf(db) && plan != [] && forall k :: 0 <= k < |plan| ==> BudgetPlanning.GoodItem(plan[k])
    requires CategoryRoutes.BulkCreate(db, user, CategoryRoutes.Items(BudgetPlanning.PlanInputs(plan))).result.Ok?
    ensures var db2 := CategoryRoutes.BulkCreate(db, user, CategoryRoutes.Items(BudgetPlanning.PlanInputs(plan))).db;
      forall k :: 0 <= k < |plan| ==> ToLower(plan[k].name) in CategoryRoutes.ExistingNames(db2, user)
  {
    var inputs := BudgetPlanning.PlanInputs(plan);
    BudgetPlanning.PostedInputs(plan, {});
    var existing := CategoryRoutes.ExistingNames(db, user);
    var kept := CategoryRoutes.Kept(db, user, inputs);
    var r := CategoryRoutes.BulkCreate(db, user, CategoryRoutes.Items(inputs));
    CategoryRoutes.BulkAllOrNothing(db, user, inputs);
    forall k | 0 <= k < |plan| ensures ToLower(plan[k].name) in CategoryRoutes.ExistingNames(r.db, user) {
      assert inputs[k].name.value == plan[k].name;
      if ToLower(plan[k].name) in existing {
        var id :| id in db.categories && db.categories[id].owner == user && ToLower(db.categories[id].name) == ToLower(plan[k].name);
        assert id < db.nextCategory;
        assert r.db.categories[id] == db.categories[id];
      } else {
        assert inputs[k] in kept;
        var j :| 0 <= j < |kept| && kept[j] == inputs[k];
        var row := r.result.value[j];
        assert r.db.categories[row.0] == row.1 && row.1.owner == user;
        assert row.1.name == plan[k].name;
      }
    }
  }

  /** Pressing the button a second time creates nothing and changes
      nothing: the server finds every name already there. */
  lemma {:induction false} DefaultsIdempotent(db: Db, user: UserId, plan: seq<BudgetPlanning.PlanItem>)
    requires Wf(db) && plan != [] && forall k :: 0 <= k < |plan| ==> BudgetPlanning.GoodItem(plan[k])
    requires CategoryRoutes.BulkCreate(db, user, CategoryRoutes.Items(BudgetPlanning.PlanInputs(plan))).result.Ok?
    ensures var body := CategoryRoutes.Items(BudgetPlanning.PlanInputs(plan));
      var db2 := CategoryRoutes.BulkCreate(db, user, body).db;
      CategoryRoutes.BulkCreate(db2, user, body) == Outcome(db2, Ok([]))
  {
    var inputs := BudgetPlanning.PlanInputs(plan);
    var db2 := CategoryRoutes.BulkCreate(db, user, CategoryRoutes.Items(inputs)).db;
    var names := CategoryRoutes.ExistingNames(db2, user);
    PostedNamesExist(db, user, plan);
    BudgetPlanning.PostedInputs(plan, {});
    forall k | 0 <= k < |inputs| ensures ToLower(inputs[k].name.value) in names {
      assert inputs[k].name.value == plan[k].name;
    }
    CategoryRoutes.NothingFresh(inputs, names);
    assert CategoryRoutes.Kept(db2, user, inputs) == [];
  }
}

=== FILE: forgot_password.dfy ===
/** The password-reset page: three steps (address, six-digit code, new
    password), the inputs and buttons each step shows, the resend cooldown,
    and how the page's checks line up with the server's `send-otp`,
    `verify-otp` and `reset-password` routes. The server's answers reach the
    page as parameters of the submit events. */
module ForgotPasswordPage {
  import opened Wrappers
  import opened JsText
  import opened Patterns
  import opened Store
  import AuthRoutes

  // ---------------------------------------------------------------------
  // Page state
  // ---------------------------------------------------------------------

  datatype Step = EmailStep | CodeStep | NewPasswordStep

  datatype PageError =
    | InvalidAddress      // 'Please enter a valid email address'
    | SendRefused         // the server's error, or the 404/500/network text
    | CodeIncomplete      // 'Please enter complete 6-digit OTP'
    | CodeRefused         // 'Invalid OTP' / 'Invalid or expired OTP'
    | ResendRefused       // 'Failed to resend OTP'
    | VerificationRequired // 'OTP verification required'
    | PasswordTooWeak     // 'Password must be at least 8 characters with ...'
    | PasswordsDiffer     // 'Passwords do not match'
    | ResetRefused        // 'Failed to reset password'

  datatype PageState = PageState(
    step: Step,
    email: string,
    otp: seq<string>,
    newPassword: string,
    confirmPassword: string,
    otpVerified: bool,
    cooldown: nat,
    error: Option<PageError>)

  /** The six empty code slots. */
  const EmptyCode: seq<string> := ["", "", "", "", "", ""]

  /** Seconds before the code can be requested again. */
  const ResendCooldown: nat := 30

  const Initial: PageState := PageState(EmailStep, "", EmptyCode, "", "", false, 0, None)

  /** The page while mounted, or the login page it navigates to after a
      successful reset (having cleared the address and both passwords). */
  datatype Screen = OnPage(s: PageState) | AtLogin

  // ---------------------------------------------------------------------
  // Rendering the address step
  // ---------------------------------------------------------------------

  datatype RenderFailure = ReferenceError(identifier: string)

  /** The address step's submit button as written,
      `disabled={loading || !phone}`. No `phone` is declared in the
      component or imported into it, so unless `loading` short-circuits the
      expression, evaluating it throws a `ReferenceError`. */
  function SendDisabled(loading: bool): (r: Result<bool, RenderFailure>)
    ensures r.Err? <==> !loading
    ensures r.Err? ==> r.error == ReferenceError("phone")
    ensures r.Ok? ==> r.value
  {
    if loading then Ok(true) else Err(ReferenceError("phone"))
  }

  /** The page opens on the address step and not loading, so its first
      render throws: the address step, and with it the whole flow, is never
      shown. */
  lemma AddressStepNeverRenders()
    ensures Initial.step == EmailStep
    ensures SendDisabled(false) == Err(ReferenceError("phone"))
  {
  }

  /** The corrected button, `disabled={loading || !email}`: it reads the
      address the step submits. */
  function SendDisabledCorrected(loading: bool, email: string): (r: bool)
    ensures !r <==> !loading && email != []
  {
    loading || email == []
  }

  /** With the corrected button the address step renders, and every
      address the page's own check accepts can be submitted; a successful
      send then moves to the code step. */
  lemma CorrectedSendReachesCode(s: PageState)
    requires s.step == EmailStep && IsValidEmail(s.email)
    ensures !SendDisabledCorrected(false, s.email)
    ensures Apply(OnPage(s), SubmitEmail(true)) == OnPage(s.(step := CodeStep, cooldown := ResendCooldown, error := None))
  {
  }

  // ---------------------------------------------------------------------
  // Password strength
  // ---------------------------------------------------------------------

  datatype Strength = Strength(minLength: bool, hasNumber: bool, hasSpecial: bool, isValid: bool)

  /** `validatePassword`: at least eight UTF-16 units, a digit and one of
      the listed special characters. */
  function ValidatePassword(p: string): (r: Strength)
    ensures r.minLength <==> Utf16Length(p) >= 8
    ensures r.hasNumber <==> exists k :: 0 <= k < |p| && IsDigit(p[k])
    ensures r.hasSpecial <==> exists k :: 0 <= k < |p| && IsSpecialChar(p[k])
    ensures r.isValid <==> r.minLength && r.hasNumber && r.hasSpecial
  {
    var minLength := Utf16Length(p) >= 8;
    var hasNumber := HasDigit(p);
    var hasSpecial := HasSpecialChar(p);
    Strength(minLength, hasNumber, hasSpecial, minLength && hasNumber && hasSpecial)
  }

  /** The page's rule is stricter than the server's: a password it accepts
      always passes the server's presence and length checks. */
  lemma StrongPasswordPassesServer(email: string, p: string)
    requires email != [] && ValidatePassword(p).isValid
    ensures AuthRoutes.ResetInputError(Some(email), Some(p)).None?
  {
  }

  /** ... and strictly so: six letters pass the server but not the page. */
  lemma PageRuleStricter()
    ensures AuthRoutes.ResetInputError(Some("a@b.c"), Some("abcdef")).None?
    ensures !ValidatePassword("abcdef").isValid
  {
    assert Utf16Length("abcdef") == 6;
    assert !HasDigit("abcdef");
  }

  // ---------------------------------------------------------------------
  // Code slots
  // ---------------------------------------------------------------------

  /** Every slot holds at most one digit. */
  predicate Slots(otp: seq<string>) {
    forall k :: 0 <= k < |otp| ==> |otp[k]| <= 1 && AllDigits(otp[k])
  }

  /** `value.slice(-1)`: the last character, or nothing. */
  function LastChar(v: string): (r: string)
    ensures |r| <= 1
    ensures v != [] ==> r == [v[|v| - 1]]
    ensures v == [] ==> r == []
  {
    if v == [] then [] else v[|v| - 1..]
  }

  /** `otp.join('')`. */
  function Join(otp: seq<string>): (r: string)
    ensures Slots(otp) ==> AllDigits(r) && |r| <= |otp|
  {
    if otp == [] then [] else otp[0] + Join(otp[1..])
  }

  /** `handleOtpChange`: a value that is not all digits is ignored (the
      error stays); otherwise the slot takes its last character and the
      error is cleared. Slots keep holding at most one digit. */
  function HandleOtpChange(s: PageState, index: nat, value: string): (r: PageState)
    requires index < |s.otp|
    ensures !AllDigits(value) ==> r == s
    ensures AllDigits(value) ==>
      && |r.otp| == |s.otp| && r.otp[index] == LastChar(value) && r.error.None?
      && (forall k :: 0 <= k < |s.otp| && k != index ==> r.otp[k] == s.otp[k])
      && r == s.(otp := r.otp, error := None)
    ensures Slots(s.otp) ==> Slots(r.otp)
  {
    if !AllDigits(value) then s
    else s.(otp := s.otp[index := LastChar(value)], error := None)
  }

  /** A full code is one digit in every slot: with slots of at most one
      digit, the joined code has six UTF-16 units exactly when all six slots
      are filled, and it is then six digits. */
  lemma {:induction false} JoinFull(otp: seq<string>)
    requires Slots(otp)
    ensures Utf16Length(Join(otp)) == |Join(otp)|
    ensures |Join(otp)| == |otp| <==> forall k :: 0 <= k < |otp| ==> |otp[k]| == 1
  {
    if otp != [] {
      JoinFull(otp[1..]);
      assert Join(otp) == otp[0] + Join(otp[1..]);
      AsciiUtf16(Join(otp));
      if |Join(otp)| == |otp| {
        forall k | 0 <= k < |otp| ensures |otp[k]| == 1 {
          if k > 0 { assert otp[k] == otp[1..][k - 1]; }
        }
      }
      if forall k :: 0 <= k < |otp| ==> |otp[k]| == 1 {
        assert forall k :: 0 <= k < |otp[1..]| ==> |otp[1..][k]| == 1 by {
          forall k | 0 <= k < |otp[1..]| ensures |otp[1..][k]| == 1 {
            assert otp[1..][k] == otp[k + 1];
          }
        }
      }
    } else {
      AsciiUtf16(Join(otp));
    }
  }

  /** A digit string has one UTF-16 unit per character. */
  lemma {:induction false} AsciiUtf16(s: string)
    requires AllDigits(s)
    ensures Utf16Length(s) == |s|
  {
    if s != [] {
      AsciiUtf16(s[1..]);
    }
  }

  /** Slots holding a code's digits one by one join back to the code. */
  lemma {:induction false} JoinDigits(otp: seq<string>, code: string)
    requires |otp| == |code|
    requires forall k :: 0 <= k < |otp| ==> otp[k] == [code[k]]
    ensures Join(otp) == code
  {
    if otp != [] {
      assert forall k :: 0 <= k < |otp[1..]| ==> otp[1..][k] == [code[1..][k]] by {
        forall k | 0 <= k < |otp[1..]| ensures otp[1..][k] == [code[1..][k]] {
          assert otp[1..][k] == otp[k + 1];
        }
      }
      JoinDigits(otp[1..], code[1..]);
      assert code == [code[0]] + code[1..];
    }
  }

  // ---------------------------------------------------------------------
  // Handlers
  // ---------------------------------------------------------------------

  /** `handleSendOTP`: an address the pattern rejects is never sent;
      otherwise the server's answer decides between the code step, with
      the cooldown started, and an error. */
  function HandleSendOtp(s: PageState, sent: bool): (r: PageState)
    ensures !IsValidEmail(s.email) ==> r == s.(error := Some(InvalidAddress))
    ensures IsValidEmail(s.email) && sent ==> r == s.(step := CodeStep, cooldown := ResendCooldown, error := None)
    ensures IsValidEmail(s.email) && !sent ==> r == s.(error := Some(SendRefused))
  {
    if !IsValidEmail(s.email) then s.(error := Some(InvalidAddress))
    else if sent then s.(step := CodeStep, cooldown := ResendCooldown, error := None)
    else s.(error := Some(SendRefused))
  }

  /** `handleVerifyOTP`: an incomplete code is not sent; an accepted code
      marks the page verified, moves to the password step and clears the
      slots. */
  function HandleVerifyOtp(s: PageState, verified: bool): (r: PageState)
    ensures Utf16Length(Join(s.otp)) != 6 ==> r == s.(error := Some(CodeIncomplete))
    ensures r.otpVerified <==> s.otpVerified || (Utf16Length(Join(s.otp)) == 6 && verified)
    ensures Utf16Length(Join(s.otp)) == 6 && verified ==>
      r == s.(otpVerified := true, step := NewPasswordStep, otp := EmptyCode, error := None)
    ensures Utf16Length(Join(s.otp)) == 6 && !verified ==> r == s.(error := Some(CodeRefused))
  {
    if Utf16Length(Join(s.otp)) != 6 then s.(error := Some(CodeIncomplete))
    else if verified then s.(otpVerified := true, step := NewPasswordStep, otp := EmptyCode, error := None)
    else s.(error := Some(CodeRefused))
  }

  /** `handleResendOTP`: does nothing while the cooldown runs; otherwise
      clears the slots and asks again, restarting the cooldown when the
      server sends a new code. The address is not re-checked. */
  function HandleResend(s: PageState, sent: bool): (r: PageState)
    ensures s.cooldown > 0 ==> r == s
    ensures s.cooldown == 0 ==> r.otp == EmptyCode && r.step == s.step && r.email == s.email
    ensures s.cooldown == 0 ==> (r.cooldown == if sent then ResendCooldown else 0)
    ensures s.cooldown == 0 ==> (r.error == if sent then None else Some(ResendRefused))
  {
    if s.cooldown > 0 then s
    else
      var cleared := s.(otp := EmptyCode, error := None);
      if sent then cleared.(cooldown := ResendCooldown) else cleared.(error := Some(ResendRefused))
  }

  /** `handleResetPassword`: refuses without verification, then a weak
      password, then a mismatched confirmation; the server's acceptance
      leaves for the login page. */
  function HandleResetPassword(s: PageState, ok: bool): (r: Screen)
    ensures r == AtLogin <==>
      s.otpVerified && ValidatePassword(s.newPassword).isValid && s.newPassword == s.confirmPassword && ok
    ensures !s.otpVerified ==> r == OnPage(s.(error := Some(VerificationRequired)))
    ensures r.OnPage? ==> r.s == s.(error := r.s.error) && r.s.error.Some?
  {
    if !s.otpVerified then OnPage(s.(error := Some(VerificationRequired)))
    else if !ValidatePassword(s.newPassword).isValid then OnPage(s.(error := Some(PasswordTooWeak)))
    else if s.newPassword != s.confirmPassword then OnPage(s.(error := Some(PasswordsDiffer)))
    else if ok then AtLogin
    else OnPage(s.(error := Some(ResetRefused)))
  }

  /** The one-second cooldown timer. */
  function Tick(s: PageState): (r: PageState)
    ensures r.cooldown == if s.cooldown > 0 then s.cooldown - 1 else 0
    ensures r == s.(cooldown := r.cooldown)
  {
    if s.cooldown > 0 then s.(cooldown := s.cooldown - 1) else s
  }

  // ---------------------------------------------------------------------
  // Events
  // ---------------------------------------------------------------------

  /** What the user can do, with the server's answer to a request carried
      by the event that sends it. */
  datatype Event =
    | EditEmail(value: string)
    | SubmitEmail(sent: bool)
    | EditDigit(index: nat, value: string)
    | SubmitCode(verified: bool)
    | Resend(resent: bool)
    | Back
    | EditPassword(value: string)
    | EditConfirm(value: string)
    | SubmitPassword(ok: bool)
    | Tick

  /** Each input and button exists on one step only, so an event for
      another step changes nothing; the timer runs on every step. */
  function Apply(sc: Screen, e: Event): (r: Screen)
    ensures sc == AtLogin ==> r == AtLogin
    ensures r == AtLogin && sc.OnPage? ==> e.SubmitPassword? && sc.s.step == NewPasswordStep
  {
    match sc
    case AtLogin => AtLogin
    case OnPage(s) =>
      match e
      case EditEmail(v) => if s.step == EmailStep then OnPage(s.(email := v, error := None)) else sc
      case SubmitEmail(sent) => if s.step == EmailStep then OnPage(HandleSendOtp(s, sent)) else sc
      case EditDigit(i, v) => if s.step == CodeStep && i < |s.otp| then OnPage(HandleOtpChange(s, i, v)) else sc
      case SubmitCode(verified) => if s.step == CodeStep then OnPage(HandleVerifyOtp(s, verified)) else sc
      case Resend(resent) => if s.step == CodeStep then OnPage(HandleResend(s, resent)) else sc
      case Back => if s.step == CodeStep then OnPage(s.(step := EmailStep, otp := EmptyCode, error := None)) else sc
      case EditPassword(v) => if s.step == NewPasswordStep then OnPage(s.(newPassword := v, error := None)) else sc
      case EditConfirm(v) => if s.step == NewPasswordStep then OnPage(s.(confirmPassword := v, error := None)) else sc
      case SubmitPassword(ok) => if s.step == NewPasswordStep then HandleResetPassword(s, ok) else sc
      case Tick => OnPage(Tick(s))
  }

  function Run(sc: Screen, events: seq<Event>): Screen
    decreases |events|
  {
    if events == [] then sc else Run(Apply(sc, events[0]), events[1..])
  }

  /** Running from one event on is applying it and running the rest. */
  lemma RunFirst(sc: Screen, e: Event, rest: seq<Event>)
    ensures Run(sc, [e] + rest) == Run(Apply(sc, e), rest)
  {
    assert ([e] + rest)[1..] == rest;
  }

  lemma {:induction false} RunAppend(sc: Screen, a: seq<Event>, b: seq<Event>)
    ensures Run(sc, a + b) == Run(Run(sc, a), b)
    decreases |a|
  {
    if a != [] {
      assert (a + b)[1..] == a[1..] + b;
      RunAppend(Apply(sc, a[0]), a[1..], b);
    } else {
      assert a + b == b;
    }
  }

  // ---------------------------------------------------------------------
  // Invariant
  // ---------------------------------------------------------------------

  /** What holds on every screen the page shows: six slots of at most one
      digit, a bounded cooldown, `otpVerified` exactly on the password
      step (whose slots are empty), and an address the pattern accepts
      once past the first step. */
  predicate Inv(s: PageState) {
    && |s.otp| == 6 && Slots(s.otp)
    && s.cooldown <= ResendCooldown
    && (s.otpVerified <==> s.step == NewPasswordStep)
    && (s.step == NewPasswordStep ==> s.otp == EmptyCode)
    && (s.step != EmailStep ==> IsValidEmail(s.email))
  }

  predicate ScreenInv(sc: Screen) {
    sc.OnPage? ==> Inv(sc.s)
  }

  lemma EmptySlots()
    ensures Slots(EmptyCode)
  {
    forall k | 0 <= k < 6 ensures |EmptyCode[k]| <= 1 && AllDigits(EmptyCode[k]) {
      assert EmptyCode[k] == "";
    }
  }

  /** The page opens in a state the invariant admits. */
  lemma InitialInv()
    ensures Inv(Initial)
  {
    EmptySlots();
  }

  /** Every event keeps the invariant. */
  lemma ApplyKeepsInv(sc: Screen, e: Event)
    requires ScreenInv(sc)
    ensures ScreenInv(Apply(sc, e))
  {
    EmptySlots();
    if sc.OnPage? && e.SubmitCode? && sc.s.step == CodeStep {
      JoinFull(sc.s.otp);
    }
  }

  /** ... and so does every run. */
  lemma {:induction false} RunKeepsInv(sc: Screen, events: seq<Event>)
    requires ScreenInv(sc)
    ensures ScreenInv(Run(sc, events))
    decreases |events|
  {
    if events != [] {
      ApplyKeepsInv(sc, events[0]);
      RunKeepsInv(Apply(sc, events[0]), events[1..]);
    }
  }

  /** With the invariant, the verify button's test is the slots' test: the
      code goes to the server exactly when every slot holds a digit. */
  lemma CodeSentIffFull(s: PageState)
    requires Inv(s)
    ensures Utf16Length(Join(s.otp)) == 6 <==> forall k :: 0 <= k < 6 ==> |s.otp[k]| == 1
    ensures AllDigits(Join(s.otp))
  {
    JoinFull(s.otp);
  }

  // ---------------------------------------------------------------------
  // Reaching the login page
  // ---------------------------------------------------------------------

  predicate HasVerifiedCode(events: seq<Event>) {
    exists i :: 0 <= i < |events| && events[i].SubmitCode? && events[i].verified
  }

  predicate HasSentCode(events: seq<Event>) {
    exists i :: 0 <= i < |events| && events[i].SubmitEmail? && events[i].sent
  }

  /** The page leaves for the login page only after the server accepted a
      code in this run. */
  lemma {:induction false} LoginNeedsVerifiedCode(s: PageState, events: seq<Event>)
    requires !s.otpVerified
    requires Run(OnPage(s), events) == AtLogin
    ensures HasVerifiedCode(events)
    decreases |events|
  {
    if events == [] {
      assert false;
    } else {
      var e := events[0];
      var next := Apply(OnPage(s), e);
      if next == AtLogin {
        assert false;
      } else if next.s.otpVerified {
        assert e.SubmitCode? && e.verified;
        assert events[0] == e;
      } else {
        LoginNeedsVerifiedCode(next.s, events[1..]);
        var i :| 0 <= i < |events[1..]| && events[1..][i].SubmitCode? && events[1..][i].verified;
        assert events[i + 1] == events[1..][i];
      }
    }
  }

  /** Starting from the first step, the page also needs the server to have
      sent a code before it can get there. */
  lemma {:induction false} LoginNeedsSentCode(s: PageState, events: seq<Event>)
    requires s.step == EmailStep && !s.otpVerified
    requires Run(OnPage(s), events) == AtLogin
    ensures HasSentCode(events)
    decreases |events|
  {
    if events == [] {
      assert false;
    } else {
      var e := events[0];
      var next := Apply(OnPage(s), e);
      if next.s.step == EmailStep {
        LoginNeedsSentCode(next.s, events[1..]);
        var i :| 0 <= i < |events[1..]| && events[1..][i].SubmitEmail? && events[1..][i].sent;
        assert events[i + 1] == events[1..][i];
      } else {
        assert e.SubmitEmail? && e.sent;
        assert events[0] == e;
      }
    }
  }

  /** A run from the initial page that ends at the login page got both a
      sent code and an accepted code from the server. */
  lemma LoginNeedsServer(events: seq<Event>)
    requires Run(OnPage(Initial), events) == AtLogin
    ensures HasSentCode(events) && HasVerifiedCode(events)
  {
    LoginNeedsSentCode(Initial, events);
    LoginNeedsVerifiedCode(Initial, events);
  }

  // ---------------------------------------------------------------------
  // Against the server
  // ---------------------------------------------------------------------

  /** With the real `send-otp` answer, the page reaches the code step
      exactly when the address matches the pattern, belongs to a user and
      the mail went out; the server then holds a fresh, unverified entry
      for that address. */
  lemma SendAgrees(db: Db, store: AuthRoutes.OtpStore, s: PageState, now: int, rand: real, mailSent: bool)
    requires 0.0 <= rand < 1.0
    requires s.step == EmailStep
    ensures var send := AuthRoutes.SendOtp(db, store, Some(s.email), now, rand, mailSent);
      var r := HandleSendOtp(s, send.1.Ok?);
      && (r.step == CodeStep <==>
            IsValidEmail(s.email) && AuthRoutes.EmailRegistered(db, s.email) && mailSent)
      && (r.step == CodeStep ==>
            && s.email in send.0 && !send.0[s.email].verified
            && AuthRoutes.Live(send.0, s.email, now))
  {
    if IsValidEmail(s.email) {
      assert s.email != [];
    }
  }

  /** The digit events that type a code into the slots from `from` on. */
  function TypeDigits(code: string, from: nat): (r: seq<Event>)
    ensures |r| == if from < |code| then |code| - from else 0
    decreases |code| - from
  {
    if from >= |code| then [] else [EditDigit(from, [code[from]])] + TypeDigits(code, from + 1)
  }

  /** Typing a six-digit code on the code step fills slot k with its k-th
      digit, so the joined slots are the code. */
  lemma {:induction false} TypingFillsSlots(s: PageState, code: string, from: nat)
    requires s.step == CodeStep && |s.otp| == 6 && |code| == 6 && AllDigits(code) && from <= 6
    requires forall k :: 0 <= k < from ==> s.otp[k] == [code[k]]
    ensures var r := Run(OnPage(s), TypeDigits(code, from));
      && r.OnPage? && r.s.step == CodeStep && r.s.email == s.email && r.s.cooldown == s.cooldown
      && |r.s.otp| == 6 && (forall k :: 0 <= k < 6 ==> r.s.otp[k] == [code[k]])
    decreases 6 - from
  {
    if from < 6 {
      var digit: string := [code[from]];
      assert AllDigits(digit);
      var next := HandleOtpChange(s, from, digit);
      assert Apply(OnPage(s), EditDigit(from, digit)) == OnPage(next);
      assert next.otp[from] == digit;
      TypingFillsSlots(next, code, from + 1);
      var rest := TypeDigits(code, from + 1);
      assert TypeDigits(code, from) == [EditDigit(from, digit)] + rest;
      RunFirst(OnPage(s), EditDigit(from, digit), rest);
    } else {
      assert TypeDigits(code, from) == [];
    }
  }

  /** The page's half of the flow: type a valid address, get a code sent,
      type that code. The page is then on the code step with the code in
      its slots. */
  lemma PageReachesCode(email: string, code: string)
    requires IsValidEmail(email) && |code| == 6 && AllDigits(code)
    ensures var r := Run(OnPage(Initial), [EditEmail(email), SubmitEmail(true)] + TypeDigits(code, 0));
      r.OnPage? && r.s.step == CodeStep && r.s.email == email && Join(r.s.otp) == code
      && Inv(r.s) && Utf16Length(Join(r.s.otp)) == 6
  {
    var start := [EditEmail(email), SubmitEmail(true)];
    RunAppend(OnPage(Initial), start, TypeDigits(code, 0));
    var mid := Run(OnPage(Initial), start);
    var m1 := Apply(OnPage(Initial), EditEmail(email));
    assert m1 == OnPage(Initial.(email := email));
    var m2 := Apply(m1, SubmitEmail(true));
    assert m2 == OnPage(Initial.(email := email, step := CodeStep, cooldown := ResendCooldown, error := None));
    assert start[1..] == [SubmitEmail(true)];
    assert Run(OnPage(Initial), start) == Run(m1, [SubmitEmail(true)]);
    assert Run(m1, [SubmitEmail(true)]) == Run(m2, []);
    assert mid == m2;
    TypingFillsSlots(mid.s, code, 0);
    var r := Run(mid, TypeDigits(code, 0));
    JoinDigits(r.s.otp, code);
    InitialInv();
    RunKeepsInv(OnPage(Initial), start + TypeDigits(code, 0));
    AsciiUtf16(code);
  }

  /** On the password step, verified, with a strong password typed twice,
      an accepted reset leads to the login page. */
  lemma SubmitToLogin(s: PageState, p: string)
    requires s.step == NewPasswordStep && s.otpVerified && ValidatePassword(p).isValid
    requires s.newPassword == p && s.confirmPassword == p
    ensures Run(OnPage(s), [SubmitPassword(true)]) == AtLogin
  {
    RunFirst(OnPage(s), SubmitPassword(true), []);
    assert [SubmitPassword(true)] == [SubmitPassword(true)] + [];
  }

  lemma ConfirmToLogin(s: PageState, p: string)
    requires s.step == NewPasswordStep && s.otpVerified && ValidatePassword(p).isValid && s.newPassword == p
    ensures Run(OnPage(s), [EditConfirm(p), SubmitPassword(true)]) == AtLogin
  {
    var s' := s.(confirmPassword := p, error := None);
    assert Apply(OnPage(s), EditConfirm(p)) == OnPage(s');
    RunFirst(OnPage(s), EditConfirm(p), [SubmitPassword(true)]);
    SubmitToLogin(s', p);
  }

  lemma PasswordToLogin(s: PageState, p: string)
    requires s.step == NewPasswordStep && s.otpVerified && ValidatePassword(p).isValid
    ensures Run(OnPage(s), [EditPassword(p), EditConfirm(p), SubmitPassword(true)]) == AtLogin
  {
    var s' := s.(newPassword := p, error := None);
    assert Apply(OnPage(s), EditPassword(p)) == OnPage(s');
    RunFirst(OnPage(s), EditPassword(p), [EditConfirm(p), SubmitPassword(true)]);
    assert [EditPassword(p), EditConfirm(p), SubmitPassword(true)] == [EditPassword(p)] + [EditConfirm(p), SubmitPassword(true)];
    ConfirmToLogin(s', p);
  }

  lemma CodeAccepted(s: PageState)
    requires s.step == CodeStep && Utf16Length(Join(s.otp)) == 6
    ensures Apply(OnPage(s), SubmitCode(true))
         == OnPage(s.(otpVerified := true, step := NewPasswordStep, otp := EmptyCode, error := None))
  {
  }

  /** On the code step with a full code, an accepted code, a strong
      password typed twice and an accepted reset lead to the login page. */
  lemma CodeToLogin(s: PageState, p: string)
    requires s.step == CodeStep && Utf16Length(Join(s.otp)) == 6
    requires ValidatePassword(p).isValid
    ensures Run(OnPage(s), [SubmitCode(true), EditPassword(p), EditConfirm(p), SubmitPassword(true)]) == AtLogin
  {
    var s' := s.(otpVerified := true, step := NewPasswordStep, otp := EmptyCode, error := None);
    var rest := [EditPassword(p), EditConfirm(p), SubmitPassword(true)];
    CodeAccepted(s);
    RunFirst(OnPage(s), SubmitCode(true), rest);
    assert [SubmitCode(true), EditPassword(p), EditConfirm(p), SubmitPassword(true)] == [SubmitCode(true)] + rest;
    PasswordToLogin(s', p);
  }

  /** The whole recovery, the page against the server as its flag and its
      "mark as verified" step intend: the code the server mails, typed into
      the slots, verifies; a password the page accepts is then reset and
      the page leaves for the login page. */
  lemma RecoveryFlow(db: Db, store: AuthRoutes.OtpStore, email: string, now: int, rand: real, newPassword: string)
    requires 0.0 <= rand < 1.0 && IsValidEmail(email)
    requires AuthRoutes.SendOtp(db, store, Some(email), now, rand, true).1.Ok?
    requires ValidatePassword(newPassword).isValid
    ensures var send := AuthRoutes.SendOtp(db, store, Some(email), now, rand, true);
      var page := Run(OnPage(Initial), [EditEmail(email), SubmitEmail(send.1.Ok?)] + TypeDigits(send.1.value, 0));
      && page.OnPage?
      && var verify := AuthRoutes.VerifyOtpMarked(send.0, Some(page.s.email), Some(Join(page.s.otp)), now);
      && verify.1.Ok?
      && var reset := AuthRoutes.ResetPasswordVerified(db, verify.0, Some(email), Some(newPassword), now);
      && reset.0.result.Ok?
      && Run(page, [SubmitCode(verify.1.Ok?), EditPassword(newPassword), EditConfirm(newPassword),
                    SubmitPassword(reset.0.result.Ok?)]) == AtLogin
  {
    var send := AuthRoutes.SendOtp(db, store, Some(email), now, rand, true);
    var code := send.1.value;
    PageReachesCode(email, code);
    StrongPasswordPassesServer(email, newPassword);
    AuthRoutes.SendVerifyReset(db, store, email, now, rand, newPassword);
    var page := Run(OnPage(Initial), [EditEmail(email), SubmitEmail(true)] + TypeDigits(code, 0));
    CodeToLogin(page.s, newPassword);
  }
}

=== FILE: patterns.dfy ===
/** The regular expressions the application validates input with:
    the e-mail pattern `^[^\s@]+@[^\s@]+\.[^\s@]+$` (server registration
    and the password-reset page), the UPI-handle pattern `^[\w.-]+@[\w.-]+$`
    (quick payment), and the digit patterns used for phone numbers, OTP
    slots and password strength. */
module Patterns {
  import opened JsText
  import opened Wrappers

  // ---------------------------------------------------------------------
  // E-mail: ^[^\s@]+@[^\s@]+\.[^\s@]+$
  // ---------------------------------------------------------------------

  /** `[^\s@]`. */
  predicate EmailChar(c: char) {
    !IsSpace(c) && c != '@'
  }

  predicate AllEmailChars(t: string) {
    forall k :: 0 <= k < |t| ==> EmailChar(t[k])
  }

  /** The regular expression read directly: `s` splits as
      `s[..i] + "@" + s[i+1..j] + "." + s[j+1..]` with three non-empty
      parts free of whitespace and `@` (the dot itself is such a character). */
  predicate EmailSplitAt(s: string, i: int, j: int) {
    && 0 < i && i + 1 < j && j + 1 < |s|
    && s[i] == '@' && s[j] == '.'
    && AllEmailChars(s[..i]) && AllEmailChars(s[i + 1..])
  }

  ghost predicate EmailRegex(s: string) {
    exists i, j :: EmailSplitAt(s, i, j)
  }

  /** States of a left-to-right matcher for the e-mail pattern. */
  datatype EmailState = Start | Local | AfterAt | Domain | DomainDot | Accept | Reject

  function EmailStep(q: EmailState, c: char): EmailState {
    match q
    case Start => if EmailChar(c) then Local else Reject
    case Local => if c == '@' then AfterAt else if EmailChar(c) then Local else Reject
    case AfterAt => if EmailChar(c) then Domain else Reject
    case Domain => if c == '.' then DomainDot else if EmailChar(c) then Domain else Reject
    case DomainDot => if EmailChar(c) then Accept else Reject
    case Accept => if EmailChar(c) then Accept else Reject
    case Reject => Reject
  }

  function EmailRun(q: EmailState, t: string): EmailState
    decreases |t|
  {
    if t == [] then q else EmailRun(EmailStep(q, t[0]), t[1..])
  }

  /** `/^[^\s@]+@[^\s@]+\.[^\s@]+$/.test(s)`, decided in one pass. */
  predicate IsValidEmail(s: string) {
    EmailRun(Start, s) == Accept
  }

  lemma {:induction false} RunFromReject(t: string)
    ensures EmailRun(Reject, t) == Reject
    decreases |t|
  {
    if t != [] { RunFromReject(t[1..]); }
  }

  lemma {:induction false} RunFromAccept(t: string)
    ensures EmailRun(Accept, t) == Accept <==> AllEmailChars(t)
    decreases |t|
  {
    if t != [] {
      if EmailChar(t[0]) {
        RunFromAccept(t[1..]);
        assert AllEmailChars(t) <==> AllEmailChars(t[1..]) by {
          if AllEmailChars(t[1..]) {
            forall k | 0 <= k < |t| ensures EmailChar(t[k]) { if k > 0 { assert t[k] == t[1..][k - 1]; } }
          }
        }
      } else {
        RunFromReject(t[1..]);
      }
    }
  }

  lemma {:induction false} RunFromDomainDot(t: string)
    ensures EmailRun(DomainDot, t) == Accept <==> t != [] && AllEmailChars(t)
  {
    if t != [] {
      if EmailChar(t[0]) {
        RunFromAccept(t[1..]);
        AllCharsCons(t);
      } else {
        RunFromReject(t[1..]);
      }
    }
  }

  lemma AllCharsCons(t: string)
    requires t != []
    ensures AllEmailChars(t) <==> EmailChar(t[0]) && AllEmailChars(t[1..])
  {
    if EmailChar(t[0]) && AllEmailChars(t[1..]) {
      forall k | 0 <= k < |t| ensures EmailChar(t[k]) { if k > 0 { assert t[k] == t[1..][k - 1]; } }
    }
  }

  /** After at least one domain character: accept iff the rest is clean and
      holds a dot that is followed by at least one character. */
  predicate DotBeforeEnd(t: string, j: int) {
    0 <= j < |t| - 1 && t[j] == '.'
  }

  lemma {:induction false} RunFromDomain(t: string)
    ensures EmailRun(Domain, t) == Accept <==> AllEmailChars(t) && exists j :: DotBeforeEnd(t, j)
    decreases |t|
  {
    if t == [] {
      assert forall j :: !DotBeforeEnd(t, j);
    } else {
      AllCharsCons(t);
      if t[0] == '.' {
        RunFromDomainDot(t[1..]);
        if |t| > 1 { assert DotBeforeEnd(t, 0); } else { assert forall j :: !DotBeforeEnd(t, j); }
      } else if EmailChar(t[0]) {
        RunFromDomain(t[1..]);
        if exists j :: DotBeforeEnd(t[1..], j) {
          var j :| DotBeforeEnd(t[1..], j);
          assert DotBeforeEnd(t, j + 1);
        }
        if exists j :: DotBeforeEnd(t, j) {
          var j :| DotBeforeEnd(t, j);
          assert j > 0;
          assert DotBeforeEnd(t[1..], j - 1);
        }
      } else {
        RunFromReject(t[1..]);
      }
    }
  }

  lemma {:induction false} RunFromAfterAt(t: string)
    ensures EmailRun(AfterAt, t) == Accept <==> AllEmailChars(t) && exists j :: 1 <= j && DotBeforeEnd(t, j)
  {
    if t == [] {
    } else {
      AllCharsCons(t);
      if EmailChar(t[0]) {
        RunFromDomain(t[1..]);
        if exists j :: DotBeforeEnd(t[1..], j) {
          var j :| DotBeforeEnd(t[1..], j);
          assert 1 <= j + 1 && DotBeforeEnd(t, j + 1);
        }
        if exists j :: 1 <= j && DotBeforeEnd(t, j) {
          var j :| 1 <= j && DotBeforeEnd(t, j);
          assert DotBeforeEnd(t[1..], j - 1);
        }
      } else {
        RunFromReject(t[1..]);
      }
    }
  }

  /** The domain part read off the regular expression. */
  ghost predicate DomainOk(d: string) {
    AllEmailChars(d) && exists j :: 1 <= j && DotBeforeEnd(d, j)
  }

  /** In the local part: accept iff an `@` comes after clean characters and
      is followed by an acceptable domain. */
  ghost predicate LocalSplit(t: string, i: int) {
    0 <= i < |t| && t[i] == '@' && AllEmailChars(t[..i]) && DomainOk(t[i + 1..])
  }

  /** A split point of the tail is one of the whole, one further on. */
  lemma LocalSplitCons(t: string, i: int)
    requires t != [] && EmailChar(t[0]) && LocalSplit(t[1..], i)
    ensures LocalSplit(t, i + 1)
  {
    assert t[..i + 1] == [t[0]] + t[1..][..i];
    AllCharsCons(t[..i + 1]);
    assert t[i + 2..] == t[1..][i + 1..];
  }

  lemma LocalSplitTail(t: string, i: int)
    requires t != [] && EmailChar(t[0]) && LocalSplit(t, i)
    ensures i > 0 && LocalSplit(t[1..], i - 1)
  {
    assert t[..i] == [t[0]] + t[1..][..i - 1];
    AllCharsCons(t[..i]);
    assert t[1..][i..] == t[i + 1..];
  }

  lemma {:induction false} RunFromLocal(t: string)
    ensures EmailRun(Local, t) == Accept <==> exists i :: LocalSplit(t, i)
    decreases |t|
  {
    if t == [] {
    } else if t[0] == '@' {
      RunFromAfterAt(t[1..]);
      assert t[..0] == [];
      if EmailRun(Local, t) == Accept { assert LocalSplit(t, 0); }
    } else if EmailChar(t[0]) {
      RunFromLocal(t[1..]);
      if exists i :: LocalSplit(t[1..], i) {
        var i :| LocalSplit(t[1..], i);
        LocalSplitCons(t, i);
      }
      if exists i :: LocalSplit(t, i) {
        var i :| LocalSplit(t, i);
        LocalSplitTail(t, i);
      }
    } else {
      RunFromReject(t[1..]);
    }
  }

  /** The one-pass matcher accepts exactly the strings the regular expression
      describes. */
  lemma IsValidEmailIff(s: string)
    ensures IsValidEmail(s) <==> EmailRegex(s)
  {
    if s != [] && EmailChar(s[0]) {
      RunFromLocal(s[1..]);
      if IsValidEmail(s) {
        var i :| LocalSplit(s[1..], i);
        var d := s[1..][i + 1..];
        var j :| 1 <= j && DotBeforeEnd(d, j);
        assert s[..i + 1] == [s[0]] + s[1..][..i];
        AllCharsCons(s[..i + 1]);
        assert s[i + 2..] == d;
        assert EmailSplitAt(s, i + 1, i + 2 + j);
      }
      if EmailRegex(s) {
        var i, j :| EmailSplitAt(s, i, j);
        var d := s[i + 1..];
        assert DotBeforeEnd(d, j - i - 1);
        assert s[1..][..i - 1] == s[..i][1..];
        AllCharsCons(s[..i]);
        assert s[1..][i..] == d;
        assert LocalSplit(s[1..], i - 1);
      }
    } else if s != [] {
      RunFromReject(s[1..]);
    }
  }

  // ---------------------------------------------------------------------
  // UPI handle: ^[\w.-]+@[\w.-]+$
  // ---------------------------------------------------------------------

  /** `[\w.-]`. */
  predicate UpiChar(c: char) {
    IsWordChar(c) || c == '.' || c == '-'
  }

  predicate AllUpiChars(t: string) {
    forall k :: 0 <= k < |t| ==> UpiChar(t[k])
  }

  /** The regular expression read directly: a non-empty handle, `@`, and a
      non-empty provider, both drawn from `[\w.-]`. */
  predicate UpiSplitAt(s: string, i: int) {
    0 < i < |s| - 1 && s[i] == '@' && AllUpiChars(s[..i]) && AllUpiChars(s[i + 1..])
  }

  /** Index of the first occurrence of `c` in `s`. */
  function IndexOf(s: string, c: char): (r: Option<nat>)
    ensures r.Some? ==> r.value < |s| && s[r.value] == c && forall k :: 0 <= k < r.value ==> s[k] != c
    ensures r.None? ==> forall k :: 0 <= k < |s| ==> s[k] != c
  {
    if s == [] then None
    else if s[0] == c then Some(0)
    else match IndexOf(s[1..], c)
      case None => None
      case Some(k) => Some(k + 1)
  }

  /** `/^[\w.-]+@[\w.-]+$/.test(s)`: split at the first `@` and check both
      sides. */
  predicate IsValidUpiId(s: string) {
    match IndexOf(s, '@')
    case None => false
    case Some(i) => 0 < i < |s| - 1 && AllUpiChars(s[..i]) && AllUpiChars(s[i + 1..])
  }

  /** Splitting at the first `@` decides the pattern: since `@` is not in
      `[\w.-]`, a match has exactly one `@`. */
  lemma IsValidUpiIdIff(s: string)
    ensures IsValidUpiId(s) <==> exists i :: UpiSplitAt(s, i)
  {
    if IsValidUpiId(s) {
      assert UpiSplitAt(s, IndexOf(s, '@').value);
    }
    if exists i :: UpiSplitAt(s, i) {
      var i :| UpiSplitAt(s, i);
      var f := IndexOf(s, '@');
      assert f.Some?;
      assert f.value == i;
    }
  }

  // ---------------------------------------------------------------------
  // Digit patterns
  // ---------------------------------------------------------------------

  /** `^\d*$`. */
  predicate AllDigits(s: string) {
    forall k :: 0 <= k < |s| ==> IsDigit(s[k])
  }

  /** `^\d{10}$`. */
  predicate IsTenDigitPhone(s: string) {
    |s| == 10 && AllDigits(s)
  }

  /** `/\d/.test(s)`. */
  predicate HasDigit(s: string) {
    exists k :: 0 <= k < |s| && IsDigit(s[k])
  }

  /** `[!@#$%^&*(),.?":{}|<>]`. */
  predicate IsSpecialChar(c: char) {
    c in "!@#$%^&*(),.?\":{}|<>"
  }

  /** `/[!@#$%^&*(),.?":{}|<>]/.test(s)`. */
  predicate HasSpecialChar(s: string) {
    exists k :: 0 <= k < |s| && IsSpecialChar(s[k])
  }
}

=== FILE: qr_scanner.dfy ===
/** Reading a scanned QR code: a UPI intent URL gives its payee, name,
    amount and note; any other text with an `@` is taken as a bare UPI
    handle. */
module QrScanner {
  import opened Wrappers
  import opened JsText
  import opened UrlCodec
  import opened ClientData
  import QuickPayment
  import TransactionRoutes

  /** What a scan yields. `upiId` is `searchParams.get('pa')`, which is
      `null` when the URL has no `pa`. */
  datatype UpiData = UpiData(upiId: Option<string>, merchantName: string, amount: string, note: string)

  const UpiPrefix: string := "upi://pay?"

  /** `parseUPIUrl`: a URL starting with `upi://pay?` is read through its
      search parameters, with 'Unknown Merchant' for a missing or empty
      `pn` and '' for a missing `am` or `tn`; other text containing `@` is
      a bare handle; anything else is `null`. */
  function ParseUpiUrl(url: string): (r: Option<UpiData>)
    ensures StartsWith(url, UpiPrefix) ==> r.Some? && r.value.upiId == Get(SearchParams(url), "pa")
    ensures StartsWith(url, UpiPrefix) ==>
      var ps := SearchParams(url);
      && (Truthy(Get(ps, "pn")) ==> r.value.merchantName == Get(ps, "pn").value)
      && (!Truthy(Get(ps, "pn")) ==> r.value.merchantName == "Unknown Merchant")
      && (Truthy(Get(ps, "am")) ==> r.value.amount == Get(ps, "am").value)
      && (!Truthy(Get(ps, "am")) ==> r.value.amount == "")
      && (Truthy(Get(ps, "tn")) ==> r.value.note == Get(ps, "tn").value)
      && (!Truthy(Get(ps, "tn")) ==> r.value.note == "")
    ensures !StartsWith(url, UpiPrefix) && Includes(url, "@") ==>
      r == Some(UpiData(Some(Trim(url)), "Scanned Merchant", "", ""))
    ensures r.None? <==> !StartsWith(url, UpiPrefix) && !Includes(url, "@")
  {
    if StartsWith(url, UpiPrefix) then
      var params := SearchParams(url);
      Some(UpiData(Get(params, "pa"),
                   OrDefault(Get(params, "pn"), "Unknown Merchant"),
                   OrDefault(Get(params, "am"), ""),
                   OrDefault(Get(params, "tn"), "")))
    else if Includes(url, "@") then
      Some(UpiData(Some(Trim(url)), "Scanned Merchant", "", ""))
    else None
  }

  /** The query of a `upi://pay?` URL made of query characters is the text
      after the prefix. */
  lemma UpiQuery(q: string)
    requires forall k :: 0 <= k < |q| ==> QueryChar(q[k])
    ensures StartsWith(UpiPrefix + q, UpiPrefix)
    ensures SearchParams(UpiPrefix + q) == ParseQuery(q)
  {
    var u := UpiPrefix + q;
    assert u[..|UpiPrefix|] == UpiPrefix;
    UpiNoC0(q);
    UrlInputNoop(u);
    UpiQueryOf(q);
  }

  lemma UpiNoC0(q: string)
    requires forall k :: 0 <= k < |q| ==> QueryChar(q[k])
    ensures forall k :: 0 <= k < |UpiPrefix + q| ==> !IsC0OrSpace((UpiPrefix + q)[k])
  {
    var u := UpiPrefix + q;
    forall k | 0 <= k < |u| ensures !IsC0OrSpace(u[k]) {
      if k >= |UpiPrefix| {
        assert u[k] == q[k - |UpiPrefix|];
        EncodedOrSeparator(q[k - |UpiPrefix|]);
      } else {
        assert u[k] == UpiPrefix[k];
      }
    }
  }

  lemma UpiQueryOf(q: string)
    requires forall k :: 0 <= k < |q| ==> QueryChar(q[k])
    ensures QueryOf(UpiPrefix + q) == q
  {
    var u := UpiPrefix + q;
    assert forall k :: 0 <= k < 9 ==> u[k] == UpiPrefix[k];
    FirstAt(u, '?', 9);
    assert u[10..] == q;
    forall k | 0 <= k < |q| ensures q[k] != '#' {
      EncodedOrSeparator(q[k]);
    }
  }

  lemma EncodedOrSeparator(c: char)
    requires QueryChar(c)
    ensures !IsC0OrSpace(c) && c != '#'
  {
    if EncodedChar(c) {
      EncodedCharFacts(c);
    }
  }

  /** `indexOf` finds the first occurrence. */
  lemma FirstAt(s: string, c: char, i: nat)
    requires i < |s| && s[i] == c && forall k :: 0 <= k < i ==> s[k] != c
    ensures Patterns.IndexOf(s, c) == Some(i)
  {
    var r := Patterns.IndexOf(s, c);
    assert r.Some?;
  }

  /** The dialog's own `upi://` link scans back to the form's payee, its
      merchant name (or 'Merchant'), its amount and the note naming the
      category. */
  lemma ClientUrlRoundTrip(form: QuickPayment.FormData, selected: Option<CategoryView>)
    ensures var ps := QuickPayment.ClientUpiParams(form, selected);
      ParseUpiUrl(QuickPayment.ClientUpiUrl("upi://", form, selected))
        == Some(UpiData(Some(form.upiId), ps[1].value, form.amount, ps[4].value))
      && ps[1].value == OrDefault(Some(form.merchantName), "Merchant")
  {
    var ps := QuickPayment.ClientUpiParams(form, selected);
    var q := Serialize(ps);
    ClientUrlShape(form, selected);
    SerializeChars(ps);
    UpiQuery(q);
    ParseSerialize(ps);
    ParsedUpiParams(UpiPrefix + q, ps);
  }

  lemma ClientUrlShape(form: QuickPayment.FormData, selected: Option<CategoryView>)
    ensures QuickPayment.ClientUpiUrl("upi://", form, selected) == UpiPrefix + Serialize(QuickPayment.ClientUpiParams(form, selected))
    ensures UpiParamNames(QuickPayment.ClientUpiParams(form, selected))
  {
    var q := Serialize(QuickPayment.ClientUpiParams(form, selected));
    assert "upi://" + "pay?" == UpiPrefix;
    assert "upi://" + "pay?" + q == UpiPrefix + q;
  }

  /** The five parameters in the builders' order. */
  predicate UpiParamNames(ps: seq<Pair>) {
    |ps| == 5 && ps[0].name == "pa" && ps[1].name == "pn" && ps[2].name == "am" && ps[3].name == "cu" && ps[4].name == "tn"
  }

  /** `get` finds each of the five in its place. */
  lemma GetUpiParams(ps: seq<Pair>)
    requires UpiParamNames(ps)
    ensures Get(ps, "pa") == Some(ps[0].value)
    ensures Get(ps, "pn") == Some(ps[1].value)
    ensures Get(ps, "am") == Some(ps[2].value)
    ensures Get(ps, "tn") == Some(ps[4].value)
  {
    assert ps[0].name != "pn" && ps[0].name != "am" && ps[0].name != "tn" by { assert ps[0].name[0] == 'p' && ps[0].name[1] == 'a'; }
    assert ps[1].name != "am" && ps[1].name != "tn" by { assert ps[1].name[0] == 'p'; }
    assert ps[2].name != "tn" by { assert ps[2].name[0] == 'a'; }
    assert ps[3].name != "tn" by { assert ps[3].name[0] == 'c'; }
    assert ps[1..][1..] == ps[2..];
    assert ps[2..][1..] == ps[3..] && ps[3..][1..] == ps[4..];
    assert Get(ps[2..], "am") == Some(ps[2].value);
    assert Get(ps[1..], "am") == Get(ps[2..], "am");
    assert Get(ps[4..], "tn") == Some(ps[4].value);
    assert Get(ps[3..], "tn") == Get(ps[4..], "tn");
    assert Get(ps[2..], "tn") == Get(ps[3..], "tn");
    assert Get(ps[1..], "tn") == Get(ps[2..], "tn");
  }

  /** A `upi://pay?` URL whose parameters are the five in order scans to
      their values. */
  lemma ParsedUpiParams(url: string, ps: seq<Pair>)
    requires StartsWith(url, UpiPrefix) && SearchParams(url) == ps && UpiParamNames(ps)
    ensures ParseUpiUrl(url) == Some(UpiData(Some(ps[0].value), OrDefault(Some(ps[1].value), "Unknown Merchant"),
                                              ps[2].value, ps[4].value))
  {
    GetUpiParams(ps);
  }

  /** The text of a JavaScript number as the server's template renders it
      (digits, `.`, `e` and `-`). */
  predicate NumberText(s: string) {
    forall k :: 0 <= k < |s| ==> IsDigit(s[k]) || s[k] == '.' || s[k] == 'e' || s[k] == '-'
  }

  /** Letters and digits are literal in a query, in a name or a value. */
  lemma AlnumText(s: string)
    requires forall k :: 0 <= k < |s| ==> IsAsciiAlnum(s[k])
    ensures LiteralName(s) && AllQueryChars(s) && NoAmp(s)
  {
  }

  lemma NumberTextChars(s: string)
    requires NumberText(s)
    ensures AllQueryChars(s) && NoAmp(s)
  {
  }

  /** A pair the server can write as it is: a literal name, and a value of
      query characters without `&`. */
  predicate RawPair(p: Pair) {
    LiteralName(p.name) && AllQueryChars(p.name) && AllQueryChars(p.value) && NoAmp(p.value)
  }

  lemma RawPairs(a: Pair, b: Pair, c: Pair, d: Pair, e: Pair)
    requires RawPair(a) && RawPair(b) && RawPair(c) && RawPair(d) && RawPair(e)
    ensures forall k :: 0 <= k < 5 ==> RawPair([a, b, c, d, e][k])
  {
  }

  lemma EncodedRawPair(name: string, value: string)
    requires forall k :: 0 <= k < |name| ==> IsAsciiAlnum(name[k])
    ensures RawPair(Pair(name, Encode(UriComponent, value)))
  {
    AlnumText(name);
    EncodedQueryChars(UriComponent, value);
  }

  /** The server's parameters: literal names, and values made of query
      characters without `&`. */
  lemma ServerParamsChars(payee: string, payeeName: string, amountText: string, text: string)
    requires NumberText(amountText)
    ensures var raw := TransactionRoutes.UpiParams(payee, payeeName, amountText, text);
      forall k :: 0 <= k < |raw| ==> RawPair(raw[k])
  {
    EncodedRawPair("pa", payee);
    EncodedRawPair("pn", payeeName);
    EncodedRawPair("tn", text);
    AlnumText("am");
    NumberTextChars(amountText);
    AlnumText("cu");
    AlnumText("INR");
    RawPairs(Pair("pa", Encode(UriComponent, payee)), Pair("pn", Encode(UriComponent, payeeName)),
             Pair("am", amountText), Pair("cu", "INR"), Pair("tn", Encode(UriComponent, text)));
  }

  /** `DecodeValues` on five pairs, spelled out. */
  lemma DecodeFiveValues(a: Pair, b: Pair, c: Pair, d: Pair, e: Pair)
    ensures DecodeValues([a, b, c, d, e])
         == [ Pair(a.name, Decode(a.value)), Pair(b.name, Decode(b.value)), Pair(c.name, Decode(c.value)),
              Pair(d.name, Decode(d.value)), Pair(e.name, Decode(e.value)) ]
  {
  }

  lemma DecodeCurrency()
    ensures Decode("INR") == "INR"
  {
    DecodeLiteral("INR");
  }

  /** Decoding the server's values gives back what it encoded. */
  lemma ServerParamsDecode(payee: string, payeeName: string, amountText: string, text: string)
    requires NumberText(amountText)
    ensures DecodeValues(TransactionRoutes.UpiParams(payee, payeeName, amountText, text))
         == [ Pair("pa", payee), Pair("pn", payeeName), Pair("am", amountText), Pair("cu", "INR"), Pair("tn", text) ]
  {
    var pa, pn, tn := Encode(UriComponent, payee), Encode(UriComponent, payeeName), Encode(UriComponent, text);
    calc {
      DecodeValues(TransactionRoutes.UpiParams(payee, payeeName, amountText, text));
      DecodeValues([Pair("pa", pa), Pair("pn", pn), Pair("am", amountText), Pair("cu", "INR"), Pair("tn", tn)]);
      { DecodeFiveValues(Pair("pa", pa), Pair("pn", pn), Pair("am", amountText), Pair("cu", "INR"), Pair("tn", tn)); }
      [Pair("pa", Decode(pa)), Pair("pn", Decode(pn)), Pair("am", Decode(amountText)), Pair("cu", Decode("INR")), Pair("tn", Decode(tn))];
      { DecodeEncode(UriComponent, payee);
        DecodeEncode(UriComponent, payeeName);
        DecodeEncode(UriComponent, text);
        DecodeLiteral(amountText);
        DecodeCurrency(); }
      [Pair("pa", payee), Pair("pn", payeeName), Pair("am", amountText), Pair("cu", "INR"), Pair("tn", text)];
    }
  }

  /** The search parameters of a URL built from the server's parameters
      are the five texts it encoded. */
  lemma ServerUrlParams(payee: string, payeeName: string, amountText: string, text: string)
    requires NumberText(amountText)
    ensures var url := UpiPrefix + JoinRaw(TransactionRoutes.UpiParams(payee, payeeName, amountText, text));
      && StartsWith(url, UpiPrefix)
      && SearchParams(url)
         == [ Pair("pa", payee), Pair("pn", payeeName), Pair("am", amountText), Pair("cu", "INR"), Pair("tn", text) ]
  {
    var raw := TransactionRoutes.UpiParams(payee, payeeName, amountText, text);
    ServerParamsChars(payee, payeeName, amountText, text);
    JoinRawChars(raw);
    UpiQuery(JoinRaw(raw));
    ParseJoinRaw(raw);
    ServerParamsDecode(payee, payeeName, amountText, text);
  }

  /** A URL built from the server's parameters scans back to the texts it
      encoded, when the name is not empty. */
  lemma ServerParamsRoundTrip(payee: string, payeeName: string, amountText: string, text: string)
    requires NumberText(amountText) && payeeName != []
    ensures ParseUpiUrl(UpiPrefix + JoinRaw(TransactionRoutes.UpiParams(payee, payeeName, amountText, text)))
         == Some(UpiData(Some(payee), payeeName, amountText, text))
  {
    var url := UpiPrefix + JoinRaw(TransactionRoutes.UpiParams(payee, payeeName, amountText, text));
    var five := [ Pair("pa", payee), Pair("pn", payeeName), Pair("am", amountText), Pair("cu", "INR"), Pair("tn", text) ];
    ServerUrlParams(payee, payeeName, amountText, text);
    assert UpiParamNames(five);
    ParsedUpiParams(url, five);
  }

  /** The server's intent URL scans back to the merchant's handle, the name
      it put in (or 'Merchant'), the amount text and the note (or the
      default note naming the transaction). */
  lemma ServerUrlRoundTrip(merchantUpi: string, merchantName: Option<string>, amountText: string,
                           note: Option<string>, reference: string)
    requires NumberText(amountText)
    ensures ParseUpiUrl(TransactionRoutes.ServerUpiUrl(merchantUpi, merchantName, amountText, note, reference))
         == Some(UpiData(Some(merchantUpi), OrDefault(merchantName, "Merchant"), amountText,
                         OrDefault(note, "Payment via Spendly - " + reference)))
  {
    var name := OrDefault(merchantName, "Merchant");
    var text := OrDefault(note, "Payment via Spendly - " + reference);
    assert TransactionRoutes.ServerUpiUrl(merchantUpi, merchantName, amountText, note, reference)
        == UpiPrefix + JoinRaw(TransactionRoutes.UpiParams(merchantUpi, name, amountText, text));
    assert name != [];
    ServerParamsRoundTrip(merchantUpi, name, amountText, text);
  }
}

=== FILE: quick_payment.dfy ===
/** The quick-payment dialog: its form, the checks run before a payment is
    offered to a UPI app, the intent URL it opens, the request it posts
    once the user confirms, and the rule for restoring a payment left
    pending in the session. */
module QuickPayment {
  import opened Wrappers
  import opened JsText
  import opened Patterns
  import opened UrlCodec
  import opened ClientData
  import BalanceContext
  import Store
  import TransactionRoutes

  /** The form. `categoryId` is the chosen category's id as the dialog holds
      it: the id itself when the dialog opens, the `<select>`'s string value
      once the user picks one. */
  datatype FormData = FormData(amount: string, categoryId: JsId, upiId: string, merchantName: string)

  datatype Field = AmountField | CategoryField | UpiField | MerchantField

  datatype FormError = InvalidAmount | SelectCategory | UpiRequired | UpiFormat | InsufficientFunds(available: real)

  /** The error shown under each field. */
  type Errors = map<Field, FormError>

  /** The local categories offered when the user has none. */
  const DefaultCategories: seq<CategoryView> := [
    CategoryView(Str("default-food"), "Food", None, None, None, Some(5000.0), "#EF4444"),
    CategoryView(Str("default-rent"), "Rent", None, None, None, Some(15000.0), "#3B82F6"),
    CategoryView(Str("default-travel"), "Travel", None, None, None, Some(3000.0), "#8B5CF6"),
    CategoryView(Str("default-shopping"), "Shopping", None, None, None, Some(7000.0), "#F59E0B")
  ]

  /** The categories the `<select>` lists: the user's, or the defaults when
      there are none. */
  function AvailableCategories(cats: seq<CategoryView>): (r: seq<CategoryView>)
    ensures |r| > 0
    ensures cats != [] ==> r == cats
  {
    if |cats| > 0 then cats else DefaultCategories
  }

  /** The category the dialog is opened for, with the UPI handle saved on
      it (`savedUpiId`, absent when none was saved). */
  datatype PreSelected = PreSelected(category: CategoryView, savedUpiId: Option<string>)

  /** The form when the dialog opens: the pre-selected category (or the
      first available one) and the pre-selected category's saved UPI
      handle. A falsy id is replaced by ''. */
  function InitialForm(cats: seq<CategoryView>, preSelected: Option<PreSelected>): (r: FormData)
    ensures r.amount == [] && r.merchantName == []
    ensures preSelected.Some? && TruthyId(preSelected.value.category.id) ==> r.categoryId == preSelected.value.category.id
    ensures preSelected.None? && cats == [] ==> r.categoryId == Str("default-food")
    ensures preSelected.None? && cats != [] && TruthyId(cats[0].id) ==> r.categoryId == cats[0].id
    ensures TruthyId(r.categoryId) || r.categoryId == Str([])
    ensures preSelected.Some? && Truthy(preSelected.value.savedUpiId) ==> r.upiId == preSelected.value.savedUpiId.value
    ensures preSelected.None? || !Truthy(preSelected.value.savedUpiId) ==> r.upiId == []
  {
    var initial := if preSelected.Some? then preSelected.value.category else AvailableCategories(cats)[0];
    var saved := if preSelected.Some? then preSelected.value.savedUpiId else None;
    FormData([], if TruthyId(initial.id) then initial.id else Str([]), OrDefault(saved, ""), [])
  }

  /** The first default category with exactly this id. */
  function FindDefault(id: JsId): Option<CategoryView> {
    BalanceContext.GetCategoryById(DefaultCategories, id)
  }

  /** `getCategoryById(id) || defaultCategories.find(c => c.id === id)`. */
  function SelectedCategory(cats: seq<CategoryView>, id: JsId): (r: Option<CategoryView>)
    ensures r.Some? ==> r.value.id == id && (r.value in cats || r.value in DefaultCategories)
    ensures r.None? <==> (forall k :: 0 <= k < |cats| ==> cats[k].id != id)
                         && (forall k :: 0 <= k < |DefaultCategories| ==> DefaultCategories[k].id != id)
    ensures (exists k :: 0 <= k < |cats| && cats[k].id == id) ==> r.Some? && r.value in cats
  {
    var found := BalanceContext.GetCategoryById(cats, id);
    if found.Some? then found else FindDefault(id)
  }

  /** `current_balance || balance || 0`, and 0 with no category. */
  function ShownBalance(c: Option<CategoryView>): (r: real)
    ensures c.Some? && TruthyNum(c.value.currentBalance) ==> r == c.value.currentBalance.value
    ensures c.Some? && !TruthyNum(c.value.currentBalance) ==> r == OrZero(c.value.balance)
    ensures c.None? ==> r == 0.0
  {
    if c.None? then 0.0
    else if TruthyNum(c.value.currentBalance) then c.value.currentBalance.value
    else OrZero(c.value.balance)
  }

  /** `!amount || isNaN(parseFloat(amount)) || parseFloat(amount) <= 0`. */
  predicate AmountInvalid(amount: string) {
    amount == [] || ParseFloat(amount).None? || ParseFloat(amount).value <= 0.0
  }

  /** The balance check: a category was chosen and found, an amount was
      typed, and it is above the shown balance. */
  predicate Overdrawn(selected: Option<CategoryView>, form: FormData) {
    && TruthyId(form.categoryId) && form.amount != [] && selected.Some?
    && ParseFloat(form.amount).Some? && ParseFloat(form.amount).value > ShownBalance(selected)
  }

  /** The error each check records: the insufficient-balance error
      replaces the amount error. */
  function FieldError(selected: Option<CategoryView>, form: FormData, f: Field): (r: Option<FormError>)
    ensures f == AmountField ==> (r.Some? <==> AmountInvalid(form.amount) || Overdrawn(selected, form))
    ensures f == AmountField && Overdrawn(selected, form) ==> r == Some(InsufficientFunds(ShownBalance(selected)))
    ensures f == CategoryField ==> (r.Some? <==> !TruthyId(form.categoryId))
    ensures f == UpiField ==> (r.Some? <==> !IsValidUpiId(form.upiId))
    ensures f == UpiField && form.upiId == [] ==> r == Some(UpiRequired)
    ensures f == MerchantField ==> r.None?
  {
    match f
    case AmountField =>
      if Overdrawn(selected, form) then Some(InsufficientFunds(ShownBalance(selected)))
      else if AmountInvalid(form.amount) then Some(InvalidAmount)
      else None
    case CategoryField => if !TruthyId(form.categoryId) then Some(SelectCategory) else None
    case UpiField =>
      if form.upiId == [] then Some(UpiRequired)
      else if !IsValidUpiId(form.upiId) then Some(UpiFormat)
      else None
    case MerchantField => None
  }

  const AllFields: set<Field> := {AmountField, CategoryField, UpiField, MerchantField}

  /** `validateForm` with the category look-up already done: every check
      runs, and the errors are those the checks record. */
  function ValidateFormWith(selected: Option<CategoryView>, form: FormData): (errors: Errors)
    ensures forall f :: f in errors <==> FieldError(selected, form, f).Some?
    ensures forall f :: f in errors ==> Some(errors[f]) == FieldError(selected, form, f)
  {
    map f | f in AllFields && FieldError(selected, form, f).Some? :: FieldError(selected, form, f).value
  }

  /** `validateForm` as written: the category is looked up with `===`. */
  function ValidateForm(cats: seq<CategoryView>, form: FormData): Errors {
    ValidateFormWith(SelectedCategory(cats, form.categoryId), form)
  }

  /** A form without errors has a positive amount within the shown balance
      of the category it found, a chosen category and a well-formed UPI
      handle; and a form with all of that has no errors. */
  lemma ValidFormIff(selected: Option<CategoryView>, form: FormData)
    ensures ValidateFormWith(selected, form) == map[] <==>
      && ParseFloat(form.amount).Some? && ParseFloat(form.amount).value > 0.0 && form.amount != []
      && (selected.Some? ==> ParseFloat(form.amount).value <= ShownBalance(selected))
      && TruthyId(form.categoryId)
      && IsValidUpiId(form.upiId)
  {
    var errors := ValidateFormWith(selected, form);
    if errors != map[] {
      var f :| f in errors;
    } else {
      assert AmountField !in errors && CategoryField !in errors && UpiField !in errors;
    }
  }

  /** `handleInputChange`: the field takes the new text (the `<select>`
      yields a string id) and only that field's error is cleared. */
  function SetField(form: FormData, field: Field, value: string): FormData {
    match field
    case AmountField => form.(amount := value)
    case CategoryField => form.(categoryId := Str(value))
    case UpiField => form.(upiId := value)
    case MerchantField => form.(merchantName := value)
  }

  function HandleInputChange(form: FormData, errors: Errors, field: Field, value: string): (r: (FormData, Errors))
    ensures field !in r.1
    ensures forall f :: f != field ==> (f in r.1 <==> f in errors)
    ensures forall f :: f != field && f in errors ==> r.1[f] == errors[f]
  {
    (SetField(form, field, value), errors - {field})
  }

  /** The merchant name takes part in no check, and the UPI handle only in
      its own: editing them leaves every other field's error as it was. */
  lemma EditsStayLocal(selected: Option<CategoryView>, form: FormData, value: string)
    ensures ValidateFormWith(selected, SetField(form, MerchantField, value)) == ValidateFormWith(selected, form)
    ensures ValidateFormWith(selected, SetField(form, UpiField, value)) - {UpiField}
         == ValidateFormWith(selected, form) - {UpiField}
  {
    var a, b := ValidateFormWith(selected, SetField(form, MerchantField, value)), ValidateFormWith(selected, form);
    assert forall f :: FieldError(selected, SetField(form, MerchantField, value), f) == FieldError(selected, form, f);
    assert a.Keys == b.Keys;
    var c, d := ValidateFormWith(selected, SetField(form, UpiField, value)) - {UpiField}, b - {UpiField};
    assert forall f :: f != UpiField ==> FieldError(selected, SetField(form, UpiField, value), f) == FieldError(selected, form, f);
    assert c.Keys == d.Keys;
  }

  // ---------------------------------------------------------------------
  // The intent URL
  // ---------------------------------------------------------------------

  /** `generateUPIUrl`: the app's scheme, `pay?`, and the form-encoded
      parameters `pa`, `pn`, `am`, `cu`, `tn` in that order. */
  function ClientUpiParams(form: FormData, selected: Option<CategoryView>): (ps: seq<Pair>)
    ensures |ps| == 5
    ensures ps[0] == Pair("pa", form.upiId) && ps[2] == Pair("am", form.amount) && ps[3] == Pair("cu", "INR")
    ensures ps[1].name == "pn" && ps[4].name == "tn"
    ensures form.merchantName != [] ==> ps[1].value == form.merchantName
    ensures form.merchantName == [] ==> ps[1].value == "Merchant"
    ensures selected.Some? && selected.value.name != [] ==> ps[4].value == "Payment from " + selected.value.name
    ensures selected.None? || selected.value.name == [] ==> ps[4].value == "Payment from Spendly"
  {
    var categoryName := if selected.Some? then Some(selected.value.name) else None;
    [ Pair("pa", form.upiId),
      Pair("pn", OrDefault(Some(form.merchantName), "Merchant")),
      Pair("am", form.amount),
      Pair("cu", "INR"),
      Pair("tn", "Payment from " + OrDefault(categoryName, "Spendly")) ]
  }

  function ClientUpiUrl(scheme: string, form: FormData, selected: Option<CategoryView>): (url: string)
    ensures |url| >= |scheme| + 4 && url[..|scheme| + 4] == scheme + "pay?"
    ensures AllQueryChars(url[|scheme| + 4..])
  {
    var q := Serialize(ClientUpiParams(form, selected));
    SerializeChars(ClientUpiParams(form, selected));
    assert (scheme + "pay?" + q)[|scheme| + 4..] == q;
    assert (scheme + "pay?" + q)[..|scheme| + 4] == scheme + "pay?";
    scheme + "pay?" + q
  }

  // ---------------------------------------------------------------------
  // The payment request
  // ---------------------------------------------------------------------

  /** The body the confirmation button posts: the form's category id as
      the form holds it (the numeric id it opened on, the `<select>`'s text
      after a pick, or a local default's id), the parsed amount,
      `merchantName || 'UPI Payment'` and a note naming the UPI handle. */
  function ConfirmedRequest(form: FormData): (r: TransactionRoutes.PaymentRequest)
    ensures r.categoryId == Some(form.categoryId) && r.amount == ParseFloat(form.amount) && r.merchantUpi == Some(form.upiId)
    ensures form.merchantName != [] ==> r.merchantName == Some(form.merchantName)
    ensures form.merchantName == [] ==> r.merchantName == Some("UPI Payment")
    ensures r.note == Some("Payment via " + form.upiId)
  {
    TransactionRoutes.PaymentRequest(Some(form.categoryId), ParseFloat(form.amount), Some(form.upiId),
                                     Some(OrDefault(Some(form.merchantName), "UPI Payment")),
                                     Some("Payment via " + form.upiId))
  }

  /** A form the dialog accepts while it still holds the numeric id of one
      of the user's categories, held as the server stores it, is accepted
      by the server too. */
  lemma ValidFormAccepted(db: Store.Db, user: Store.UserId, cats: seq<CategoryView>, form: FormData, c: int,
                          amountText: string, now: nat, suffix: string)
    requires form.categoryId == Num(c) && c in db.categories && db.categories[c].owner == user
    requires BalanceContext.GetCategoryById(cats, Num(c)) == Some(CategoryOf(c, db.categories[c]))
    requires ValidateForm(cats, form) == map[]
    ensures TransactionRoutes.Initiate(db, user, ConfirmedRequest(form), amountText, now, suffix).result.Ok?
  {
    ValidFormIff(SelectedCategory(cats, form.categoryId), form);
    IsValidUpiIdIff(form.upiId);
  }

  /** After a pick from the `<select>` the form holds the category's id as
      text. The dialog then finds no category and accepts any positive
      amount, but the server reads the text as the id and checks the
      balance: it creates the payment exactly when the amount is within
      the balance, and otherwise answers with an insufficient balance. */
  lemma PickedFormAtServer(db: Store.Db, user: Store.UserId, cats: seq<CategoryView>, form: FormData, c: int,
                           amountText: string, now: nat, suffix: string)
    requires Store.Wf(db) && c in db.categories && db.categories[c].owner == user
    requires NumericIds(cats) && form.categoryId == Str(IdText(Num(c)))
    requires ValidateForm(cats, form) == map[]
    ensures var r := TransactionRoutes.Initiate(db, user, ConfirmedRequest(form), amountText, now, suffix);
      && (r.result.Ok? <==> ParseFloat(form.amount).Some? && ParseFloat(form.amount).value <= db.categories[c].balance)
      && (r.result.Err? ==> r.result.error == TransactionRoutes.InsufficientBalance(db.categories[c].balance))
  {
    SelectedTextSkipsBalance(cats, form, c);
    IsValidUpiIdIff(form.upiId);
    TransactionRoutes.RowKeyOfText(c);
  }

  /** A user with no categories pays from a local default: the dialog
      accepts the form, the button posts the `default-` id unchanged, and
      the server finds no category with that id. */
  lemma DefaultConfirmationRefused(db: Store.Db, user: Store.UserId, cats: seq<CategoryView>, form: FormData,
                                   amountText: string, now: nat, suffix: string)
    requires form.categoryId.Str? && StartsWith(form.categoryId.s, "default-")
    requires ValidateForm(cats, form) == map[]
    ensures TransactionRoutes.Initiate(db, user, ConfirmedRequest(form), amountText, now, suffix).result
            == Err(TransactionRoutes.CategoryNotFound)
  {
    ValidFormIff(SelectedCategory(cats, form.categoryId), form);
    IsValidUpiIdIff(form.upiId);
    assert form.categoryId.s[0] == "default-"[0];
  }

  /** The `category_id` of the success branch of `handlePaymentConfirmation`,
      which no control reaches (the one button that calls the handler passes
      `false`): `null` for a default category, the id itself otherwise; on a
      numeric id `startsWith` is not a function and the handler fails
      (`Err`). */
  function PostedCategoryId(id: JsId): (r: Result<Option<JsId>, ()>)
    ensures r.Err? <==> id.Num?
    ensures r == Ok(None) <==> id.Str? && StartsWith(id.s, "default-")
    ensures r.Ok? && r.value.Some? ==> r.value.value == id
  {
    match id
    case Num(_) => Err(())
    case Str(s) => if StartsWith(s, "default-") then Ok(None) else Ok(Some(id))
  }

  /** That branch would post every default category without a category. */
  lemma DefaultsPostNoCategory(k: nat)
    requires k < |DefaultCategories|
    ensures PostedCategoryId(DefaultCategories[k].id) == Ok(None)
  {
  }

  // ---------------------------------------------------------------------
  // Restoring a pending payment
  // ---------------------------------------------------------------------

  /** What is kept in the session when a UPI app is opened. */
  datatype PendingPayment = PendingPayment(amount: string, categoryId: JsId, upiId: string, timestamp: int)

  const RestoreWindow: int := 5 * 60 * 1000

  function Stash(form: FormData, now: int): PendingPayment {
    PendingPayment(form.amount, form.categoryId, form.upiId, now)
  }

  /** The check on opening: a stored payment younger than five minutes whose
      amount, category and UPI handle all equal the form's brings the
      confirmation back (and stays stored); any other is removed. */
  function RestoreOnOpen(pending: Option<PendingPayment>, form: FormData, now: int): (r: (bool, Option<PendingPayment>))
    ensures r.0 <==> pending.Some? && now - pending.value.timestamp < RestoreWindow
                     && pending.value.amount == form.amount && pending.value.categoryId == form.categoryId
                     && pending.value.upiId == form.upiId
    ensures r.1 == (if r.0 then pending else None)
  {
    match pending
    case None => (false, None)
    case Some(p) =>
      var recent := now - p.timestamp < RestoreWindow;
      var matches := p.amount == form.amount && p.categoryId == form.categoryId && p.upiId == form.upiId;
      if recent && matches then (true, pending) else (false, None)
  }

  /** A payment stashed at `t` is restored for the same amount, category and
      UPI handle (whatever the merchant name) exactly until five minutes
      have passed, and never for a different amount. */
  lemma StashRestores(form: FormData, t: int, now: int, merchantName: string, amount: string)
    ensures RestoreOnOpen(Some(Stash(form, t)), form.(merchantName := merchantName), now).0 <==> now < t + 300000
    ensures amount != form.amount ==> !RestoreOnOpen(Some(Stash(form, t)), form.(amount := amount), now).0
  {
  }

  // ---------------------------------------------------------------------
  // The two effects, in the order the dialog declares them
  // ---------------------------------------------------------------------

  /** The dialog as its effects see it: open or closed, the form, the
      payment kept in the session, whether the confirmation is shown, the
      form the first effect resets to, and whether the `<select>` lists the
      local defaults because the user has no categories. */
  datatype Dialog = Dialog(open: bool, form: FormData, pending: Option<PendingPayment>, confirming: bool,
                           initial: FormData, defaultsInUse: bool)

  /** What happens to the dialog. `Open` is the parent opening it, or
      handing it another pre-selected category; `Edit` is any change of the
      form (typing, a scan); `ChooseApp` stashes the form and shows the
      confirmation; `Reload` is a new category list from the context (as
      `loadData` sets), with the form the first effect would now open on.
      The parent is taken to keep handing over the same pre-selected
      category object between renders. */
  datatype DialogEvent =
    | Open(initial: FormData, now: int)
    | Close
    | Edit(form: FormData, now: int)
    | ChooseApp(now: int)
    | Reload(initial: FormData, defaultsInUse: bool)

  /** Amount, category and UPI handle: the fields the restore effect
      depends on and compares. */
  predicate SameKeys(a: FormData, b: FormData) {
    a.amount == b.amount && a.categoryId == b.categoryId && a.upiId == b.upiId
  }

  /** The form `useState` starts from. */
  const BlankForm: FormData := FormData([], Str([]), [], [])

  /** The first effect: open, it resets the form to the opening form;
      open or closed, it hides the confirmation and removes the stored
      payment. Nothing else changes. */
  function FirstEffect(d: Dialog): (r: Dialog)
    ensures r.pending.None? && !r.confirming
    ensures d.open ==> r.form == d.initial
    ensures !d.open ==> r.form == d.form
    ensures r.open == d.open && r.initial == d.initial && r.defaultsInUse == d.defaultsInUse
  {
    if d.open then d.(form := d.initial, pending := None, confirming := false)
    else d.(pending := None, confirming := false)
  }

  /** One commit after a render that shows `s`: the first effect when its
      dependencies changed, then the restore effect when the dialog is open
      and it, or the amount, category or handle, changed since `before`.
      The restore effect compares the form as rendered with the stored
      payment the first effect left. The second result says whether the
      confirmation was brought back. */
  function Commit(before: Dialog, s: Dialog, firstRuns: bool, now: int): (r: (Dialog, bool))
    ensures firstRuns ==> r == (FirstEffect(s), false)
    ensures !s.open || (before.open && SameKeys(before.form, s.form)) ==> r == (if firstRuns then FirstEffect(s) else s, false)
    ensures !firstRuns && s.open && !(before.open && SameKeys(before.form, s.form)) ==>
      var (restored, kept) := RestoreOnOpen(s.pending, s.form, now);
      r == (s.(pending := kept, confirming := s.confirming || restored), restored)
  {
    var afterFirst := if firstRuns then FirstEffect(s) else s;
    if s.open && !(before.open && SameKeys(before.form, s.form)) then
      var (restored, kept) := RestoreOnOpen(afterFirst.pending, s.form, now);
      (afterFirst.(pending := kept, confirming := afterFirst.confirming || restored), restored)
    else (afterFirst, false)
  }

  /** The dialog when it mounts: every effect runs. The first one removes
      whatever payment the session held, and resets the form when the
      dialog mounts open, so the restore effect finds nothing. */
  function Mount(open: bool, initial: FormData, defaultsInUse: bool, stored: Option<PendingPayment>, now: int): (d: Dialog)
    ensures d.open == open && d.pending.None? && !d.confirming
    ensures d.form == if open then initial else BlankForm
    ensures d.initial == initial && d.defaultsInUse == defaultsInUse
  {
    var unmounted := Dialog(false, BlankForm, None, false, initial, defaultsInUse);
    Commit(unmounted, Dialog(open, BlankForm, stored, false, initial, defaultsInUse), true, now).0
  }

  /** One event and the commit it causes. `rebuilds` says whether the
      list of local defaults is a new array at every render, as it is when
      the component declares it in its body: the first effect depends on
      the list, so while the defaults are in use it runs after every
      render. */
  function StepWith(d: Dialog, e: DialogEvent, rebuilds: bool): (r: (Dialog, bool))
  {
    var listChanges := rebuilds && d.defaultsInUse;
    match e
    case Open(initial, now) => Commit(d, d.(open := true, initial := initial), true, now)
    case Close => Commit(d, d.(open := false), true, 0)
    case Edit(form, now) => Commit(d, d.(form := form), listChanges, now)
    case ChooseApp(now) =>
      if d.open then Commit(d, d.(pending := Some(Stash(d.form, now)), confirming := true), listChanges, now)
      else (d, false)
    case Reload(initial, defaultsInUse) =>
      Commit(d, d.(initial := initial, defaultsInUse := defaultsInUse), rebuilds || !(d.defaultsInUse && defaultsInUse), 0)
  }

  /** The dialog as written, with the defaults built at every render.
      Opening resets the form and removes the stored payment before the
      restore effect reads it; closing removes it too. With the user's own
      categories an edit or an app choice sticks. With the defaults in use
      the first effect runs after every render of the open dialog, so each
      edit and each app choice is undone at once. A new category list
      resets the open dialog. */
  function Step(d: Dialog, e: DialogEvent): (r: (Dialog, bool))
    ensures e.Open? ==> r == (Dialog(true, e.initial, None, false, e.initial, d.defaultsInUse), false)
    ensures e.Close? ==> r == (d.(open := false, pending := None, confirming := false), false)
    ensures e.Edit? && d.open && d.defaultsInUse ==> r == (d.(form := d.initial, pending := None, confirming := false), false)
    ensures e.Edit? && !d.defaultsInUse ==> r.0.form == e.form
    ensures e.ChooseApp? && d.open && d.defaultsInUse ==> r == (d.(form := d.initial, pending := None, confirming := false), false)
    ensures e.ChooseApp? && d.open && !d.defaultsInUse ==> r == (d.(pending := Some(Stash(d.form, e.now)), confirming := true), false)
    ensures e.Reload? && d.open ==> r == (d.(form := e.initial, pending := None, confirming := false, initial := e.initial, defaultsInUse := e.defaultsInUse), false)
  {
    StepWith(d, e, true)
  }

  /** The dialog with the defaults declared once, outside the component (or
      memoised): the list keeps its identity, so the first effect runs only
      on opening, closing and a new category list, and edits and app
      choices stick whether or not the defaults are in use. */
  function StepHoisted(d: Dialog, e: DialogEvent): (r: (Dialog, bool))
    ensures e.Open? ==> r == (Dialog(true, e.initial, None, false, e.initial, d.defaultsInUse), false)
    ensures e.Close? ==> r == (d.(open := false, pending := None, confirming := false), false)
    ensures e.Edit? ==> r.0.form == e.form && r.0.open == d.open
    ensures e.ChooseApp? && d.open ==> r == (d.(pending := Some(Stash(d.form, e.now)), confirming := true), false)
    ensures e.Reload? && d.defaultsInUse && e.defaultsInUse ==> r == (d.(initial := e.initial), false)
  {
    StepWith(d, e, false)
  }

  /** The render a reset causes changes nothing: the open dialog holding
      its opening form, with no stored payment and no confirmation, is
      left as it is by another commit, whichever effects run. With the
      defaults in use the renders never stop, but the dialog stays put. */
  lemma ResetIsFixpoint(before: Dialog, d: Dialog, firstRuns: bool, now: int)
    requires d.open && d.form == d.initial && d.pending.None? && !d.confirming
    ensures Commit(before, d, firstRuns, now) == (d, false)
  {
  }

  /** As written: for a user with no categories, an edit of the open
      dialog is lost and an app choice never shows the confirmation. */
  lemma EditsLostWithDefaults(d: Dialog, form: FormData, now: int)
    requires d.open && d.defaultsInUse
    ensures Step(d, Edit(form, now)).0.form == d.initial
    ensures !Step(d, ChooseApp(now)).0.confirming
  {
  }

  /** The dialog of a user with no categories, opened, with "10" typed as
      the amount: the amount is back to ''. */
  lemma TypedAmountLost()
    ensures var shown := Step(Mount(false, BlankForm, true, None, 0), Open(InitialForm([], None), 1)).0;
      Step(shown, Edit(shown.form.(amount := "10"), 2)).0.form.amount == []
  {
  }

  /** Corrected: with the defaults hoisted, an edit of the open dialog
      stays, and an app choice shows the confirmation with the form
      stashed. */
  lemma EditsStickHoisted(d: Dialog, form: FormData, now: int)
    requires d.open
    ensures StepHoisted(d, Edit(form, now)).0.form == form
    ensures StepHoisted(d, ChooseApp(now)).0.confirming
    ensures StepHoisted(d, ChooseApp(now)).0.pending == Some(Stash(d.form, now))
  {
  }

  /** The stored payment, when there is one, belongs to the open dialog
      and has the form's amount, category and handle. */
  predicate StashMatchesForm(d: Dialog) {
    d.pending.Some? ==> d.open && d.pending.value.amount == d.form.amount && d.pending.value.categoryId == d.form.categoryId
                        && d.pending.value.upiId == d.form.upiId
  }

  lemma StepNeverRestores(d: Dialog, e: DialogEvent, rebuilds: bool)
    requires StashMatchesForm(d)
    ensures !StepWith(d, e, rebuilds).1 && StashMatchesForm(StepWith(d, e, rebuilds).0)
  {
  }

  /** The events after mounting, with the restores they cause. */
  function RunDialog(d: Dialog, events: seq<DialogEvent>, rebuilds: bool): (r: (Dialog, nat))
    decreases |events|
  {
    if events == [] then (d, 0)
    else
      var (next, restored) := StepWith(d, events[0], rebuilds);
      var (last, n) := RunDialog(next, events[1..], rebuilds);
      (last, n + if restored then 1 else 0)
  }

  /** The stashed payment never brings the confirmation back, whether or
      not the defaults are rebuilt: opening the dialog removes it before
      the restore effect looks, and the only other time that effect runs is
      after the amount, category or handle has changed, when it no longer
      matches. Whatever happens after the dialog mounts, the restore branch
      runs zero times. */
  lemma {:induction false} NeverRestored(d: Dialog, events: seq<DialogEvent>, rebuilds: bool)
    requires StashMatchesForm(d)
    ensures RunDialog(d, events, rebuilds).1 == 0
    decreases |events|
  {
    if events != [] {
      StepNeverRestores(d, events[0], rebuilds);
      NeverRestored(StepWith(d, events[0], rebuilds).0, events[1..], rebuilds);
    }
  }

  /** In particular from the mounted dialog, whatever the session held. */
  lemma MountNeverRestores(open: bool, initial: FormData, defaultsInUse: bool, stored: Option<PendingPayment>,
                           now: int, events: seq<DialogEvent>, rebuilds: bool)
    ensures RunDialog(Mount(open, initial, defaultsInUse, stored, now), events, rebuilds).1 == 0
  {
    NeverRestored(Mount(open, initial, defaultsInUse, stored, now), events, rebuilds);
  }

  // ---------------------------------------------------------------------
  // The category chosen through the `<select>`
  // ---------------------------------------------------------------------

  /** Once a category is picked from the `<select>`, the form holds its id
      as text, which is never `===` to the numeric ids the server sends: the
      dialog then finds no category and the form is valid whatever the
      amount, so a payment of 500 from a category holding 100 passes. */
  lemma SelectedTextSkipsBalance(cats: seq<CategoryView>, form: FormData, n: int)
    requires NumericIds(cats) && n != 0 && form.categoryId == Str(IdText(Num(n)))
    ensures SelectedCategory(cats, form.categoryId) == None
    ensures ValidateForm(cats, form) == map[] <==>
      && ParseFloat(form.amount).Some? && ParseFloat(form.amount).value > 0.0 && form.amount != []
      && IsValidUpiId(form.upiId)
  {
    var id := form.categoryId;
    assert BalanceContext.GetCategoryById(cats, id) == None;
    assert FindDefault(id) == None by {
      var t := IdText(Num(n));
      assert t[0] == '-' || IsDigit(t[0]);
      forall k | 0 <= k < |DefaultCategories| ensures DefaultCategories[k].id != id {
        assert DefaultCategories[k].id.s[0] == 'd';
      }
    }
    ValidFormIff(None, form);
  }

  /** The corrected look-up: the chosen id compared as text, first among
      the user's categories, then among the defaults. */
  function SelectedCategoryByText(cats: seq<CategoryView>, id: JsId): Option<CategoryView> {
    var found := FindByText(cats, id);
    if found.Some? then found else FindByText(DefaultCategories, id)
  }

  /** `validateForm` with the look-up by text. */
  function ValidateFormCorrected(cats: seq<CategoryView>, form: FormData): Errors {
    ValidateFormWith(SelectedCategoryByText(cats, form.categoryId), form)
  }

  /** With the look-up by text, picking a category of the user's from the
      `<select>` validates exactly as keeping its numeric id does, so the
      balance check is applied. */
  lemma SelectionValidatesAsNumeric(cats: seq<CategoryView>, form: FormData, n: int)
    requires NumericIds(cats) && n != 0
    requires BalanceContext.GetCategoryById(cats, Num(n)).Some?
    ensures ValidateFormCorrected(cats, form.(categoryId := Str(IdText(Num(n)))))
         == ValidateForm(cats, form.(categoryId := Num(n)))
  {
    BalanceContext.FindByTextAgrees(cats, n);
    var selected := SelectedCategory(cats, Num(n));
    assert SelectedCategoryByText(cats, Str(IdText(Num(n)))) == selected;
    SameErrorsForTruthyIds(selected, form.(categoryId := Str(IdText(Num(n)))), form.(categoryId := Num(n)));
  }

  /** Which category id was chosen matters to the checks only through its
      truthiness. */
  lemma SameErrorsForTruthyIds(selected: Option<CategoryView>, a: FormData, b: FormData)
    requires a.(categoryId := b.categoryId) == b && TruthyId(a.categoryId) && TruthyId(b.categoryId)
    ensures ValidateFormWith(selected, a) == ValidateFormWith(selected, b)
  {
    var ea, eb := ValidateFormWith(selected, a), ValidateFormWith(selected, b);
    assert forall f :: FieldError(selected, a, f) == FieldError(selected, b, f);
    assert ea.Keys == eb.Keys;
  }
}

=== FILE: register_page.dfy ===
/** The registration page: the form's checks, made in a fixed order with
    only the first failure reported, and the request it sends. */
module RegisterPage {
  import opened Wrappers
  import opened JsText
  import opened Patterns
  import opened Store
  import AuthRoutes

  datatype RegisterForm = RegisterForm(name: string, email: string, phone: string, password: string, confirmPassword: string)

  datatype FormError =
    | NameRequired       // 'Name is required'
    | EmailRequired      // 'Email is required'
    | PhoneRequired      // 'Phone number is required'
    | PhoneDigits        // 'Phone number must be 10 digits'
    | PasswordShort      // 'Password must be at least 6 characters long'
    | PasswordMismatch   // 'Passwords do not match'
    | TermsRequired      // 'Please accept the Terms of Service'
    | PrivacyRequired    // 'Please accept the Privacy Policy'

  /** Everything the form demands, each check on its own. */
  predicate Acceptable(form: RegisterForm, terms: bool, privacy: bool) {
    && !IsBlank(form.name) && form.email != [] && IsTenDigitPhone(form.phone)
    && Utf16Length(form.password) >= 6 && form.password == form.confirmPassword
    && terms && privacy
  }

  /** `validateForm`: the first failing check, in the order name, email,
      phone present, phone of ten digits, password length (in UTF-16
      units), confirmation, terms, privacy. */
  function ValidateForm(form: RegisterForm, terms: bool, privacy: bool): (r: Option<FormError>)
    ensures r.None? <==> Acceptable(form, terms, privacy)
    ensures r == Some(NameRequired) <==> IsBlank(form.name)
    ensures r == Some(EmailRequired) <==> !IsBlank(form.name) && form.email == []
    ensures r == Some(PhoneRequired) <==> !IsBlank(form.name) && form.email != [] && form.phone == []
    ensures r == Some(PhoneDigits) <==>
      !IsBlank(form.name) && form.email != [] && form.phone != [] && !IsTenDigitPhone(form.phone)
    ensures r == Some(PasswordShort) <==>
      !IsBlank(form.name) && form.email != [] && IsTenDigitPhone(form.phone) && Utf16Length(form.password) < 6
    ensures r == Some(PasswordMismatch) <==>
      && !IsBlank(form.name) && form.email != [] && IsTenDigitPhone(form.phone) && Utf16Length(form.password) >= 6
      && form.password != form.confirmPassword
    ensures r == Some(TermsRequired) ==> !terms
    ensures r == Some(PrivacyRequired) ==> terms && !privacy
  {
    if IsBlank(form.name) then Some(NameRequired)
    else if form.email == [] then Some(EmailRequired)
    else if form.phone == [] then Some(PhoneRequired)
    else if !IsTenDigitPhone(form.phone) then Some(PhoneDigits)
    else if Utf16Length(form.password) < 6 then Some(PasswordShort)
    else if form.password != form.confirmPassword then Some(PasswordMismatch)
    else if !terms then Some(TermsRequired)
    else if !privacy then Some(PrivacyRequired)
    else None
  }

  /** `register(email, password, name, phone)`: the fields as typed; the
      name is not trimmed and the confirmation is not sent. */
  function Request(form: RegisterForm): (r: AuthRoutes.RegisterRequest)
    ensures r.email == Some(form.email) && r.password == Some(form.password)
    ensures r.name == Some(form.name) && r.phone == Some(form.phone)
  {
    AuthRoutes.RegisterRequest(Some(form.email), Some(form.password), Some(form.name), Some(form.phone))
  }

  /** A form the page accepts always gets past the server's presence and
      length checks; the server still refuses an address its pattern
      rejects (the page only asks for a non-empty one) and an address or
      phone number already registered, and creates the user otherwise. */
  lemma AcceptedFormRegisters(db: Db, form: RegisterForm, terms: bool, privacy: bool)
    requires ValidateForm(form, terms, privacy).None?
    ensures var r := AuthRoutes.Register(db, Request(form));
      && (r.result.Ok? <==>
            IsValidEmail(form.email) && !AuthRoutes.EmailRegistered(db, form.email)
            && !AuthRoutes.PhoneRegistered(db, form.phone))
      && (r.result.Err? ==> r.result.error in {AuthRoutes.InvalidEmail, AuthRoutes.EmailTaken, AuthRoutes.PhoneTaken})
  {
    assert IsBlank([]);
    assert form.phone != [];
  }

  /** The page's password rule is the server's: with the other fields
      acceptable, the page reports a short password exactly when the server
      refuses it as too short (or, when empty, as missing). */
  lemma PasswordRuleAgrees(db: Db, form: RegisterForm)
    requires !IsBlank(form.name) && form.email != [] && IsTenDigitPhone(form.phone) && IsValidEmail(form.email)
    ensures ValidateForm(form, true, true) == Some(PasswordShort) <==>
      AuthRoutes.Register(db, Request(form)).result in {Err(AuthRoutes.WeakPassword), Err(AuthRoutes.MissingFields)}
  {
    assert IsBlank([]);
    assert form.password == [] ==> Utf16Length(form.password) == 0;
  }
}

=== FILE: store.dfy ===
/** The server's SQLite store as immutable values: the `users`,
    `categories` and `transactions` tables, with the AUTOINCREMENT counters
    that hand out fresh row ids. Every route is a function from the store
    before the request to the store after it together with the response. */
module Store {
  import opened Wrappers

  type UserId = int
  type CategoryId = int
  type TransactionId = int

  /** The `status` column of a transaction. */
  datatype Status = Pending | Success | Failed | Cancelled

  /** A bcrypt hash, treated as an injective function of the password. */
  datatype PasswordHash = Bcrypt(password: string)

  /** A row of `users`. */
  datatype User = User(
    email: string,
    passwordHash: PasswordHash,
    name: string,
    phone: Option<string>,
    salary: real)

  /** A row of `categories`. */
  datatype Category = Category(
    owner: UserId,
    name: string,
    percentage: real,
    fixedAmount: real,
    color: string,
    balance: real)

  /** A row of `transactions`; `reference` is the `TXN…` transaction id. */
  datatype Transaction = Transaction(
    owner: UserId,
    category: CategoryId,
    amount: real,
    merchantUpi: string,
    merchantName: string,
    reference: string,
    status: Status,
    note: string)

  /** The three tables. Rows of `users` and `categories` are keyed by id;
      `nextUser` and `nextCategory` are the AUTOINCREMENT counters. No route
      deletes a transaction, so `transactions` is the table in id order and
      the row with id `k` is `transactions[k - 1]`. */
  datatype Db = Db(
    users: map<UserId, User>,
    categories: map<CategoryId, Category>,
    transactions: seq<Transaction>,
    nextUser: UserId,
    nextCategory: CategoryId)

  /** The store after a request, and the response. */
  datatype Outcome<+T, +E> = Outcome(db: Db, result: Result<T, E>)

  /** Every id in use is positive and below its counter, so the counter
      value is a fresh id. */
  predicate Wf(db: Db) {
    && 1 <= db.nextUser && 1 <= db.nextCategory
    && (forall u :: u in db.users ==> 1 <= u < db.nextUser)
    && (forall c :: c in db.categories ==> 1 <= c < db.nextCategory)
  }

  const DefaultColor: string := "#4F46E5"

  /** The row with id `id`, if it exists. */
  function TransactionAt(db: Db, id: TransactionId): (r: Option<Transaction>)
    ensures r.Some? <==> 1 <= id <= |db.transactions|
    ensures r.Some? ==> r.value == db.transactions[id - 1]
  {
    if 1 <= id <= |db.transactions| then Some(db.transactions[id - 1]) else None
  }

  /** Total amount of the `success` transactions charged to category `c`. */
  function Spent(txs: seq<Transaction>, c: CategoryId): real {
    if txs == [] then 0.0
    else (if txs[0].category == c && txs[0].status == Success then txs[0].amount else 0.0) + Spent(txs[1..], c)
  }

  lemma {:induction false} SpentAppend(a: seq<Transaction>, b: seq<Transaction>, c: CategoryId)
    ensures Spent(a + b, c) == Spent(a, c) + Spent(b, c)
  {
    if a == [] {
      assert a + b == b;
    } else {
      assert (a + b)[0] == a[0];
      assert (a + b)[1..] == a[1..] + b;
      SpentAppend(a[1..], b, c);
    }
  }

  /** Replacing one row changes the settled total of a category by the
      difference of that row's contributions. */
  lemma SpentUpdate(txs: seq<Transaction>, i: nat, t: Transaction, c: CategoryId)
    requires i < |txs|
    ensures Spent(txs[i := t], c)
         == Spent(txs, c)
          - (if txs[i].category == c && txs[i].status == Success then txs[i].amount else 0.0)
          + (if t.category == c && t.status == Success then t.amount else 0.0)
  {
    var pre := txs[..i];
    var post := txs[i + 1..];
    assert txs == pre + [txs[i]] + post;
    assert txs[i := t] == pre + [t] + post;
    SpentAppend(pre + [txs[i]], post, c);
    SpentAppend(pre, [txs[i]], c);
    SpentAppend(pre + [t], post, c);
    SpentAppend(pre, [t], c);
  }

  /** `b` with row `i` taken out, and its contribution separated. */
  lemma SpentRemove(b: seq<Transaction>, i: nat, c: CategoryId)
    requires i < |b|
    ensures Spent(b, c) == Spent([b[i]], c) + Spent(b[..i] + b[i + 1..], c)
  {
    assert b == b[..i] + [b[i]] + b[i + 1..];
    SpentAppend(b[..i] + [b[i]], b[i + 1..], c);
    SpentAppend(b[..i], [b[i]], c);
    SpentAppend(b[..i], b[i + 1..], c);
  }

  lemma {:induction false} SpentNonNegative(b: seq<Transaction>, c: CategoryId)
    requires forall t :: t in b ==> t.amount >= 0.0
    ensures Spent(b, c) >= 0.0
  {
    if b != [] {
      assert b[0] in b;
      SpentNonNegative(b[1..], c);
    }
  }

  /** Taking the same row out of two multisets keeps the inclusion and the
      equality between them. */
  lemma MultisetMinus(ma: multiset<Transaction>, mb: multiset<Transaction>, ra: multiset<Transaction>,
                      rb: multiset<Transaction>, x: Transaction)
    requires ma == multiset{x} + ra && mb == multiset{x} + rb
    ensures ma <= mb ==> ra <= rb
    ensures ma == mb ==> ra == rb
  {
    if ma <= mb {
      forall y ensures ra[y] <= rb[y] {
        assert ma[y] <= mb[y];
      }
    }
    if ma == mb {
      forall y ensures ra[y] == rb[y] {
        assert ma[y] == mb[y];
      }
    }
  }

  /** Taking the first row of `a` out of both sides keeps `a`'s rows
      among `b`'s. */
  lemma MultisetRemove(a: seq<Transaction>, b: seq<Transaction>, i: nat)
    requires a != [] && multiset(a) <= multiset(b) && i < |b| && b[i] == a[0]
    ensures multiset(a[1..]) <= multiset(b[..i] + b[i + 1..])
    ensures multiset(a) == multiset(b) ==> multiset(a[1..]) == multiset(b[..i] + b[i + 1..])
    ensures forall t :: t in b[..i] + b[i + 1..] ==> t in b
  {
    var rest := b[..i] + b[i + 1..];
    assert a == [a[0]] + a[1..];
    assert b == b[..i] + [b[i]] + b[i + 1..];
    assert multiset(b) == multiset{a[0]} + multiset(rest);
    MultisetMinus(multiset(a), multiset(b), multiset(a[1..]), multiset(rest), a[0]);
  }

  /** The settled total depends only on which rows there are, not on their
      order; with non-negative amounts, fewer rows give no more. */
  lemma {:induction false} SpentSubMultiset(a: seq<Transaction>, b: seq<Transaction>, c: CategoryId)
    requires multiset(a) <= multiset(b)
    requires forall t :: t in b ==> t.amount >= 0.0
    ensures Spent(a, c) <= Spent(b, c)
    ensures multiset(a) == multiset(b) ==> Spent(a, c) == Spent(b, c)
    decreases |a|
  {
    if a == [] {
      SpentNonNegative(b, c);
      if multiset(a) == multiset(b) {
        assert |b| == |multiset(b)| == 0;
      }
    } else {
      assert a[0] in multiset(a);
      var i :| 0 <= i < |b| && b[i] == a[0];
      MultisetRemove(a, b, i);
      SpentSubMultiset(a[1..], b[..i] + b[i + 1..], c);
      SpentRemove(b, i, c);
      assert a == [a[0]] + a[1..];
      SpentAppend([a[0]], a[1..], c);
    }
  }

  // ---------------------------------------------------------------------
  // The ledger invariant
  // ---------------------------------------------------------------------

  /** A transaction row that fits the store: a positive amount, charged to
      a category id already handed out, which, while it exists, belongs to
      the transaction's owner. */
  predicate RowFits(t: Transaction, cats: map<CategoryId, Category>, nextCategory: CategoryId) {
    && t.amount > 0.0 && t.category < nextCategory
    && (t.category in cats ==> cats[t.category].owner == t.owner)
  }

  /** Every transaction row fits the store. */
  predicate Ledger(db: Db) {
    forall k :: 0 <= k < |db.transactions| ==> RowFits(db.transactions[k], db.categories, db.nextCategory)
  }

  /** A store with the same transactions, a counter that has not gone back,
      and every category below the old counter either gone or with its old
      owner, keeps the ledger invariant. */
  lemma LedgerFrame(db: Db, db2: Db)
    requires Ledger(db)
    requires db2.transactions == db.transactions && db.nextCategory <= db2.nextCategory
    requires forall c :: c in db2.categories && c < db.nextCategory ==>
               c in db.categories && db2.categories[c].owner == db.categories[c].owner
    ensures Ledger(db2)
  {
  }

  /** The rows `GET /transactions` selects for `user` before it orders them
      and keeps the newest 50: the user's own, whose category still exists
      (the inner join with `categories`). */
  function UserRows(txs: seq<Transaction>, user: UserId, cats: map<CategoryId, Category>): (r: seq<Transaction>)
    ensures forall t :: t in r <==> t in txs && t.owner == user && t.category in cats
  {
    if txs == [] then []
    else
      var rest := UserRows(txs[1..], user, cats);
      assert forall t :: t in txs <==> t == txs[0] || t in txs[1..];
      (if txs[0].owner == user && txs[0].category in cats then [txs[0]] else []) + rest
  }

  /** In a ledger every row the transactions route selects has a
      positive amount. */
  lemma UserRowsNonNegative(db: Db, user: UserId)
    requires Ledger(db)
    ensures forall t :: t in UserRows(db.transactions, user, db.categories) ==> t.amount >= 0.0
  {
    forall t | t in UserRows(db.transactions, user, db.categories) ensures t.amount >= 0.0 {
      var k :| 0 <= k < |db.transactions| && db.transactions[k] == t;
      assert RowFits(db.transactions[k], db.categories, db.nextCategory);
    }
  }

  /** In a store that keeps the ledger invariant, the user's selected rows
      hold everything settled against any of the user's categories. */
  lemma {:induction false} SpentUserRows(txs: seq<Transaction>, user: UserId, cats: map<CategoryId, Category>,
                                         next: CategoryId, c: CategoryId)
    requires forall k :: 0 <= k < |txs| ==> RowFits(txs[k], cats, next)
    requires c in cats && cats[c].owner == user
    ensures Spent(UserRows(txs, user, cats), c) == Spent(txs, c)
  {
    if txs != [] {
      var head := if txs[0].owner == user && txs[0].category in cats then [txs[0]] else [];
      assert RowFits(txs[0], cats, next);
      assert forall k :: 0 <= k < |txs[1..]| ==> txs[1..][k] == txs[k + 1];
      SpentUserRows(txs[1..], user, cats, next, c);
      SpentAppend(head, UserRows(txs[1..], user, cats), c);
    }
  }
}

=== FILE: text.dfy ===
/** The JavaScript string primitives the application relies on: `trim`,
    the regular-expression classes `\s`, `\d` and `\w`, `toLowerCase`,
    `includes`, `startsWith`, `length` (in UTF-16 code units) and the
    decimal rendering of a non-negative integer. */
module JsText {
  import opened Wrappers

  /** JavaScript truthiness of an optional string: present and non-empty. */
  predicate Truthy(o: Option<string>) {
    o.Some? && o.value != []
  }

  /** `o || d` for an optional string. */
  function OrDefault(o: Option<string>, d: string): (r: string)
    ensures Truthy(o) ==> r == o.value
    ensures !Truthy(o) ==> r == d
  {
    if Truthy(o) then o.value else d
  }

  /** JavaScript truthiness of an optional number: present and non-zero. */
  predicate TruthyNum(o: Option<real>) {
    o.Some? && o.value != 0.0
  }

  /** `x || 0` for an optional number. */
  function OrZero(o: Option<real>): (r: real)
    ensures TruthyNum(o) ==> r == o.value
    ensures !TruthyNum(o) ==> r == 0.0
  {
    if TruthyNum(o) then o.value else 0.0
  }

  /** ECMAScript WhiteSpace and LineTerminator code points: the set that
      `String.prototype.trim` strips and that the regular-expression class
      `\s` matches. */
  predicate IsSpace(c: char) {
    || c == '\t' || c == '\n' || c == '\U{B}' || c == '\U{C}' || c == '\r'
    || c == ' ' || c == '\U{A0}' || c == '\U{1680}'
    || ('\U{2000}' <= c <= '\U{200A}')
    || c == '\U{2028}' || c == '\U{2029}' || c == '\U{202F}' || c == '\U{205F}'
    || c == '\U{3000}' || c == '\U{FEFF}'
  }

  /** `\d`: an ASCII decimal digit. */
  predicate IsDigit(c: char) {
    '0' <= c <= '9'
  }

  /** `\w`: an ASCII letter, digit or underscore. */
  predicate IsWordChar(c: char) {
    ('a' <= c <= 'z') || ('A' <= c <= 'Z') || IsDigit(c) || c == '_'
  }

  /** All characters of `s` are whitespace. */
  predicate AllSpace(s: string) {
    forall i :: 0 <= i < |s| ==> IsSpace(s[i])
  }

  /** `s.trimStart()`. */
  function TrimStart(s: string): string {
    if s != [] && IsSpace(s[0]) then TrimStart(s[1..]) else s
  }

  /** `s.trimEnd()`. */
  function TrimEnd(s: string): string {
    if s != [] && IsSpace(s[|s| - 1]) then TrimEnd(s[..|s| - 1]) else s
  }

  /** `s.trim()`. */
  function Trim(s: string): string {
    TrimEnd(TrimStart(s))
  }

  /** `trimStart` drops exactly a whitespace prefix. */
  lemma {:induction false} TrimStartShape(s: string)
    ensures var r := TrimStart(s);
      && |r| <= |s| && r == s[|s| - |r|..]
      && AllSpace(s[..|s| - |r|])
      && (r != [] ==> !IsSpace(r[0]))
  {
    if s != [] && IsSpace(s[0]) {
      TrimStartShape(s[1..]);
      var r := TrimStart(s);
      assert s[1..][|s| - 1 - |r|..] == s[|s| - |r|..];
      assert s[..|s| - |r|] == [s[0]] + s[1..][..|s| - 1 - |r|];
    } else {
      assert s[..0] == [];
    }
  }

  /** `trimEnd` drops exactly a whitespace suffix. */
  lemma {:induction false} TrimEndShape(s: string)
    ensures var r := TrimEnd(s);
      && |r| <= |s| && r == s[..|r|]
      && AllSpace(s[|r|..])
      && (r != [] ==> !IsSpace(r[|r| - 1]))
  {
    if s != [] && IsSpace(s[|s| - 1]) {
      var t := s[..|s| - 1];
      TrimEndShape(t);
      var r := TrimEnd(s);
      assert t[..|r|] == s[..|r|];
      assert s[|r|..] == t[|r|..] + [s[|s| - 1]];
    } else {
      assert s[|s|..] == [];
    }
  }

  /** `trim` drops whitespace from both ends: the result is empty exactly
      when `s` is all whitespace, and otherwise starts and ends with a
      non-whitespace character; it is a contiguous part of `s`. */
  lemma TrimShape(s: string)
    ensures var r := Trim(s);
      && |r| <= |s|
      && (r == [] <==> AllSpace(s))
      && (r != [] ==> !IsSpace(r[0]) && !IsSpace(r[|r| - 1]))
      && exists i :: OccursAt(s, r, i)
  {
    var t := TrimStart(s);
    var r := TrimEnd(t);
    TrimStartShape(s);
    TrimEndShape(t);
    AllSpaceSplit(s, |s| - |t|);
    AllSpaceSplit(t, |r|);
    if r == [] {
      assert t[..0] == [] && t[0..] == t;
    }
    var i := |s| - |t|;
    assert r == t[..|r|] == s[i..][..|r|] == s[i..i + |r|];
    assert OccursAt(s, r, i);
  }

  /** What `trim` keeps sits between a whitespace prefix and a whitespace
      suffix of `s`. */
  lemma TrimBetween(s: string)
    ensures var r := Trim(s);
      exists i :: OccursAt(s, r, i) && AllSpace(s[..i]) && AllSpace(s[i + |r|..])
  {
    var t := TrimStart(s);
    var r := TrimEnd(t);
    TrimStartShape(s);
    TrimEndShape(t);
    var i := |s| - |t|;
    assert s[i..] == t;
    assert s[i..i + |r|] == t[..|r|];
    assert s[i + |r|..] == t[|r|..];
    assert OccursAt(s, r, i);
  }

  /** A string is all whitespace iff both parts of any split are. */
  lemma AllSpaceSplit(s: string, k: nat)
    requires k <= |s|
    ensures AllSpace(s) <==> AllSpace(s[..k]) && AllSpace(s[k..])
  {
    if AllSpace(s[..k]) && AllSpace(s[k..]) {
      forall i | 0 <= i < |s| ensures IsSpace(s[i]) {
        if i < k { assert s[i] == s[..k][i]; } else { assert s[i] == s[k..][i - k]; }
      }
    }
  }

  /** `s.trim().length === 0`: the string is empty or all whitespace
      (`Trim` returns the empty string exactly then, by `TrimShape`). */
  predicate IsBlank(s: string) {
    AllSpace(s)
  }

  /** Trimming a trimmed string changes nothing. */
  lemma TrimIdempotent(s: string)
    ensures Trim(Trim(s)) == Trim(s)
  {
    TrimShape(s);
    var r := Trim(s);
    if r != [] {
      assert TrimStart(r) == r;
      assert TrimEnd(r) == r;
    }
  }

  /** ASCII `toLowerCase` of one character. */
  function LowerChar(c: char): char {
    if 'A' <= c <= 'Z' then (c as int + 32) as char else c
  }

  /** `s.toLowerCase()`, restricted to the ASCII letters. */
  function ToLower(s: string): (r: string)
    ensures |r| == |s|
    ensures forall i :: 0 <= i < |s| ==> r[i] == LowerChar(s[i])
  {
    if s == [] then [] else [LowerChar(s[0])] + ToLower(s[1..])
  }

  /** `s.startsWith(p)`. */
  predicate StartsWith(s: string, p: string) {
    |p| <= |s| && s[..|p|] == p
  }

  /** `h.includes(n)`, computed by trying each start position in turn. */
  predicate Includes(h: string, n: string)
    decreases |h|
  {
    StartsWith(h, n) || (h != [] && Includes(h[1..], n))
  }

  /** `n` occurs in `h` starting at offset `i`. */
  predicate OccursAt(h: string, n: string, i: int) {
    0 <= i <= |h| - |n| && h[i..i + |n|] == n
  }

  /** `includes` holds exactly when `n` occurs at some offset of `h`. */
  lemma {:induction false} IncludesIff(h: string, n: string)
    ensures Includes(h, n) <==> exists i :: OccursAt(h, n, i)
    decreases |h|
  {
    if StartsWith(h, n) {
      assert OccursAt(h, n, 0);
    }
    if h != [] {
      IncludesIff(h[1..], n);
      if Includes(h[1..], n) {
        var i :| OccursAt(h[1..], n, i);
        assert h[i + 1..i + 1 + |n|] == h[1..][i..i + |n|];
        assert OccursAt(h, n, i + 1);
      }
      if exists i :: OccursAt(h, n, i) {
        var i :| OccursAt(h, n, i);
        if i > 0 {
          assert h[1..][i - 1..i - 1 + |n|] == h[i..i + |n|];
          assert OccursAt(h[1..], n, i - 1);
        }
      }
    } else if exists i :: OccursAt(h, n, i) {
      var i :| OccursAt(h, n, i);
      assert i == 0 && n == [];
    }
  }

  /** JavaScript `s.length`: the number of UTF-16 code units, two for a
      character outside the Basic Multilingual Plane. */
  function Utf16Length(s: string): (n: nat)
    ensures |s| <= n <= 2 * |s|
  {
    if s == [] then 0 else (if s[0] as int >= 0x10000 then 2 else 1) + Utf16Length(s[1..])
  }

  /** The digit character of a value in 0..9. */
  function DigitChar(d: nat): char
    requires d < 10
  {
    ('0' as int + d) as char
  }

  /** The value of a string of ASCII digits. */
  function DigitsValue(s: string): nat
    requires forall i :: 0 <= i < |s| ==> IsDigit(s[i])
  {
    if s == [] then 0
    else
      var last := s[|s| - 1];
      assert IsDigit(last);
      DigitsValue(s[..|s| - 1]) * 10 + (last as int - '0' as int)
  }

  /** `String(n)` for a non-negative integer: its decimal digits without
      leading zeros. */
  function Decimal(n: nat): (r: string)
    ensures |r| >= 1
    ensures forall i :: 0 <= i < |r| ==> IsDigit(r[i])
    ensures DigitsValue(r) == n
    ensures |r| > 1 ==> r[0] != '0'
  {
    if n < 10 then [DigitChar(n)]
    else
      var p := Decimal(n / 10);
      var r := p + [DigitChar(n % 10)];
      assert r[..|r| - 1] == p;
      r
  }

  /** A number with `k` digits renders as exactly `k` characters. */
  lemma {:induction false} DecimalLength(n: nat, k: nat, low: nat)
    requires k >= 1 && low == Pow10(k - 1) && low <= n < 10 * low
    ensures |Decimal(n)| == k
    decreases k
  {
    if k > 1 {
      var q := n / 10;
      assert low == 10 * Pow10(k - 2);
      assert Pow10(k - 2) <= q < 10 * Pow10(k - 2);
      DecimalLength(q, k - 1, Pow10(k - 2));
    }
  }

  function Pow10(k: nat): (r: nat)
    ensures r >= 1
  {
    if k == 0 then 1 else 10 * Pow10(k - 1)
  }

  /** A six-digit number renders as exactly six characters. */
  lemma DecimalSixDigits(n: nat)
    requires 100000 <= n <= 999999
    ensures |Decimal(n)| == 6
  {
    assert Pow10(5) == 100000;
    DecimalLength(n, 6, 100000);
  }
  /** Length of the run of ASCII digits at the start of `s`. */
  function DigitRun(s: string): (n: nat)
    ensures n <= |s|
    ensures forall i :: 0 <= i < n ==> IsDigit(s[i])
    ensures n < |s| ==> !IsDigit(s[n])
  {
    if s != [] && IsDigit(s[0]) then 1 + DigitRun(s[1..]) else 0
  }

  /** The value of the digits after a decimal point. */
  function FractionValue(ds: string): real
    requires forall i :: 0 <= i < |ds| ==> IsDigit(ds[i])
  {
    DigitsValue(ds) as real / Pow10(|ds|) as real
  }

  /** `parseFloat(s)` with `None` for `NaN`: leading whitespace is skipped,
      then an optional sign and the longest prefix of the form `d+`, `d+.`,
      `d+.d+` or `.d+` is read; anything after it is ignored. */
  function ParseFloat(s: string): Option<real> {
    var t := TrimStart(s);
    var u := if t != [] && (t[0] == '-' || t[0] == '+') then t[1..] else t;
    var i := DigitRun(u);
    var f := if i < |u| && u[i] == '.' then DigitRun(u[i + 1..]) else 0;
    if i == 0 && f == 0 then None
    else
      var magnitude := DigitsValue(u[..i]) as real + (if f == 0 then 0.0 else FractionValue(u[i + 1..][..f]));
      Some(if t[0] == '-' then -magnitude else magnitude)
  }

  /** `parseFloat` reads back the decimal rendering of a whole number. */
  lemma ParseFloatDecimal(n: nat)
    ensures ParseFloat(Decimal(n)) == Some(n as real)
  {
    var d := Decimal(n);
    assert !IsSpace(d[0]) && d[0] != '-' && d[0] != '+' by { assert IsDigit(d[0]); }
    assert TrimStart(d) == d;
    assert DigitRun(d) == |d|;
    assert d[..|d|] == d;
  }
}

=== FILE: transaction_routes.dfy ===
/** The `/api/transactions` routes that change the store: initiating a
    payment (a `pending` transaction plus the UPI intent URL) and settling it
    (`success`, `failed` or `cancelled`, with the category debited on
    success). */
module TransactionRoutes {
  import opened Wrappers
  import opened JsText
  import opened Store
  import opened UrlCodec
  import opened ClientData

  datatype TxError =
    | InvalidData
    | InvalidMerchant
    | CategoryNotFound
    | InsufficientBalance(available: real)
    | InvalidStatus
    | TransactionNotFound
    | AlreadyProcessed
    | BalanceUpdateFailed

  /** The body of `POST /`; absent JSON fields are `None`. The
      `category_id` is whatever JSON value the client sent: a number, or a
      string. */
  datatype PaymentRequest = PaymentRequest(
    categoryId: Option<JsId>,
    amount: Option<real>,
    merchantUpi: Option<string>,
    merchantName: Option<string>,
    note: Option<string>)

  /** The answer to a created payment. */
  datatype Initiated = Initiated(id: TransactionId, transaction: Transaction, upiUrl: string)

  /** `!category_id || !amount || amount <= 0`. */
  predicate InvalidPaymentData(req: PaymentRequest) {
    || req.categoryId.None? || !TruthyId(req.categoryId.value)
    || req.amount.None? || req.amount.value <= 0.0
  }

  /** An integer literal: decimal digits, after an optional minus sign. */
  predicate IntegerText(s: string) {
    || (|s| >= 1 && forall i :: 0 <= i < |s| ==> IsDigit(s[i]))
    || (|s| >= 2 && s[0] == '-' && forall i :: 1 <= i < |s| ==> IsDigit(s[i]))
  }

  /** The row id SQLite compares a bound `category_id` with. The `id`
      column has integer affinity, so a number is that number, a text that
      is an integer literal is the number it spells, and any other text
      equals no row's id. */
  function RowKey(id: JsId): (r: Option<CategoryId>)
    ensures id.Num? ==> r == Some(id.n)
    ensures id.Str? ==> (r.Some? <==> IntegerText(id.s))
  {
    match id
    case Num(n) => Some(n)
    case Str(s) =>
      if |s| >= 1 && forall i :: 0 <= i < |s| ==> IsDigit(s[i]) then Some(DigitsValue(s))
      else if |s| >= 2 && s[0] == '-' && forall i :: 1 <= i < |s| ==> IsDigit(s[i]) then Some(-(DigitsValue(s[1..]) as int))
      else None
  }

  /** A number's text, `id.toString()`, selects the row of that number. */
  lemma RowKeyOfText(n: int)
    ensures RowKey(Str(IdText(Num(n)))) == Some(n)
  {
    var s := IdText(Num(n));
    if n < 0 {
      assert s == "-" + Decimal(-n);
      assert s[1..] == Decimal(-n);
      assert !IsDigit(s[0]);
    } else {
      assert s == Decimal(n);
    }
  }

  /** The posted `category_id` names one of the user's categories. */
  predicate OwnCategory(db: Db, user: UserId, id: JsId) {
    RowKey(id).Some? && RowKey(id).value in db.categories && db.categories[RowKey(id).value].owner == user
  }

  /** The transaction reference: `TXN`, the clock in milliseconds and a
      random base-36 suffix (both inputs here). */
  function Reference(now: nat, suffix: string): string {
    "TXN" + Decimal(now) + suffix
  }

  /** The UPI intent URL the server returns: parameters `pa`, `pn`, `am`,
      `cu`, `tn` in that order, every text value through
      `encodeURIComponent`; `amountText` is the amount as JavaScript renders
      it in the template. */
  function ServerUpiUrl(merchantUpi: string, merchantName: Option<string>, amountText: string,
                        note: Option<string>, reference: string): string
  {
    "upi://pay?" + JoinRaw(ServerUpiParams(merchantUpi, merchantName, amountText, note, reference))
  }

  /** The URL's parameters, values as written into it, once the defaults
      'Merchant' and 'Payment via Spendly - <reference>' are applied. */
  function ServerUpiParams(merchantUpi: string, merchantName: Option<string>, amountText: string,
                           note: Option<string>, reference: string): seq<Pair>
  {
    UpiParams(merchantUpi, OrDefault(merchantName, "Merchant"), amountText,
              OrDefault(note, "Payment via Spendly - " + reference))
  }

  /** `pa`, `pn`, `am`, `cu`, `tn`: the three texts through
      `encodeURIComponent`, the amount text and the currency as they are. */
  function UpiParams(payee: string, payeeName: string, amountText: string, text: string): seq<Pair> {
    [ Pair("pa", Encode(UriComponent, payee)),
      Pair("pn", Encode(UriComponent, payeeName)),
      Pair("am", amountText),
      Pair("cu", "INR"),
      Pair("tn", Encode(UriComponent, text)) ]
  }

  /** `POST /`: the request data, then the merchant, then the category's
      owner, then the balance are checked, in that order; the UPI handle's
      format is not. A payment of exactly the balance is allowed. The new
      transaction is appended as `pending` and no balance changes. */
  function Initiate(db: Db, user: UserId, req: PaymentRequest, amountText: string, now: nat, suffix: string)
    : (r: Outcome<Initiated, TxError>)
    ensures r.result.Err? ==> r.db == db
    ensures r.result == Err(InvalidData) <==> InvalidPaymentData(req)
    ensures r.result == Err(InvalidMerchant) <==> !InvalidPaymentData(req) && !Truthy(req.merchantUpi)
    ensures r.result == Err(CategoryNotFound) <==>
      && !InvalidPaymentData(req) && Truthy(req.merchantUpi)
      && !OwnCategory(db, user, req.categoryId.value)
    ensures r.result.Err? && r.result.error.InsufficientBalance? <==>
      && !InvalidPaymentData(req) && Truthy(req.merchantUpi)
      && OwnCategory(db, user, req.categoryId.value)
      && db.categories[RowKey(req.categoryId.value).value].balance < req.amount.value
    ensures r.result.Ok? ==>
      var t := r.result.value.transaction;
      && r.result.value.id == |db.transactions| + 1
      && r.db == db.(transactions := db.transactions + [t])
      && t.owner == user && Some(t.category) == RowKey(req.categoryId.value) && t.amount == req.amount.value
      && 0.0 < t.amount <= db.categories[t.category].balance
      && t.status == Pending
      && t.merchantUpi == req.merchantUpi.value
      && t.merchantName == OrDefault(req.merchantName, "Unknown Merchant")
      && t.note == OrDefault(req.note, "")
      && t.reference == Reference(now, suffix)
      && r.result.value.upiUrl == ServerUpiUrl(t.merchantUpi, req.merchantName, amountText, req.note, t.reference)
  {
    if InvalidPaymentData(req) then Outcome(db, Err(InvalidData))
    else if !Truthy(req.merchantUpi) then Outcome(db, Err(InvalidMerchant))
    else if !OwnCategory(db, user, req.categoryId.value) then Outcome(db, Err(CategoryNotFound))
    else
      var cid := RowKey(req.categoryId.value).value;
      if db.categories[cid].balance < req.amount.value then
        Outcome(db, Err(InsufficientBalance(db.categories[cid].balance)))
      else
        var reference := Reference(now, suffix);
        var t := Transaction(user, cid, req.amount.value, req.merchantUpi.value,
                             OrDefault(req.merchantName, "Unknown Merchant"), reference, Pending,
                             OrDefault(req.note, ""));
        var url := ServerUpiUrl(t.merchantUpi, req.merchantName, amountText, req.note, reference);
        Outcome(db.(transactions := db.transactions + [t]), Ok(Initiated(|db.transactions| + 1, t, url)))
  }

  /** The statuses a settlement may ask for. */
  function ParseStatus(s: string): (r: Option<Status>)
    ensures r == Some(Success) <==> s == "success"
    ensures r == Some(Failed) <==> s == "failed"
    ensures r == Some(Cancelled) <==> s == "cancelled"
    ensures r.Some? ==> r.value != Pending
  {
    if s == "success" then Some(Success)
    else if s == "failed" then Some(Failed)
    else if s == "cancelled" then Some(Cancelled)
    else None
  }

  /** Transaction `id` exists and belongs to `user`. */
  predicate OwnTransaction(db: Db, user: UserId, id: TransactionId) {
    1 <= id <= |db.transactions| && db.transactions[id - 1].owner == user
  }

  /** `PUT /:id/status`. Only `success`, `failed` or `cancelled` may be
      asked for, only for the user's own transaction, and only while it is
      `pending`. `success` debits the amount from the transaction's category
      (by id alone; a deleted category is simply not debited); if the debit
      fails the status is put back to `pending`. */
  function Settle(db: Db, user: UserId, id: TransactionId, status: string, debitFails: bool)
    : (r: Outcome<Status, TxError>)
    ensures r.result.Err? ==> r.db == db
    ensures r.result == Err(InvalidStatus) <==> ParseStatus(status).None?
    ensures r.result == Err(TransactionNotFound) <==>
      ParseStatus(status).Some? && (TransactionAt(db, id).None? || TransactionAt(db, id).value.owner != user)
    ensures r.result.Ok? ==>
      var t := db.transactions[id - 1];
      && 1 <= id <= |db.transactions|
      && t.owner == user && t.status == Pending
      && Some(r.result.value) == ParseStatus(status)
      && r.db.transactions == db.transactions[id - 1 := t.(status := r.result.value)]
      && r.db.users == db.users && r.db.nextUser == db.nextUser && r.db.nextCategory == db.nextCategory
      && r.db.categories ==
           if r.result.value == Success && t.category in db.categories
           then db.categories[t.category := db.categories[t.category].(balance := db.categories[t.category].balance - t.amount)]
           else db.categories
    ensures r.result.Ok? && r.result.value == Success ==> !debitFails
    ensures r.result == Err(AlreadyProcessed) <==>
      ParseStatus(status).Some? && OwnTransaction(db, user, id) && db.transactions[id - 1].status != Pending
    ensures r.result == Err(BalanceUpdateFailed) <==>
      ParseStatus(status) == Some(Success) && OwnTransaction(db, user, id) && db.transactions[id - 1].status == Pending
      && debitFails
    ensures r.result.Ok? <==>
      && ParseStatus(status).Some? && OwnTransaction(db, user, id) && db.transactions[id - 1].status == Pending
      && !(ParseStatus(status) == Some(Success) && debitFails)
  {
    match ParseStatus(status)
    case None => Outcome(db, Err(InvalidStatus))
    case Some(target) =>
      match TransactionAt(db, id)
      case None => Outcome(db, Err(TransactionNotFound))
      case Some(t) =>
        if t.owner != user then Outcome(db, Err(TransactionNotFound))
        else if t.status != Pending then Outcome(db, Err(AlreadyProcessed))
        else
          var txs := db.transactions[id - 1 := t.(status := target)];
          if target == Success then
            if debitFails then Outcome(db, Err(BalanceUpdateFailed))
            else if t.category in db.categories then
              var c := db.categories[t.category];
              Outcome(db.(transactions := txs, categories := db.categories[t.category := c.(balance := c.balance - t.amount)]),
                      Ok(target))
            else Outcome(db.(transactions := txs), Ok(target))
          else Outcome(db.(transactions := txs), Ok(target))
  }

  /** A settled transaction stays settled: every later request for it is an
      error and changes nothing. */
  lemma SettledIsFinal(db: Db, user: UserId, id: TransactionId, status: string, debitFails: bool)
    requires 1 <= id <= |db.transactions| && db.transactions[id - 1].status != Pending
    ensures Settle(db, user, id, status, debitFails).result.Err?
    ensures Settle(db, user, id, status, debitFails).db == db
  {
  }

  /** A payment is created only for one of the user's own categories, with
      a positive amount, so every row keeps fitting the store. */
  lemma InitiateKeepsLedger(db: Db, user: UserId, req: PaymentRequest, amountText: string, now: nat, suffix: string)
    requires Wf(db) && Ledger(db)
    ensures Ledger(Initiate(db, user, req, amountText, now, suffix).db)
  {
    var r := Initiate(db, user, req, amountText, now, suffix);
    if r.result.Ok? {
      var t := r.result.value.transaction;
      assert RowFits(t, db.categories, db.nextCategory);
      assert forall k :: 0 <= k < |db.transactions| ==> r.db.transactions[k] == db.transactions[k];
    }
  }

  /** Settling changes a row's status and at most one balance, so every row
      keeps fitting the store. */
  lemma SettleKeepsLedger(db: Db, user: UserId, id: TransactionId, status: string, debitFails: bool)
    requires Ledger(db)
    ensures Ledger(Settle(db, user, id, status, debitFails).db)
  {
    var r := Settle(db, user, id, status, debitFails);
    if r.result.Ok? {
      forall k | 0 <= k < |r.db.transactions| ensures RowFits(r.db.transactions[k], r.db.categories, r.db.nextCategory) {
        assert RowFits(db.transactions[k], db.categories, db.nextCategory);
      }
    }
  }

  /** The ledger identity: for every category, its balance plus the total of
      its successful transactions. */
  function Funds(db: Db, c: CategoryId): real
    requires c in db.categories
  {
    db.categories[c].balance + Spent(db.transactions, c)
  }

  /** Initiating a payment keeps every category's funds. */
  lemma InitiateConserves(db: Db, user: UserId, req: PaymentRequest, amountText: string, now: nat, suffix: string, c: CategoryId)
    requires c in db.categories
    ensures var r := Initiate(db, user, req, amountText, now, suffix);
      c in r.db.categories && Funds(r.db, c) == Funds(db, c)
  {
    var r := Initiate(db, user, req, amountText, now, suffix);
    if r.result.Ok? {
      var t := r.result.value.transaction;
      SpentAppend(db.transactions, [t], c);
      assert Spent([t], c) == 0.0 + Spent([t][1..], c);
    }
  }

  /** Settling a payment keeps every category's funds: a success moves the
      amount from the balance into the spent total, the other outcomes move
      nothing. */
  lemma SettleConserves(db: Db, user: UserId, id: TransactionId, status: string, debitFails: bool, c: CategoryId)
    requires c in db.categories
    ensures var r := Settle(db, user, id, status, debitFails);
      c in r.db.categories && Funds(r.db, c) == Funds(db, c)
  {
    var r := Settle(db, user, id, status, debitFails);
    if r.result.Ok? {
      var t := db.transactions[id - 1];
      SpentUpdate(db.transactions, id - 1, t.(status := r.result.value), c);
    }
  }

  /** A sequence of settlement requests for one transaction; each carries the
      asked-for status and whether its debit fails. */
  function SettleAll(db: Db, user: UserId, id: TransactionId, reqs: seq<(string, bool)>): Db
    decreases |reqs|
  {
    if reqs == [] then db
    else SettleAll(Settle(db, user, id, reqs[0].0, reqs[0].1).db, user, id, reqs[1..])
  }

  /** However many settlement requests arrive for a transaction, its
      category is debited at most once: by the amount exactly when the
      transaction ends up successful, and not at all otherwise. */
  lemma {:induction false} DebitedAtMostOnce(db: Db, user: UserId, id: TransactionId, reqs: seq<(string, bool)>, start: real)
    requires 1 <= id <= |db.transactions|
    requires db.transactions[id - 1].category in db.categories
    requires var t := db.transactions[id - 1];
      db.categories[t.category].balance == start - (if t.status == Success then t.amount else 0.0)
    ensures |SettleAll(db, user, id, reqs).transactions| == |db.transactions|
    ensures var d := SettleAll(db, user, id, reqs);
      var t := d.transactions[id - 1];
      && t.category == db.transactions[id - 1].category && t.amount == db.transactions[id - 1].amount
      && t.category in d.categories
      && d.categories[t.category].balance == start - (if t.status == Success then t.amount else 0.0)
    decreases |reqs|
  {
    if reqs != [] {
      var r := Settle(db, user, id, reqs[0].0, reqs[0].1);
      DebitedAtMostOnce(r.db, user, id, reqs[1..], start);
    }
  }
}

=== FILE: transactions_page.dfy ===
/** The Transactions page: the status filter and the case-insensitive
    search over the loaded list, the summary counts, and the settle buttons
    shown on pending transactions. */
module TransactionsPage {
  import opened Wrappers
  import opened JsText
  import opened ClientData
  import opened Store
  import TransactionRoutes
  import BalanceContext

  // ---------------------------------------------------------------------
  // Filter and search
  // ---------------------------------------------------------------------

  /** `field?.toLowerCase().includes(term.toLowerCase())`; a missing field
      never matches. */
  predicate FieldMatches(field: Option<string>, term: string) {
    field.Some? && Includes(ToLower(field.value), ToLower(term))
  }

  /** The status select: `'all'` or one status text. */
  predicate StatusShown(t: TransactionView, filter: string) {
    filter == "all" || t.status == filter
  }

  /** An empty search matches everything; otherwise the merchant name, the
      category name or the note must contain the term, ignoring case. */
  predicate SearchShown(t: TransactionView, term: string) {
    term == [] || FieldMatches(t.merchantName, term) || FieldMatches(t.categoryName, term) || FieldMatches(t.note, term)
  }

  predicate Shown(t: TransactionView, filter: string, term: string) {
    StatusShown(t, filter) && SearchShown(t, term)
  }

  /** `filteredTransactions`: the transactions both tests keep, in their
      original order. */
  function Filtered(txs: seq<TransactionView>, filter: string, term: string): (r: seq<TransactionView>)
    ensures |r| <= |txs|
    ensures forall k :: 0 <= k < |r| ==> r[k] in txs && Shown(r[k], filter, term)
    ensures forall k :: 0 <= k < |txs| && Shown(txs[k], filter, term) ==> txs[k] in r
  {
    if txs == [] then []
    else
      var rest := Filtered(txs[1..], filter, term);
      assert forall k :: 1 <= k < |txs| ==> txs[k] == txs[1..][k - 1];
      if Shown(txs[0], filter, term) then [txs[0]] + rest else rest
  }

  /** The filter keeps order: filtering a concatenation is concatenating
      the filtered parts, and a single transaction is kept exactly when it
      is shown. Together these fix the result as the shown transactions in
      their original order. */
  lemma {:induction false} FilteredAppend(a: seq<TransactionView>, b: seq<TransactionView>, filter: string, term: string)
    ensures Filtered(a + b, filter, term) == Filtered(a, filter, term) + Filtered(b, filter, term)
    decreases |a|
  {
    if a == [] {
      assert a + b == b;
    } else {
      assert (a + b)[0] == a[0] && (a + b)[1..] == a[1..] + b;
      FilteredAppend(a[1..], b, filter, term);
    }
  }

  lemma FilteredOne(t: TransactionView, filter: string, term: string)
    ensures Filtered([t], filter, term) == if Shown(t, filter, term) then [t] else []
  {
    assert [t][1..] == [];
  }

  /** With 'All Status' and no search the whole list is shown, in order. */
  lemma {:induction false} ShowAll(txs: seq<TransactionView>)
    ensures Filtered(txs, "all", "") == txs
  {
    if txs != [] {
      ShowAll(txs[1..]);
    }
  }

  lemma {:induction false} ToLowerIdempotent(s: string)
    ensures ToLower(ToLower(s)) == ToLower(s)
  {
    var once := ToLower(s);
    var twice := ToLower(once);
    assert |twice| == |once|;
    forall i | 0 <= i < |s| ensures twice[i] == once[i] {
      assert once[i] == LowerChar(s[i]);
    }
  }

  /** The search ignores the case of the term: searching for its
      lower-case form shows the same transactions. */
  lemma {:induction false} SearchIgnoresCase(txs: seq<TransactionView>, filter: string, term: string)
    ensures Filtered(txs, filter, ToLower(term)) == Filtered(txs, filter, term)
  {
    ToLowerIdempotent(term);
    assert (ToLower(term) == []) == (term == []);
    if txs != [] {
      SearchIgnoresCase(txs[1..], filter, term);
      assert Shown(txs[0], filter, ToLower(term)) == Shown(txs[0], filter, term);
    }
  }

  // ---------------------------------------------------------------------
  // Summary
  // ---------------------------------------------------------------------

  /** How many transactions have the status text `status`. */
  function Count(txs: seq<TransactionView>, status: string): (n: nat)
    ensures n <= |txs|
  {
    if txs == [] then 0 else (if txs[0].status == status then 1 else 0) + Count(txs[1..], status)
  }

  datatype Stats = Stats(total: nat, success: nat, pending: nat, failed: nat, totalAmount: real)

  /** `getTransactionStats`: cancelled transactions are counted as failed;
      the amount adds up the successful transactions only, which is the
      balance context's `totalSpent`. */
  function GetStats(txs: seq<TransactionView>): (s: Stats)
    ensures s.total == |txs|
    ensures s.success == Count(txs, "success") && s.pending == Count(txs, "pending")
    ensures s.failed == Count(txs, "failed") + Count(txs, "cancelled")
  {
    Stats(|txs|, Count(txs, "success"), Count(txs, "pending"),
          Count(txs, "failed") + Count(txs, "cancelled"), BalanceContext.TotalSpent(txs))
  }

  /** Each count is the length of the list the status filter shows. */
  lemma {:induction false} CountIsFilterLength(txs: seq<TransactionView>, status: string)
    requires status != "all"
    ensures Count(txs, status) == |Filtered(txs, status, "")|
  {
    if txs != [] {
      CountIsFilterLength(txs[1..], status);
    }
  }

  /** For a list mirroring server rows, the four counts partition the
      list: every transaction is successful, pending or failed. */
  lemma {:induction false} StatsPartition(views: seq<TransactionView>, rows: seq<Transaction>)
    requires Mirrors(views, rows)
    ensures var s := GetStats(views); s.success + s.pending + s.failed == s.total
  {
    if views != [] {
      StatsPartition(views[1..], rows[1..]);
      assert Mirrors(views[1..], rows[1..]) by {
        forall k | 0 <= k < |views| - 1 ensures views[1..][k].status == StatusText(rows[1..][k].status) {
          assert views[k + 1].status == StatusText(rows[k + 1].status);
        }
      }
    }
  }

  // ---------------------------------------------------------------------
  // Settle buttons
  // ---------------------------------------------------------------------

  /** The '✓' and '✗' buttons appear on pending transactions only. */
  predicate ActionsOffered(t: TransactionView) {
    t.status == "pending"
  }

  /** On a view of one of the user's own rows, the buttons are offered
      exactly when the server would settle the transaction ('✗' asks for
      `failed`, '✓' for `success`, which can still fail on the debit). On a
      settled row the server refuses every request and changes nothing. */
  lemma ActionsMatchServer(db: Db, user: UserId, id: TransactionId, v: TransactionView)
    requires 1 <= id <= |db.transactions| && db.transactions[id - 1].owner == user
    requires v.status == StatusText(db.transactions[id - 1].status)
    ensures ActionsOffered(v) <==> TransactionRoutes.Settle(db, user, id, "failed", false).result.Ok?
    ensures ActionsOffered(v) <==> TransactionRoutes.Settle(db, user, id, "success", false).result.Ok?
    ensures !ActionsOffered(v) ==> TransactionRoutes.Settle(db, user, id, "success", false).db == db
  {
    if !ActionsOffered(v) {
      TransactionRoutes.SettledIsFinal(db, user, id, "success", false);
      TransactionRoutes.SettledIsFinal(db, user, id, "failed", false);
    }
  }
}

=== FILE: url_codec.dfy ===
/** The URL codecs behind the UPI deep links:
    - UTF-8 encoding of characters, and the UTF-8 decoder with replacement
      of section 4 of the WHATWG Encoding Standard;
    - `encodeURIComponent` (percent-encoding as in section 2.1 of RFC 3986,
      keeping the unreserved characters plus `!'()*`);
    - the application/x-www-form-urlencoded serializer (section 5.2 of the
      WHATWG URL Standard) that `URLSearchParams.toString` uses;
    - the application/x-www-form-urlencoded parser (section 5.1) that
      `URL.searchParams` uses, with `get` returning the first value. */
module UrlCodec {
  import opened Wrappers
  import opened JsText
  import Patterns

  type byte = b: int | 0 <= b < 256

  // ---------------------------------------------------------------------
  // UTF-8
  // ---------------------------------------------------------------------

  /** The UTF-8 encoding of one character (one to four bytes). */
  function Utf8Char(c: char): (r: seq<byte>)
    ensures 1 <= |r| <= 4
    ensures |r| == 1 <==> c as int < 0x80
    ensures |r| == 1 ==> r[0] == c as int
    ensures |r| > 1 ==> forall k :: 0 <= k < |r| ==> r[k] >= 0x80
  {
    var v := c as int;
    if v < 0x80 then [v]
    else if v < 0x800 then [0xC0 + v / 64, 0x80 + v % 64]
    else if v < 0x10000 then [0xE0 + v / 4096, 0x80 + (v / 64) % 64, 0x80 + v % 64]
    else [0xF0 + v / 262144, 0x80 + (v / 4096) % 64, 0x80 + (v / 64) % 64, 0x80 + v % 64]
  }

  /** The UTF-8 encoding of a string. */
  function Utf8(s: string): seq<byte> {
    if s == [] then [] else Utf8Char(s[0]) + Utf8(s[1..])
  }

  const Replacement: char := '\U{FFFD}'

  /** `bs[k]` exists and lies in `lo..hi`. */
  predicate ContinuationIn(bs: seq<byte>, k: nat, lo: int, hi: int) {
    k < |bs| && lo <= bs[k] <= hi
  }

  /** One step of the WHATWG UTF-8 decoder: the next character and how many
      bytes it consumed. An ill-formed sequence yields U+FFFD and consumes
      its maximal well-formed prefix (at least the lead byte); the offending
      byte is read again by the next step. */
  function DecodeStep(bs: seq<byte>): (r: (char, nat))
    requires bs != []
    ensures 1 <= r.1 <= |bs|
  {
    var b0: int := bs[0];
    var b1: int := if |bs| > 1 then bs[1] else 0;
    var b2: int := if |bs| > 2 then bs[2] else 0;
    var b3: int := if |bs| > 3 then bs[3] else 0;
    if b0 < 0x80 then (b0 as char, 1)
    else if 0xC2 <= b0 <= 0xDF then
      if ContinuationIn(bs, 1, 0x80, 0xBF) then (((b0 - 0xC0) * 64 + (b1 - 0x80)) as char, 2)
      else (Replacement, 1)
    else if 0xE0 <= b0 <= 0xEF then
      var lo := if b0 == 0xE0 then 0xA0 else 0x80;
      var hi := if b0 == 0xED then 0x9F else 0xBF;
      if !ContinuationIn(bs, 1, lo, hi) then (Replacement, 1)
      else if !ContinuationIn(bs, 2, 0x80, 0xBF) then (Replacement, 2)
      else (((b0 - 0xE0) * 4096 + (b1 - 0x80) * 64 + (b2 - 0x80)) as char, 3)
    else if 0xF0 <= b0 <= 0xF4 then
      var lo := if b0 == 0xF0 then 0x90 else 0x80;
      var hi := if b0 == 0xF4 then 0x8F else 0xBF;
      if !ContinuationIn(bs, 1, lo, hi) then (Replacement, 1)
      else if !ContinuationIn(bs, 2, 0x80, 0xBF) then (Replacement, 2)
      else if !ContinuationIn(bs, 3, 0x80, 0xBF) then (Replacement, 3)
      else (((b0 - 0xF0) * 262144 + (b1 - 0x80) * 4096 + (b2 - 0x80) * 64 + (b3 - 0x80)) as char, 4)
    else (Replacement, 1)
  }

  /** UTF-8 decode without BOM, replacing ill-formed input by U+FFFD. */
  function Utf8Decode(bs: seq<byte>): string
    decreases |bs|
  {
    if bs == [] then []
    else
      var (c, n) := DecodeStep(bs);
      [c] + Utf8Decode(bs[n..])
  }

  lemma DecodeStepTwo(c: char, rest: seq<byte>)
    requires 0x80 <= c as int < 0x800
    ensures DecodeStep(Utf8Char(c) + rest) == (c, 2)
  {
    var v := c as int;
    var bs := Utf8Char(c) + rest;
    assert bs[0] == 0xC0 + v / 64 && bs[1] == 0x80 + v % 64;
    assert (v / 64) * 64 + v % 64 == v;
  }

  lemma DecodeStepThree(c: char, rest: seq<byte>)
    requires 0x800 <= c as int < 0x10000
    ensures DecodeStep(Utf8Char(c) + rest) == (c, 3)
  {
    var v := c as int;
    var bs := Utf8Char(c) + rest;
    var q := v / 64;
    var a := v / 4096;
    assert v == q * 64 + v % 64;
    assert q == a * 64 + q % 64;
    assert bs[0] == 0xE0 + a && bs[1] == 0x80 + q % 64 && bs[2] == 0x80 + v % 64;
    assert a == 0 ==> q >= 32;
    assert a == 0xD ==> q % 64 < 32;
    assert v == a * 4096 + (q % 64) * 64 + v % 64;
  }

  lemma DecodeStepFour(c: char, rest: seq<byte>)
    requires 0x10000 <= c as int
    ensures DecodeStep(Utf8Char(c) + rest) == (c, 4)
  {
    var v := c as int;
    var bs := Utf8Char(c) + rest;
    var q := v / 64;
    var p := v / 4096;
    var a := v / 262144;
    assert v == q * 64 + v % 64;
    assert q == p * 64 + q % 64;
    assert p == a * 64 + p % 64;
    assert bs[0] == 0xF0 + a && bs[1] == 0x80 + p % 64;
    assert bs[2] == 0x80 + q % 64 && bs[3] == 0x80 + v % 64;
    assert a == 0 ==> p >= 16;
    assert a == 4 ==> p % 64 < 16;
    assert v == a * 262144 + (p % 64) * 4096 + (q % 64) * 64 + v % 64;
  }

  /** Decoding reads back exactly the character that was encoded. */
  lemma DecodeStepOfChar(c: char, rest: seq<byte>)
    ensures DecodeStep(Utf8Char(c) + rest) == (c, |Utf8Char(c)|)
  {
    var v := c as int;
    if v < 0x80 {
    } else if v < 0x800 {
      DecodeStepTwo(c, rest);
    } else if v < 0x10000 {
      DecodeStepThree(c, rest);
    } else {
      DecodeStepFour(c, rest);
    }
  }

  /** UTF-8 decoding inverts UTF-8 encoding. */
  lemma {:induction false} Utf8RoundTrip(s: string)
    ensures Utf8Decode(Utf8(s)) == s
  {
    if s != [] {
      var bs := Utf8(s);
      DecodeStepOfChar(s[0], Utf8(s[1..]));
      assert bs[|Utf8Char(s[0])|..] == Utf8(s[1..]);
      Utf8RoundTrip(s[1..]);
    }
  }

  lemma {:induction false} Utf8Append(a: string, b: string)
    ensures Utf8(a + b) == Utf8(a) + Utf8(b)
  {
    if a == [] {
      assert a + b == b;
    } else {
      calc {
        Utf8(a + b);
        == { assert (a + b)[0] == a[0] && (a + b)[1..] == a[1..] + b; }
        Utf8Char(a[0]) + Utf8(a[1..] + b);
        == { Utf8Append(a[1..], b); }
        Utf8Char(a[0]) + (Utf8(a[1..]) + Utf8(b));
      }
    }
  }

  // ---------------------------------------------------------------------
  // Percent-encoding
  // ---------------------------------------------------------------------

  predicate IsAsciiAlnum(c: char) {
    ('a' <= c <= 'z') || ('A' <= c <= 'Z') || ('0' <= c <= '9')
  }

  /** Upper-case hexadecimal digit. */
  function HexDigit(d: nat): (c: char)
    requires d < 16
  {
    if d < 10 then ('0' as int + d) as char else ('A' as int + d - 10) as char
  }

  /** The value of a hexadecimal digit of either case. */
  function HexValue(c: char): Option<nat> {
    if '0' <= c <= '9' then Some(c as int - '0' as int)
    else if 'A' <= c <= 'F' then Some(c as int - 'A' as int + 10)
    else if 'a' <= c <= 'f' then Some(c as int - 'a' as int + 10)
    else None
  }

  /** `%XY` for one byte. */
  function PercentByte(b: byte): string {
    ['%', HexDigit(b / 16), HexDigit(b % 16)]
  }

  function PercentBytes(bs: seq<byte>): string {
    if bs == [] then [] else PercentByte(bs[0]) + PercentBytes(bs[1..])
  }

  /** The two encoders: `encodeURIComponent`, and the form serializer. */
  datatype EncodeSet = UriComponent | FormUrlEncoded

  /** The characters each encoder leaves as they are. */
  predicate Keeps(e: EncodeSet, c: char) {
    match e
    case UriComponent => IsAsciiAlnum(c) || c in "-_.!~*'()"
    case FormUrlEncoded => IsAsciiAlnum(c) || c in "*-._"
  }

  /** Every character an encoder can emit. */
  predicate EncodedChar(c: char) {
    IsAsciiAlnum(c) || c in "-_.!~*'()%+"
  }

  function EncodeChar(e: EncodeSet, c: char): string {
    if Keeps(e, c) then [c]
    else if e == FormUrlEncoded && c == ' ' then "+"
    else PercentBytes(Utf8Char(c))
  }

  lemma PercentBytesChars(bs: seq<byte>)
    ensures forall k :: 0 <= k < |PercentBytes(bs)| ==> EncodedChar(PercentBytes(bs)[k])
  {
    if bs != [] {
      PercentBytesChars(bs[1..]);
      var p := PercentBytes(bs);
      assert p == PercentByte(bs[0]) + PercentBytes(bs[1..]);
      forall k | 0 <= k < |p| ensures EncodedChar(p[k]) {
        if k >= 3 { assert p[k] == PercentBytes(bs[1..])[k - 3]; }
      }
    }
  }

  /** `encodeURIComponent(s)` or the form encoding of `s`: every character
      kept or written as `%XY` bytes of its UTF-8 encoding; the output only
      holds characters that are literal in a query component. */
  function Encode(e: EncodeSet, s: string): (r: string)
    ensures forall k :: 0 <= k < |r| ==> EncodedChar(r[k])
  {
    if s == [] then []
    else
      var h := EncodeChar(e, s[0]);
      var t := Encode(e, s[1..]);
      PercentBytesChars(Utf8Char(s[0]));
      assert forall k :: 0 <= k < |h| ==> EncodedChar(h[k]);
      assert forall k :: 0 <= k < |h + t| ==> EncodedChar((h + t)[k]) by {
        forall k | 0 <= k < |h + t| ensures EncodedChar((h + t)[k]) {
          if k < |h| { assert (h + t)[k] == h[k]; } else { assert (h + t)[k] == t[k - |h|]; }
        }
      }
      h + t
  }

  // ---------------------------------------------------------------------
  // Percent-decoding (the parser's side)
  // ---------------------------------------------------------------------

  /** The bytes of a form-encoded name or value: `+` becomes a space, `%XY`
      with two hexadecimal digits becomes that byte, and any other character
      (a `%` not followed by two hexadecimal digits included) stands for its
      own UTF-8 bytes. */
  function PercentDecodeBytes(s: string): seq<byte>
    decreases |s|
  {
    if s == [] then []
    else if s[0] == '%' && |s| >= 3 && HexValue(s[1]).Some? && HexValue(s[2]).Some? then
      [HexValue(s[1]).value * 16 + HexValue(s[2]).value] + PercentDecodeBytes(s[3..])
    else if s[0] == '+' then [0x20] + PercentDecodeBytes(s[1..])
    else Utf8Char(s[0]) + PercentDecodeBytes(s[1..])
  }

  /** A form-encoded name or value decoded to a string. */
  function Decode(s: string): string {
    Utf8Decode(PercentDecodeBytes(s))
  }

  lemma HexDigitValue(d: nat)
    requires d < 16
    ensures HexValue(HexDigit(d)) == Some(d)
  {
  }

  /** One `%XY` triple decodes to its byte. */
  lemma DecodeOneByte(b: byte, rest: string)
    ensures PercentDecodeBytes(PercentByte(b) + rest) == [b] + PercentDecodeBytes(rest)
  {
    HexDigitValue(b / 16);
    HexDigitValue(b % 16);
    var s := PercentByte(b) + rest;
    assert s[0] == '%' && s[1] == HexDigit(b / 16) && s[2] == HexDigit(b % 16) && s[3..] == rest;
  }

  lemma PercentBytesCons(bs: seq<byte>, rest: string)
    requires bs != []
    ensures PercentBytes(bs) + rest == PercentByte(bs[0]) + (PercentBytes(bs[1..]) + rest)
  {
  }

  lemma {:induction false} DecodePercentBytes(bs: seq<byte>, rest: string)
    ensures PercentDecodeBytes(PercentBytes(bs) + rest) == bs + PercentDecodeBytes(rest)
  {
    if bs == [] {
      assert PercentBytes(bs) + rest == rest;
    } else {
      var y := PercentBytes(bs[1..]) + rest;
      calc {
        PercentDecodeBytes(PercentBytes(bs) + rest);
        { PercentBytesCons(bs, rest); }
        PercentDecodeBytes(PercentByte(bs[0]) + y);
        { DecodeOneByte(bs[0], y); }
        [bs[0]] + PercentDecodeBytes(y);
        { DecodePercentBytes(bs[1..], rest); }
        [bs[0]] + (bs[1..] + PercentDecodeBytes(rest));
        { assert bs == [bs[0]] + bs[1..]; }
        bs + PercentDecodeBytes(rest);
      }
    }
  }

  lemma DecodeEncodedChar(e: EncodeSet, c: char, rest: string)
    ensures PercentDecodeBytes(EncodeChar(e, c) + rest) == Utf8Char(c) + PercentDecodeBytes(rest)
  {
    var h := EncodeChar(e, c);
    if Keeps(e, c) {
      assert (h + rest)[0] == c && (h + rest)[1..] == rest;
    } else if e == FormUrlEncoded && c == ' ' {
      assert (h + rest)[0] == '+' && (h + rest)[1..] == rest;
    } else {
      DecodePercentBytes(Utf8Char(c), rest);
    }
  }

  /** Percent-decoding an encoded string yields the UTF-8 of the original. */
  lemma {:induction false} DecodeEncodedBytes(e: EncodeSet, s: string)
    ensures PercentDecodeBytes(Encode(e, s)) == Utf8(s)
  {
    if s != [] {
      DecodeEncodedChar(e, s[0], Encode(e, s[1..]));
      DecodeEncodedBytes(e, s[1..]);
    }
  }

  /** Both encoders are inverted by the form decoder. */
  lemma DecodeEncode(e: EncodeSet, s: string)
    ensures Decode(Encode(e, s)) == s
  {
    DecodeEncodedBytes(e, s);
    Utf8RoundTrip(s);
  }

  /** Text with no `%` and no `+` decodes to itself. */
  lemma {:induction false} DecodeLiteralBytes(s: string)
    requires forall k :: 0 <= k < |s| ==> s[k] != '%' && s[k] != '+'
    ensures PercentDecodeBytes(s) == Utf8(s)
  {
    if s != [] {
      DecodeLiteralBytes(s[1..]);
    }
  }

  lemma DecodeLiteral(s: string)
    requires forall k :: 0 <= k < |s| ==> s[k] != '%' && s[k] != '+'
    ensures Decode(s) == s
  {
    DecodeLiteralBytes(s);
    Utf8RoundTrip(s);
  }

  // ---------------------------------------------------------------------
  // application/x-www-form-urlencoded lists
  // ---------------------------------------------------------------------

  datatype Pair = Pair(name: string, value: string)

  /** Parse one `&`-free sequence: split at the first `=` (a missing `=`
      gives an empty value) and decode both halves. */
  function ParseSegment(seg: string): seq<Pair> {
    if seg == [] then []
    else match Patterns.IndexOf(seg, '=')
      case None => [Pair(Decode(seg), "")]
      case Some(i) => [Pair(Decode(seg[..i]), Decode(seg[i + 1..]))]
  }

  /** The form parser: split on `&`, skip empty sequences, parse each. */
  function ParseQuery(q: string): seq<Pair>
    decreases |q|
  {
    match Patterns.IndexOf(q, '&')
    case None => ParseSegment(q)
    case Some(i) => ParseSegment(q[..i]) + ParseQuery(q[i + 1..])
  }

  /** `name=value` for one pair. */
  function SerializePair(p: Pair): string {
    Encode(FormUrlEncoded, p.name) + "=" + Encode(FormUrlEncoded, p.value)
  }

  /** `URLSearchParams.toString()`: the pairs serialized and joined by `&`. */
  function Serialize(ps: seq<Pair>): string {
    if ps == [] then []
    else if |ps| == 1 then SerializePair(ps[0])
    else SerializePair(ps[0]) + "&" + Serialize(ps[1..])
  }

  /** `get(name)`: the value of the first pair with that name. */
  function Get(ps: seq<Pair>, name: string): (r: Option<string>)
    ensures r.Some? <==> exists k :: 0 <= k < |ps| && ps[k].name == name
  {
    if ps == [] then None
    else if ps[0].name == name then Some(ps[0].value)
    else
      var r := Get(ps[1..], name);
      assert forall k :: 1 <= k < |ps| ==> ps[k] == ps[1..][k - 1];
      r
  }

  /** A segment whose name part has no `=` splits at the `=` after it. */
  lemma ParseSplit(name: string, value: string)
    requires forall k :: 0 <= k < |name| ==> name[k] != '='
    ensures ParseSegment(name + "=" + value) == [Pair(Decode(name), Decode(value))]
  {
    var seg := name + "=" + value;
    var i := Patterns.IndexOf(seg, '=');
    assert seg[|name|] == '=';
    assert i.Some? && i.value == |name|;
    assert seg[..|name|] == name && seg[|name| + 1..] == value;
  }

  /** `name=value` where the name is literal text: the segment parses to
      that name and the decoded value. */
  lemma ParseNameValue(name: string, value: string)
    requires forall k :: 0 <= k < |name| ==> name[k] != '=' && name[k] != '%' && name[k] != '+'
    ensures ParseSegment(name + "=" + value) == [Pair(name, Decode(value))]
  {
    ParseSplit(name, value);
    DecodeLiteral(name);
  }

  /** A segment with no `&` parses on its own when followed by `&` and more. */
  lemma ParseQueryCons(seg: string, rest: string)
    requires forall k :: 0 <= k < |seg| ==> seg[k] != '&'
    ensures ParseQuery(seg + "&" + rest) == ParseSegment(seg) + ParseQuery(rest)
  {
    var q := seg + "&" + rest;
    assert q[|seg|] == '&';
    var i := Patterns.IndexOf(q, '&');
    assert i.Some? && i.value == |seg|;
    assert q[..|seg|] == seg && q[|seg| + 1..] == rest;
  }

  lemma ParseQueryLast(seg: string)
    requires forall k :: 0 <= k < |seg| ==> seg[k] != '&'
    ensures ParseQuery(seg) == ParseSegment(seg)
  {
  }

  /** `name=value` has an `&` only where one of its parts has. */
  lemma NoAmpJoin(name: string, value: string)
    requires NoAmp(name) && NoAmp(value)
    ensures NoAmp(name + "=" + value)
  {
    var seg := name + "=" + value;
    forall k | 0 <= k < |seg| ensures seg[k] != '&' {
      if k < |name| { assert seg[k] == name[k]; } else if k > |name| { assert seg[k] == value[k - |name| - 1]; }
    }
  }

  /** A serialized pair has no `&` and parses back to the pair. */
  lemma SerializePairParses(p: Pair)
    ensures forall k :: 0 <= k < |SerializePair(p)| ==> SerializePair(p)[k] != '&'
    ensures ParseSegment(SerializePair(p)) == [p]
  {
    var n := Encode(FormUrlEncoded, p.name);
    var v := Encode(FormUrlEncoded, p.value);
    forall k | 0 <= k < |n| ensures n[k] != '=' {
      EncodedCharFacts(n[k]);
    }
    EncodedQueryChars(FormUrlEncoded, p.name);
    EncodedQueryChars(FormUrlEncoded, p.value);
    NoAmpJoin(n, v);
    ParseSplit(n, v);
    DecodeEncode(FormUrlEncoded, p.name);
    DecodeEncode(FormUrlEncoded, p.value);
  }

  /** The form parser inverts `URLSearchParams` serialization: any list of
      names and values, in order, duplicates and empty strings included. */
  lemma {:induction false} ParseSerialize(ps: seq<Pair>)
    ensures ParseQuery(Serialize(ps)) == ps
  {
    if ps != [] {
      SerializePairParses(ps[0]);
      if |ps| == 1 {
        ParseQueryLast(SerializePair(ps[0]));
      } else {
        ParseQueryCons(SerializePair(ps[0]), Serialize(ps[1..]));
        ParseSerialize(ps[1..]);
      }
    }
  }

  /** A character of serialized form data. */
  predicate QueryChar(c: char) {
    EncodedChar(c) || c == '=' || c == '&'
  }

  /** Serialized form data holds only encoder output, `=` and `&`. */
  lemma {:induction false} SerializeChars(ps: seq<Pair>)
    ensures AllQueryChars(Serialize(ps))
  {
    if ps != [] {
      var n := Encode(FormUrlEncoded, ps[0].name);
      var v := Encode(FormUrlEncoded, ps[0].value);
      EncodedQueryChars(FormUrlEncoded, ps[0].name);
      EncodedQueryChars(FormUrlEncoded, ps[0].value);
      QueryJoin(n, '=', v);
      var h := SerializePair(ps[0]);
      assert h == n + "=" + v;
      if |ps| > 1 {
        SerializeChars(ps[1..]);
        QueryJoin(h, '&', Serialize(ps[1..]));
        assert Serialize(ps) == h + "&" + Serialize(ps[1..]);
      }
    }
  }

  /** Query text joined by a query character is query text. */
  lemma QueryJoin(a: string, c: char, b: string)
    requires AllQueryChars(a) && QueryChar(c) && AllQueryChars(b)
    ensures AllQueryChars(a + [c] + b)
  {
    var s := a + [c] + b;
    forall k | 0 <= k < |s| ensures QueryChar(s[k]) {
      if k < |a| { assert s[k] == a[k]; } else if k > |a| { assert s[k] == b[k - |a| - 1]; }
    }
  }

  predicate AllQueryChars(s: string) {
    forall k :: 0 <= k < |s| ==> QueryChar(s[k])
  }

  /** Pairs written as `name=value` and joined by `&`, with the values
      already encoded by the caller. */
  function JoinRaw(ps: seq<Pair>): string {
    if ps == [] then []
    else if |ps| == 1 then ps[0].name + "=" + ps[0].value
    else ps[0].name + "=" + ps[0].value + "&" + JoinRaw(ps[1..])
  }

  /** A name the form parser reads back as it is. */
  predicate LiteralName(s: string) {
    forall k :: 0 <= k < |s| ==> s[k] != '=' && s[k] != '%' && s[k] != '+' && s[k] != '&'
  }

  predicate NoAmp(s: string) {
    forall k :: 0 <= k < |s| ==> s[k] != '&'
  }

  /** The pairs with their values decoded. */
  function DecodeValues(ps: seq<Pair>): (r: seq<Pair>)
    ensures |r| == |ps|
    ensures forall k :: 0 <= k < |ps| ==> r[k] == Pair(ps[k].name, Decode(ps[k].value))
  {
    if ps == [] then [] else [Pair(ps[0].name, Decode(ps[0].value))] + DecodeValues(ps[1..])
  }

  lemma RawSegment(p: Pair)
    requires LiteralName(p.name) && NoAmp(p.value)
    ensures NoAmp(p.name + "=" + p.value)
    ensures ParseSegment(p.name + "=" + p.value) == [Pair(p.name, Decode(p.value))]
  {
    var seg := p.name + "=" + p.value;
    forall k | 0 <= k < |seg| ensures seg[k] != '&' {
      if k < |p.name| { assert seg[k] == p.name[k]; } else if k > |p.name| { assert seg[k] == p.value[k - |p.name| - 1]; }
    }
    ParseNameValue(p.name, p.value);
  }

  /** The form parser splits joined pairs back apart and decodes each
      value. */
  lemma {:induction false} ParseJoinRaw(ps: seq<Pair>)
    requires forall k :: 0 <= k < |ps| ==> LiteralName(ps[k].name) && NoAmp(ps[k].value)
    ensures ParseQuery(JoinRaw(ps)) == DecodeValues(ps)
  {
    if ps != [] {
      RawSegment(ps[0]);
      if |ps| == 1 {
        ParseQueryLast(ps[0].name + "=" + ps[0].value);
      } else {
        ParseQueryCons(ps[0].name + "=" + ps[0].value, JoinRaw(ps[1..]));
        ParseJoinRaw(ps[1..]);
      }
    }
  }

  /** Joined query characters are query characters. */
  lemma {:induction false} JoinRawChars(ps: seq<Pair>)
    requires forall k :: 0 <= k < |ps| ==> AllQueryChars(ps[k].name) && AllQueryChars(ps[k].value)
    ensures AllQueryChars(JoinRaw(ps))
  {
    if ps != [] {
      var h := ps[0].name + "=" + ps[0].value;
      QueryJoin(ps[0].name, '=', ps[0].value);
      if |ps| > 1 {
        JoinRawChars(ps[1..]);
        QueryJoin(h, '&', JoinRaw(ps[1..]));
      }
    }
  }

  /** Encoder output is made of query characters and holds no `&`. */
  lemma EncodedQueryChars(e: EncodeSet, s: string)
    ensures AllQueryChars(Encode(e, s)) && NoAmp(Encode(e, s))
  {
    var r := Encode(e, s);
    forall k | 0 <= k < |r| ensures r[k] != '&' {
      EncodedCharFacts(r[k]);
    }
  }

  // ---------------------------------------------------------------------
  // The URL parser's pre-processing and query extraction
  // ---------------------------------------------------------------------

  /** C0 control or space. */
  predicate IsC0OrSpace(c: char) {
    c as int <= 0x20
  }

  /** An ASCII tab or newline. */
  predicate IsTabOrNewline(c: char) {
    c == '\t' || c == '\n' || c == '\r'
  }

  function StripTrailingC0(s: string): string
    decreases |s|
  {
    if s != [] && IsC0OrSpace(s[|s| - 1]) then StripTrailingC0(s[..|s| - 1]) else s
  }

  function StripLeadingC0(s: string): string
    decreases |s|
  {
    if s != [] && IsC0OrSpace(s[0]) then StripLeadingC0(s[1..]) else s
  }

  function RemoveTabNewline(s: string): string {
    if s == [] then []
    else (if IsTabOrNewline(s[0]) then [] else [s[0]]) + RemoveTabNewline(s[1..])
  }

  /** The input as the URL parser reads it: leading and trailing C0 controls
      and spaces removed, then every tab and newline removed. */
  function UrlInput(s: string): string {
    RemoveTabNewline(StripTrailingC0(StripLeadingC0(s)))
  }

  /** Text from the first `?` up to the first `#` (the query of a URL
      without `?` in its scheme or authority). */
  function QueryOf(u: string): string {
    match Patterns.IndexOf(u, '?')
    case None => []
    case Some(i) =>
      var after := u[i + 1..];
      match Patterns.IndexOf(after, '#')
      case None => after
      case Some(j) => after[..j]
  }

  /** `new URL(s).searchParams`, as the ordered name/value list. The query
      characters the URL parser percent-encodes are decoded again by the form
      parser, so the list is parsed from the raw query text. */
  function SearchParams(s: string): seq<Pair> {
    ParseQuery(QueryOf(UrlInput(s)))
  }

  /** Text without C0 controls or spaces passes the URL pre-processing
      unchanged. */
  lemma UrlInputNoop(s: string)
    requires forall k :: 0 <= k < |s| ==> !IsC0OrSpace(s[k])
    ensures UrlInput(s) == s
  {
    RemoveTabNewlineNoop(s);
  }

  lemma {:induction false} RemoveTabNewlineNoop(s: string)
    requires forall k :: 0 <= k < |s| ==> !IsC0OrSpace(s[k])
    ensures RemoveTabNewline(s) == s
  {
    if s != [] {
      RemoveTabNewlineNoop(s[1..]);
    }
  }

  /** Only `EncodedChar` text: no C0 control, space, `&`, `=`, `#` or `?`. */
  lemma EncodedCharFacts(c: char)
    requires EncodedChar(c)
    ensures !IsC0OrSpace(c) && c != '&' && c != '=' && c != '#' && c != '?'
  {
  }
}

=== FILE: user_routes.dfy ===
/** The `/api/user` routes that change the store: the monthly salary and
    the display name of the authenticated user. */
module UserRoutes {
  import opened Wrappers
  import opened JsText
  import opened Store
  import CategoryRoutes

  datatype UserError = InvalidSalary | InvalidName

  /** `!salary || salary <= 0`. */
  predicate SalaryInvalid(salary: Option<real>) {
    !TruthyNum(salary) || salary.value <= 0.0
  }

  /** `PUT /salary`: a present, positive salary is written to the user's row
      (by id; when there is no such row the update touches nothing and still
      succeeds) and echoed back. */
  function UpdateSalary(db: Db, user: UserId, salary: Option<real>): (r: Outcome<real, UserError>)
    ensures r.result.Err? <==> SalaryInvalid(salary)
    ensures r.result.Err? ==> r.result.error == InvalidSalary && r.db == db
    ensures r.result.Ok? ==>
      && salary.Some? && r.result.value == salary.value && r.result.value > 0.0
      && r.db == db.(users := r.db.users)
      && r.db.users.Keys == db.users.Keys
      && (user in db.users ==> r.db.users[user] == db.users[user].(salary := salary.value))
      && (forall u :: u in db.users && u != user ==> r.db.users[u] == db.users[u])
  {
    if SalaryInvalid(salary) then Outcome(db, Err(InvalidSalary))
    else if user in db.users then
      Outcome(db.(users := db.users[user := db.users[user].(salary := salary.value)]), Ok(salary.value))
    else Outcome(db, Ok(salary.value))
  }

  /** A stored salary is positive, so the balance recalculation that follows
      it succeeds and gives each of the user's categories its allocation of
      the new salary. */
  lemma SalaryThenRecalculate(db: Db, user: UserId, salary: Option<real>, id: CategoryId)
    requires user in db.users
    requires UpdateSalary(db, user, salary).result.Ok?
    requires id in db.categories && db.categories[id].owner == user
    ensures var d := UpdateSalary(db, user, salary).db;
      var r := CategoryRoutes.Recalculate(d, user);
      && r.result.Ok?
      && id in r.db.categories
      && r.db.categories[id].balance
         == CategoryRoutes.Allocation(salary.value, db.categories[id].percentage, db.categories[id].fixedAmount)
  {
  }

  /** `!name || name.trim().length === 0`. */
  predicate NameInvalid(name: Option<string>) {
    !Truthy(name) || IsBlank(name.value)
  }

  /** `PUT /profile`: a name that is not blank is stored trimmed (by id, as
      for the salary) and the trimmed name is returned. */
  function UpdateName(db: Db, user: UserId, name: Option<string>): (r: Outcome<string, UserError>)
    ensures r.result.Err? <==> NameInvalid(name)
    ensures r.result.Err? ==> r.result.error == InvalidName && r.db == db
    ensures r.result.Ok? ==> r.result.value == Trim(name.value)
    ensures r.result.Ok? ==>
      && r.db == db.(users := r.db.users)
      && r.db.users.Keys == db.users.Keys
      && (user in db.users ==> r.db.users[user] == db.users[user].(name := r.result.value))
      && (forall u :: u in db.users && u != user ==> r.db.users[u] == db.users[u])
  {
    if NameInvalid(name) then Outcome(db, Err(InvalidName))
    else
      var trimmed := Trim(name.value);
      if user in db.users then
        Outcome(db.(users := db.users[user := db.users[user].(name := trimmed)]), Ok(trimmed))
      else Outcome(db, Ok(trimmed))
  }

  /** The accepted name is the input without its surrounding whitespace:
      what is left of it once a whitespace prefix and a whitespace suffix
      are dropped, starting and ending with a non-space character, and
      stored under the user's id. */
  lemma UpdateNameTrims(db: Db, user: UserId, name: Option<string>)
    requires UpdateName(db, user, name).result.Ok?
    ensures name.Some?
    ensures var n := UpdateName(db, user, name).result.value;
      && n != [] && !IsSpace(n[0]) && !IsSpace(n[|n| - 1])
      && (exists i :: OccursAt(name.value, n, i) && AllSpace(name.value[..i]) && AllSpace(name.value[i + |n|..]))
      && Trim(n) == n
    ensures user in db.users ==> UpdateName(db, user, name).db.users[user].name == Trim(name.value)
  {
    TrimShape(name.value);
    TrimBetween(name.value);
    TrimIdempotent(name.value);
  }

  /** The profile routes change only `users`, so every transaction row
      keeps fitting the store. */
  lemma UserRoutesKeepLedger(db: Db, user: UserId, salary: Option<real>, name: Option<string>)
    requires Ledger(db)
    ensures Ledger(UpdateSalary(db, user, salary).db)
    ensures Ledger(UpdateName(db, user, name).db)
  {
    LedgerFrame(db, UpdateSalary(db, user, salary).db);
    LedgerFrame(db, UpdateName(db, user, name).db);
  }
}

=== FILE: wrappers.dfy ===
/** Option and Result types used for the server's error responses and the
    client's nullable values. */
module Wrappers {

  /** A value that may be absent: JavaScript's `undefined`/`null`. */
  datatype Option<+T> = None | Some(value: T) {

    /** The value, or `default` when absent (JavaScript's `x ?? default`). */
    function GetOr(default: T): T {
      match this
      case Some(v) => v
      case None => default
    }
  }

  /** Either a successful value or an error, one per handled error path. */
  datatype Result<+R, +E> = Ok(value: R) | Err(error: E) {

    predicate IsFailure() {
      Err?
    }

    function PropagateFailure<U>(): Result<U, E>
      requires Err?
    {
      Err(error)
    }

    function Extract(): R
      requires Ok?
    {
      value
    }
  }
}
